=== FILE: README.md ===
# KusogluFinans in Dafny

KusogluFinans is a desktop finance application for a Turkish company: a React front
end over Firestore, packaged with Tauri. It keeps:

- payments: card entries, supplier (`cari`) payments, cheques and free payments;
- credit cards and their carry-over (`devir`) entries;
- supplier accounts, bank accounts and categories;
- reminders of recurring bills, with a payment history;
- an agenda, statistics, an internal message box, and a user administration page.

The application shell lets a login survive a restart for at most seven days. It binds
the installation to one machine through a hardware id that the Rust side builds from
the MAC address. A separate Python script prints a hardware report.

This project models the computations of those views as Dafny functions over values.
The documents a view reads are passed in as sequences. A write a view issues is
returned as a value.

Three parts keep state that their handlers change in place. These are classes, and
their methods carry `modifies` frames:

- the `useCardData` hook;
- the application shell's session and device gate;
- the reminder panel of the side bar.

Handlers that loop over documents are methods with loop invariants, each proved
against a function that specifies it: building the card usages, the day summary, the
statistics tallies, the spreadsheet import and the reminder updates.

Modules:

- `Common`, `Text`, `Sorting` and `Domain` hold what the others share:
  - options, filtering and sums over sequences;
  - the string operations (ASCII case mapping, `includes`, `trim`, digits);
  - the stable sort behind `Array.prototype.sort`;
  - the stored records.
- `Ledger` and `CardData`: a card's running balance and the hook that computes it for
  every card.
- `Currency`: the amount input's sanitising and thousands grouping.
- `CardDetail`, `CardList`, `CardPage`: the card pages.
- `PaymentEdit`: editing a payment.
- `ReminderMatch`: how a saved payment settles reminders.
- `Reminders`: the reminder pages, the form and the history.
- `Calendar` and `DayList`: the agenda and the payment list.
- `Statistics`: the statistics page.
- `Definitions`: the definitions page.
- `Messages`, `Admin`, `Register`: the message box, the administration page and the
  registration form.
- `Session`: the application shell.
- `Fingerprint`: the device fingerprint.
- `Hardware`: the Rust hardware id and the Python report.

## Model

| member | source | states |
|---|---|---|
| Sorting.Sort | src/hooks/useCardData.js:13 | the sorted list is a permutation of the input (same multiset, same length) |
| Sorting.SortSorted | src/hooks/useCardData.js:13 | under a total preorder comparator the result is sorted |
| Sorting.SortAgrees | src/hooks/useCardData.js:13 | two comparators that agree on the list's elements sort it identically |
| Sorting.SortStable | src/hooks/useCardData.js:13 | the sort is stable: for every element, the elements the comparator ranks level with it come out in their input order, so same-day ledger entries keep the order they were read in |
| Common.FindFirst | src/components/YeniOdeme.jsx:160 | `find` gives an element satisfying the predicate, taken from the list, and nothing exactly when no element satisfies it |
| Common.FindFirstIsFirst | src/components/YeniOdeme.jsx:160 | when every element before position i fails the predicate and the element at i satisfies it, `find` returns the element at i |
| Domain.DateLeTotalOrder | src/hooks/useCardData.js:13 | the date comparison `new Date(a) - new Date(b)` is total, transitive and antisymmetric on calendar days |
| Domain.DaysInMonth | src/pages/Ajanda.jsx:62-63 | a month has 28 to 31 days, and 29 exactly in February of a leap year |
| Domain.FindCard | src/components/YeniOdeme.jsx:160 | `Common.FindFirst` on the card id: `find` gives a card with the id when one is in the list, and nothing exactly when none is |
| Domain.FindCari | src/components/DuzenleOdeme.jsx:252 | `Common.FindFirst` on the account id: `find` gives a supplier account with the id when one is in the list, and nothing exactly when none is |
| Ledger.Movement | src/hooks/useCardData.js:23-25 | a `kredi_karti` entry adds its amount, a `cari` entry subtracts it, any other type adds nothing |
| Ledger.BalanceAfterDevir | src/hooks/useCardData.js:16-26 | after the latest carry-over, the balance is minus its amount plus the movements of the later entries |
| Ledger.BalanceWithoutDevir | src/hooks/useCardData.js:16-26 | without a carry-over, the first entry counts nothing and the balance is the sum of the later movements |
| Ledger.BalancePrefix | src/hooks/useCardData.js:16-26 | the balance at an index depends only on the entries up to that index |
| Ledger.ByDateTotalPreorder | src/hooks/useCardData.js:13 | the date comparator is a total preorder, so the sort is well defined |
| Ledger.CardPayments | src/hooks/useCardData.js:10 | the filtered entries are exactly the card's entries |
| Ledger.SortedCardPaymentsSpec | src/hooks/useCardData.js:10-13 | the card's entries come out in date order, as a permutation of the card's entries |
| Ledger.CardUsageNoPayments | src/hooks/useCardData.js:11 | a card without entries has usage 0 |
| Ledger.CardUsageOtherCards | src/hooks/useCardData.js:10 | entries of other cards, before or after, do not change a card's usage |
| Ledger.CardUsageLatestDevir | src/hooks/useCardData.js:18-19 | a carry-over later than every other entry fixes the usage at minus its amount |
| Ledger.CardUsageSingleEntry | src/hooks/useCardData.js:21 | a single entry that is not a carry-over gives usage 0 |
| Ledger.CheckSubmit | src/components/YeniOdeme.jsx:152-254 | a repayment above the debt, or a card payment above the available limit, is warned about with the exceeded amount and not saved; otherwise the payment is saved |
| CardData.BuildUsages | src/hooks/useCardData.js:39-43 | the map has one key per card id and holds each card's usage |
| CardData.CardDataHook.constructor | src/hooks/useCardData.js:5-7 | no cards, no usages, usages not loaded |
| CardData.CardDataHook.LoadCards | src/hooks/useCardData.js:31-35 | the fetched cards replace the list and the usages are marked stale |
| CardData.CardDataHook.LoadCardUsages | src/hooks/useCardData.js:37-47 | the usages hold every card's usage over the fetched payments and are marked loaded |
| CardData.CardDataHook.OnCardsChanged | src/hooks/useCardData.js:53-59 | an empty card list only marks the usages loaded; otherwise every card's usage is computed |
| Calendar.ShownOn | src/pages/Ajanda.jsx:82 | a cheque with a due date is shown on its due date, anything else on its payment date |
| Calendar.DateCompare | src/pages/Ajanda.jsx:90 | the sign of the date difference is negative, zero or positive exactly when the first day is earlier, the same or later |
| Calendar.ChequesFirstTotalPreorder | src/pages/Ajanda.jsx:87-99 | "cheques first, then by payment date" is a total preorder |
| Calendar.DayCompareOnOneDay | src/pages/Ajanda.jsx:87-99 | on the payments of one day the comparator orders exactly as "cheques first, then by payment date" |
| Calendar.PaymentsForDay | src/pages/Ajanda.jsx:79-100 | the day's list holds exactly the non-carry-over payments shown on that day, as a permutation of the filter, sorted cheques first |
| Calendar.ChequesBeforeOthers | src/pages/Ajanda.jsx:95-96 | in a day's list no cheque comes after a payment that is not a cheque |
| Calendar.TotalForDay | src/pages/Ajanda.jsx:102-104 | the day's total is the sum of the filtered amounts, whatever the sort did |
| Calendar.IsHoliday | src/pages/Ajanda.jsx:106-140 | a Sunday is closed; the fixed holidays are closed; the commemoration days are marked but not closed; any other day is unmarked |
| Calendar.SundayHidesSpecialDay | src/pages/Ajanda.jsx:112 | a commemoration day on a Sunday shows as "Pazar", and on a weekday is not closed |
| Calendar.LeadingBlanks | src/pages/Ajanda.jsx:64 | the blank cells before the 1st number 0 to 6 and put the 1st in its Monday-first column |
| Calendar.RowCount | src/pages/Ajanda.jsx:66 | the row count is the least whose seven cells per row hold every cell |
| Calendar.MonthRows | src/pages/Ajanda.jsx:64-67 | a month needs four to six rows, and the compact layout applies exactly when it needs more than 35 cells |
| Calendar.MonthCount | src/pages/Ajanda.jsx:211 | the payment count is at most the number of payments, and equals it exactly when there is no carry-over |
| Calendar.MonthTotalAndCarryOvers | src/pages/Ajanda.jsx:205 | the month total plus the carried-over amounts is the sum of every amount |
| Calendar.TypeCountsWithinCount | src/pages/Ajanda.jsx:218-219 | the card and supplier counts together never exceed the number of payments |
| Calendar.DayClick | src/pages/Ajanda.jsx:142-152 | a day with shown payments opens their list; any other day opens the new-payment form for that day |
| DayList.DayPayments | src/components/OdemeListesi.jsx:20-33 | the list holds exactly the payments shown on the day and the cheques issued on it; a cheque that is both appears twice |
| DayList.ChequeDueAndIssuedSameDay | src/components/OdemeListesi.jsx:247-256 | a cheque issued and due on the day is listed twice and each copy adds its amount to the total |
| DayList.ChequeWithoutDueDateAddsNothing | src/components/OdemeListesi.jsx:247-256 | a cheque without a due date issued on the day is listed twice and neither copy adds to the total |
| DayList.ChequeIssuedEarlierAddsNothing | src/components/OdemeListesi.jsx:247-256 | a cheque issued on the day but due on another is listed and adds nothing to the total |
| DayList.AccountName | src/components/OdemeListesi.jsx:285 | an account name is never empty: a missing one reads "Bilinmeyen Hesap" |
| DayList.BucketOf | src/components/OdemeListesi.jsx:284-300 | card repayments and supplier payments by cheque or DBS go to their bank account; supplier payments by card, by transfer and otherwise to their own boxes; free payments to none |
| DayList.Summarise | src/components/OdemeListesi.jsx:266-302 | the `forEach` loop computes the summary of the rows in order |
| DayList.StepBoxes | src/components/OdemeListesi.jsx:284-300 | one row adds its amount to its own box and to no other |
| DayList.StepAccount | src/components/OdemeListesi.jsx:285-297 | one row adds its amount to its own account entry, creating it when missing, and leaves every other account alone |
| DayList.BoxesAreSums | src/components/OdemeListesi.jsx:266-302 | the cash box, the transfers and the supplier card payments each hold the sum of the rows that go to them |
| DayList.AccountsAreSums | src/components/OdemeListesi.jsx:266-302 | an account appears exactly when a counted row is drawn from it, and holds the sum of those rows |
| DayList.SummaryConserves | src/components/OdemeListesi.jsx:247-302 | the day's total equals the accounts, the boxes and the free payments together: nothing is lost or counted twice |
| DayList.SummaryMissesFreePayments | src/components/OdemeListesi.jsx:247-302 | without free payments the boxes and accounts add up to the day's total |
| DayList.WeightlessRows | src/components/OdemeListesi.jsx:247-302 | without free payments the rows that go to no box add nothing to the total |
| DayList.PositiveRowShows | src/components/OdemeListesi.jsx:304 | with amounts that are not negative, a counted row with a positive amount makes the summary show |
| DayList.MethodLabel | src/components/OdemeListesi.jsx:53-57 | nakit → "Nakit", dbs → "DBS", havale → "Havale", kredi_karti → "Kredi Kartı", cek → "Çek", and "?" exactly for any other method |
| DayList.MethodLabelsDistinct | src/components/OdemeListesi.jsx:53-57 | different known methods get different labels |
| Statistics.Average | src/pages/Istatistikler.jsx:28-30 | the average times the count is the total, and an empty month averages 0 |
| Statistics.AverageWithinBounds | src/pages/Istatistikler.jsx:30 | the average lies between the smallest and the largest amount |
| Statistics.IndexOfKey | src/pages/Istatistikler.jsx:32-50 | the accumulator's entry for a key is its first entry with that key, and there is none exactly when no entry has it |
| Statistics.Tally | src/pages/Istatistikler.jsx:32-41 | the `reduce` loop builds the accumulator of the payments filed under their keys |
| Statistics.GroupsDistinct | src/pages/Istatistikler.jsx:32-50 | every key has at most one entry in the accumulator |
| Statistics.AddToKeys | src/pages/Istatistikler.jsx:33 | adding keeps the existing keys in place and appends a new entry exactly for an unseen key |
| Statistics.AddToIndex | src/pages/Istatistikler.jsx:33 | after adding, a key is found where it was, or last when it was new |
| Statistics.AddedEntry | src/pages/Istatistikler.jsx:33 | the entry added to grows by the amount and by one payment |
| Statistics.EntryFitsStep | src/pages/Istatistikler.jsx:32-41 | one more payment keeps every key's entry equal to the sum and count of its payments |
| Statistics.GroupOfKey | src/pages/Istatistikler.jsx:32-50 | a key's entry, when present, holds the sum and the number of the payments filed under it |
| Statistics.GroupsAreSums | src/pages/Istatistikler.jsx:32-50 | every entry holds the sum and the number of the payments filed under its key |
| Statistics.GroupPresentIff | src/pages/Istatistikler.jsx:32-50 | a key has an entry exactly when some payment is filed under it |
| Statistics.GroupsCountPositive | src/pages/Istatistikler.jsx:32-50 | every entry counts at least one payment |
| Statistics.GroupsAddUp | src/pages/Istatistikler.jsx:28-41 | the entries' totals add up to the month's total and their counts to its count |
| Statistics.ByTotalDescendingTotalPreorder | src/pages/Istatistikler.jsx:52 | "larger total first" is a total preorder |
| Statistics.TopCari | src/pages/Istatistikler.jsx:52 | `slice(0, 5)`: exactly min(5, n) suppliers are shown, n the number of supplier groups |
| Statistics.TakeOfSorted | src/pages/Istatistikler.jsx:52 | the first five of a sorted list are sorted and no group left out has a larger total than one kept |
| Statistics.TopCariFromGroups | src/pages/Istatistikler.jsx:43-52 | the top list is the first min(5, n) of the supplier groups sorted by total, largest first: a prefix of that sorted list, of that length, a sub-collection of the groups, itself sorted, and no supplier left out has a larger total than one shown |
| Statistics.FewSuppliersAllShown | src/pages/Istatistikler.jsx:52 | with at most five suppliers every supplier is shown |
| Statistics.TopCariTotals | src/pages/Istatistikler.jsx:43-50 | a shown supplier carries the sum and the number of its named supplier payments |
| Statistics.ChequeStats | src/pages/Istatistikler.jsx:54-58 | the cheque count is at most the payment count, and zero exactly when no payment is a cheque |
| Statistics.ChequeStatsAreMethodEntry | src/pages/Istatistikler.jsx:37-58 | the cheque figures are exactly the `cek` entry of the per-method totals |
| Statistics.MonthlyComparison | src/pages/Istatistikler.jsx:60-71 | six totals, oldest month first, each the sum of that month's payments |
| Statistics.TypeLabel | src/pages/Istatistikler.jsx:85-87 | the two known types get their labels and any other type keeps its key |
| Statistics.MethodLabel | src/pages/Istatistikler.jsx:89-97 | nakit → "Nakit", dbs → "DBS", kredi_karti → "Kredi Kartı", cek → "Çek", and any other method keeps its key |
| Statistics.LabelsIdempotent | src/pages/Istatistikler.jsx:85-97 | a label is not itself a key with a label: labelling twice is labelling once |
| Statistics.MethodLabelsDistinct | src/pages/Istatistikler.jsx:89-97 | different labelled methods get different labels |
| Statistics.LoadStatistics | src/pages/Istatistikler.jsx:23-83 | the page's figures are the month's total, count, average, per-type and per-method groups, top suppliers, cheque figures and the six monthly totals |
| CardDetail.LoadedPayments | src/components/CreditCard/CardDetail.jsx:71-78 | the loaded rows are exactly the card's entries, as a permutation of the filter, in date order |
| CardDetail.LoadedBalanceIsUsage | src/components/CreditCard/CardDetail.jsx:157-171 | the balance under the last loaded row equals the card's usage as the card list computes it |
| CardDetail.DateRangeBounds | src/components/CreditCard/CardDetail.jsx:184-188 | each date bound is inclusive, and without bounds every date passes |
| CardDetail.FilteredPayments | src/components/CreditCard/CardDetail.jsx:173-191 | the shown rows keep the loaded order and are exactly the rows that match the text and lie in the date range |
| CardDetail.EmptyFilterShowsAll | src/components/CreditCard/CardDetail.jsx:173-191 | an empty search without date bounds shows every row |
| CardDetail.HiddenRowDoesNotCount | src/components/CreditCard/CardDetail.jsx:336 | a hidden row is left out of the shown rows, so the balance column runs over the shown rows as if it did not exist |
| CardDetail.SaveUpdates | src/components/CreditCard/CardDetail.jsx:98-108 | the amount is the cleaned amount text; a carry-over keeps the description "Devir", anything else takes the new one; the date changes only when one is given |
| CardDetail.ApplyUpdate | src/components/CreditCard/CardDetail.jsx:110 | the update changes the amount, the description and the date given, and nothing else |
| CardDetail.EditedDevirStaysDevir | src/components/CreditCard/CardDetail.jsx:98-110 | an edited carry-over stays a carry-over of the same card described "Devir", and the balance at its row is minus the new amount |
| CardDetail.LocalePrefill | src/components/CreditCard/CardDetail.jsx:369-375 | the amount field's `toLocaleString('tr-TR')` prefill, built from the amount's integer and fraction digits, holds the decimal comma |
| CardDetail.PrefilledAmountCleans | src/components/CreditCard/CardDetail.jsx:99 | saving the edit field's `toLocaleString('tr-TR')` prefill untouched (lines 369-375, 383-389, read at line 404) hands `parseFloat` the same integer and fraction digits in plain decimal notation |
| CardDetail.DevirRecord | src/components/CreditCard/CardDetail.jsx:130-140 | the carry-over record has the id `Devir_<card id>`, the card, the method `devir`, the type `kredi_karti`, the amount and the date |
| CardDetail.PutWithId | src/firebase/firestore.js:67-71 | `setDoc` leaves the record under its id, replacing any record with that id, and keeps every other record |
| CardDetail.SaveDevir | src/components/CreditCard/CardDetail.jsx:124-140 | an empty or non-positive amount is refused; otherwise the store holds the card's single carry-over record |
| CardDetail.DevirSetsUsage | src/components/CreditCard/CardDetail.jsx:124-140 | a carry-over dated after every other entry of the card sets its usage to minus its amount |
| CardList.DetectCardType | src/components/CreditCard/CardList.jsx:4-10 | the brand is Visa, Mastercard or Troy exactly when the first digit of the number is 4, 5 or 9, and empty otherwise |
| CardList.BrandIgnoresSeparators | src/components/CreditCard/CardList.jsx:5 | numbers with the same digits have the same brand, whatever separators they carry |
| CardList.Available | src/components/CreditCard/CardList.jsx:57 | the available amount is the limit plus the card's usage, or the limit when no usage is known |
| CardList.Percent | src/components/CreditCard/CardList.jsx:106 | a percentage of a non-zero limit is the quotient times 100; of a zero limit it is an infinity or NaN, by the sign of the numerator |
| CardList.UsagePercent | src/components/CreditCard/CardList.jsx:58 | a card not in debt uses 0 percent; one in debt with a positive limit uses a positive share, at most 100 while within the limit |
| CardList.UsageColour | src/components/CreditCard/CardList.jsx:67 | red above 80 percent, yellow above 50, green otherwise |
| CardList.BarWidth | src/components/CreditCard/CardList.jsx:177 | the bar width is clamped to 0-100, is the share itself inside that range, and is missing for NaN |
| CardList.BarComplementsUsage | src/components/CreditCard/CardList.jsx:104-106 | for a card in debt within a positive limit, the bar width is 100 minus the usage share |
| CardList.ToggleActive | src/components/CreditCard/CardList.jsx:25-29 | the card with the id flips its active flag and every other card stays as it was |
| CardList.ToggleTwice | src/components/CreditCard/CardList.jsx:25-29 | toggling the same card twice gives the list back |
| CardPage.Banks | src/pages/KrediKarti.jsx:26 | one bank name per card, in order |
| CardPage.AscendingTotalPreorder | src/pages/KrediKarti.jsx:26 | the default string order of `sort()` is a total preorder |
| CardPage.AvailableBanks | src/pages/KrediKarti.jsx:26 | the choices are exactly the non-empty bank names of the cards, strictly ascending, so without repeats |
| CardPage.BanksOfCards | src/pages/KrediKarti.jsx:26 | a name is among the cards' bank names exactly when some card has it |
| CardPage.StrictlyAscending | src/pages/KrediKarti.jsx:26 | a sorted list without repeats is strictly ascending |
| CardPage.FilteredCards | src/pages/KrediKarti.jsx:28-35 | the listed cards keep their order and are exactly those matching the search, the bank and the category |
| CardPage.NoFilterShowsAll | src/pages/KrediKarti.jsx:28-35 | with no search and no filter every card is listed |
| CardPage.BankFilterNarrows | src/pages/KrediKarti.jsx:32 | choosing a bank keeps, of the unfiltered result, exactly the cards of that bank |
| CardPage.OfferedBankListsACard | src/pages/KrediKarti.jsx:26-35 | every bank offered by the filter lists at least one card |
| CardPage.LastFour | src/pages/KrediKarti.jsx:113 | the last four characters, or the whole number when it is shorter |
| CardPage.DisplayedCode | src/pages/KrediKarti.jsx:111-113 | administrators see the whole number; everyone else sees a mask ending in its last four characters |
| CardPage.MaskDependsOnLastFour | src/pages/KrediKarti.jsx:113 | for other users the shown number depends only on the last four characters |
| Definitions.FormatCardNumber | src/pages/Tanimlamalar.jsx:45-49 | `dddd-dddd-dddd-dddd`: the first 16 digits typed, in order, with a '-' exactly at every fifth position and only between groups (length n + ⌈n/4⌉ − 1 for n kept digits), and at most 19 characters |
| Definitions.GroupedLength | src/pages/Tanimlamalar.jsx:47-48 | grouping by four adds one separator between neighbouring groups |
| Definitions.FormatCardNumberIdempotent | src/pages/Tanimlamalar.jsx:45-49 | formatting a formatted number changes nothing |
| Definitions.FormatIBAN | src/pages/Tanimlamalar.jsx:51-55 | `TRdddd dddd …`: "TR", then the first 24 digits typed, in order, with a space exactly at every fifth position after "TR" and only between groups (length 2 + n + ⌈n/4⌉ − 1 for n kept digits) |
| Text.GroupedLayout | src/pages/Tanimlamalar.jsx:47-48 | `match(/.{1,4}/g).join(c)` puts `c` at every fifth position and the characters, in order, at the others |
| Definitions.StripTR | src/pages/Tanimlamalar.jsx:58 | removing a leading "TR" of either case keeps every digit |
| Definitions.HandleIBANChange | src/pages/Tanimlamalar.jsx:57-60 | dropping the leading "TR" before formatting gives the same text as formatting directly |
| Definitions.IBANIdempotent | src/pages/Tanimlamalar.jsx:51-60 | feeding the IBAN text back through the handler or the formatter changes nothing |
| Definitions.IbanBodyLength | src/pages/Tanimlamalar.jsx:51-55 | after "TR" the text has the kept digits plus one space between groups of four |
| Definitions.FormattedCardNumberAccepted | src/pages/Tanimlamalar.jsx:138-139 | a formatted number passes the 16-digit check exactly when at least 16 digits were typed |
| Definitions.IbanCheckAsWritten | src/pages/Tanimlamalar.jsx:177-178 | as written, the check on the formatter's output accepts exactly 20 digits, not 24 |
| Definitions.FullIbanRefused | src/pages/Tanimlamalar.jsx:177-178 | as written, a full 24-digit Turkish IBAN is refused |
| Definitions.IbanCheck | src/pages/Tanimlamalar.jsx:177-178 | the intended check on the formatter's output accepts exactly the full 24 digits |
| Definitions.SubmitCheckAsWritten | src/pages/Tanimlamalar.jsx:128-182 | `handleSubmit` as written: without the edit right nothing is saved; a card needs 16 digits; an account needs 24 characters after "TR", spaces counted; otherwise the record is saved |
| Definitions.FormattedIbanRefusedAsWritten | src/pages/Tanimlamalar.jsx:177-181 | as written, `handleSubmit` refuses a full IBAN from the form's own formatter |
| Definitions.SubmitCheck | src/pages/Tanimlamalar.jsx:128-182 | `handleSubmit` with the corrected IBAN check of the IBAN finding below: without the edit right nothing is saved; a card needs 16 digits and an account a full IBAN of 24 digits after "TR"; otherwise the record is saved |
| Definitions.FormattedIbanSaved | src/pages/Tanimlamalar.jsx:51-60 | a full IBAN from the form's own formatter is saved |
| Definitions.HandleSort | src/pages/Tanimlamalar.jsx:119-124 | the clicked column becomes the sort key, descending exactly when it was already sorted ascending |
| Definitions.HandleSortAlternates | src/pages/Tanimlamalar.jsx:119-124 | clicking the same column again always reverses the direction |
| Definitions.KeyLeTotalPreorder | src/pages/Tanimlamalar.jsx:103-113 | the column order, with text compared lowercased, is total and transitive |
| Definitions.ItemLeTotalPreorder | src/pages/Tanimlamalar.jsx:103-113 | the comparator in either direction is a total preorder |
| Definitions.FilteredData | src/pages/Tanimlamalar.jsx:75-117 | the table holds exactly the matching rows, as a permutation of the filter, sorted on the chosen column, or in stored order without one |
| Definitions.FirstOf | src/pages/Tanimlamalar.jsx:347-348 | the first non-empty cell among the headers, or empty exactly when every such cell is empty |
| Definitions.ParseRow | src/pages/Tanimlamalar.jsx:343-393 | a card row is kept exactly when its number has 16 digits, any other row when it has a code or a name; the identifier is the item's code |
| Definitions.PendingOf | src/pages/Tanimlamalar.jsx:342-394 | the pending items are at most the rows, and each comes from a row |
| Definitions.ConflictsOf | src/pages/Tanimlamalar.jsx:353-391 | the conflicts are at most the pending items, and each names an existing code |
| Definitions.ReadSheet | src/pages/Tanimlamalar.jsx:339-395 | the loop over the rows builds the pending items and their conflicts |
| Definitions.ConflictsCoverExisting | src/pages/Tanimlamalar.jsx:353-391 | every pending item with an existing code has a conflict, and a conflict's code is its new item's code |
| Definitions.PendingIdentifiers | src/pages/Tanimlamalar.jsx:351-389 | every pending item's identifier is its code |
| Definitions.SkipConflicts | src/pages/Tanimlamalar.jsx:648-653 | "skip" keeps, in order, exactly the pending items that no conflict names |
| Definitions.ImportStep | src/pages/Tanimlamalar.jsx:420-500 | an item with an existing code is updated when replacing and skipped otherwise; a new item is added |
| Definitions.ImportWrites | src/pages/Tanimlamalar.jsx:413-505 | the writes are at most the pending items, each the step of one of them |
| Definitions.ProcessImport | src/pages/Tanimlamalar.jsx:409-505 | the loop issues the writes in order and counts one success per write |
| Definitions.ReplaceWritesAll | src/pages/Tanimlamalar.jsx:638-641 | with "update" every pending item is written |
| Definitions.NoReplaceOnlyAdds | src/pages/Tanimlamalar.jsx:648-653 | without replacing, no existing record is touched: every write is an addition |
| Definitions.SkipThenImportAddsAll | src/pages/Tanimlamalar.jsx:648-653 | after "skip" every remaining item is added |
| Definitions.HandleExcelImport | src/pages/Tanimlamalar.jsx:329-407 | with conflicts the dialog opens with the pending items; without, every pending item is added and counted |
| PaymentEdit.NewRecord | src/components/YeniOdeme.jsx:256-268 | the stored record carries the form's fields, the payment type, the new id and the admin-only choice |
| PaymentEdit.FormOf | src/components/DuzenleOdeme.jsx:6-16 | the edit form opens with the entry's own values |
| PaymentEdit.EditedDate | src/components/DuzenleOdeme.jsx:235-238 | a cheque with a due date keeps its issue date; anything else takes the form's date |
| PaymentEdit.EditedRecordAsWritten | src/components/DuzenleOdeme.jsx:224-240 | as written, the rewritten record is the intended one without its admin-only flag |
| PaymentEdit.EditDropsAdminOnly | src/components/DuzenleOdeme.jsx:224-240 | as written, an admin-only entry loses the restriction when saved, even unchanged |
| PaymentEdit.EditedRecord | src/components/DuzenleOdeme.jsx:222-240 | the rewritten record has the new id, the original type and admin-only flag, the edited date, and the form's amount, method, due date, card and supplier |
| PaymentEdit.UntouchedEditKeepsEntry | src/components/DuzenleOdeme.jsx:6-16 | saving the form untouched gives the entry back under its new id |
| PaymentEdit.ChequeKeepsIssueDate | src/components/DuzenleOdeme.jsx:235-238 | editing the date of a cheque with a due date does not move its issue date, and the due date is the edited one |
| PaymentEdit.ApplyEdit | src/components/DuzenleOdeme.jsx:222-240 | after the edit the collection holds the other entries and the new record, and no entry under the old id |
| PaymentEdit.EditElsewhereKeepsUsage | src/components/DuzenleOdeme.jsx:222-240 | an edit whose old and new entries belong to other cards leaves a card's usage unchanged |
| ReminderMatch.WrappedWindowIsComplement | src/components/YeniOdeme.jsx:344-345 | a window whose start is after its end holds exactly the days outside the plain window between them |
| ReminderMatch.PlainWindowBounds | src/components/YeniOdeme.jsx:346-347 | a plain window holds exactly the days between its bounds, both included |
| ReminderMatch.RoutesExclusive | src/components/YeniOdeme.jsx:328-421 | at most one of the three routes (card repayment, supplier payment, supplier payment by card) applies to a reminder and a payment |
| ReminderMatch.SavedPaymentSettles | src/components/YeniOdeme.jsx:328-421 | when a route applies and the saved payment's own day lies in the window, the reminder is settled |
| ReminderMatch.ShouldUpdateNeedsRoute | src/components/YeniOdeme.jsx:323-421 | a reminder is settled only through a route that applies |
| ReminderMatch.UpdatesFor | src/components/YeniOdeme.jsx:423-454 | a monthly reminder counts up and never closes; a one-off counts down to 0 and closes on reaching 0, or at 0 with auto-close; a non-negative counter stays non-negative; the update is empty exactly for a one-off already at 0 without auto-close |
| ReminderMatch.PlannedWrites | src/components/YeniOdeme.jsx:322-470 | exactly the settled reminders with a non-empty update are written, each with its update, and never more writes than reminders |
| ReminderMatch.OneWritePerSettledReminder | src/components/YeniOdeme.jsx:322-470 | one write per settled reminder with a non-empty update, in the reminders' order: the i-th write is the update of the i-th such reminder |
| ReminderMatch.UpdateReminders | src/components/YeniOdeme.jsx:310-470 | the loop over the reminders issues the planned writes in reminder order |
| ReminderMatch.WrittenCountsNonNegative | src/components/YeniOdeme.jsx:428-441 | no counter written for a reminder at zero or above goes below zero |
| ReminderMatch.NothingSettledNothingWritten | src/components/YeniOdeme.jsx:423-456 | a payment that settles no reminder writes nothing |
| Reminders.SubmitForm | src/components/ReminderForm.jsx:42-46 | the form is handed on unchanged exactly when it is complete: a general reminder needs a non-blank title, a card reminder a card, a supplier reminder a supplier |
| Reminders.SpacesOnlyTitleRejected | src/components/ReminderForm.jsx:43 | a general reminder whose title is only spaces is not saved |
| Reminders.InitialCount | src/pages/Hatirlatmalar.jsx:95 | a new monthly reminder starts counting at 0; a new one-off reminder has all its payments left |
| Reminders.EditedCount | src/pages/Hatirlatmalar.jsx:88-93 | an edited monthly reminder keeps its count; an edited one-off reminder never has a negative number left |
| Reminders.EditKeepsCompletedPayments | src/pages/Hatirlatmalar.jsx:91-92 | when the new total is at least the payments already made, those payments are still made after the edit |
| Reminders.EditBelowCompletedCloses | src/pages/Hatirlatmalar.jsx:91-92 | a new total at or below the payments already made leaves nothing to pay |
| Reminders.UnchangedEditKeepsCount | src/pages/Hatirlatmalar.jsx:91-92 | editing a one-off reminder without changing its total keeps its counter |
| Reminders.SaveReminder | src/pages/Hatirlatmalar.jsx:82-98 | an edit updates the edited reminder's id, a new reminder is added; the stored data is the form's, with the counter set only for card and supplier reminders, by the new or edit rule |
| Reminders.SavedCountNonNegative | src/pages/Hatirlatmalar.jsx:86-97 | a saved one-off card or supplier reminder with a non-negative total has a non-negative counter |
| Reminders.EmptyDraft | src/components/Hatirlatma.jsx:141-155 | the cleared draft is a general reminder with no title, card, supplier, repetition or count |
| Reminders.EmptyDraftIncomplete | src/components/Hatirlatma.jsx:141-155 | the cleared draft cannot be saved as it is: its blank title fails the guard |
| Reminders.Initialised | src/components/Hatirlatma.jsx:123-133 | the stored draft differs from the typed one only in the counter, which card and supplier reminders get by the new-reminder rule |
| Reminders.ReminderPanel.constructor | src/components/Hatirlatma.jsx:141-158 | the panel opens with an empty general draft, nothing being edited and the form closed |
| Reminders.InitialiseDraft | src/components/Hatirlatma.jsx:123-133 | the branches on the kind and the repetition compute exactly the stored draft `Initialised` specifies |
| Reminders.ReminderPanel.SubmitDraft | src/components/Hatirlatma.jsx:118-160 | an incomplete draft changes nothing; a complete one is written (an update of the edited reminder or an addition) with its counter set, and the panel is reset |
| Reminders.ActiveReminders | src/pages/Hatirlatmalar.jsx:78 | the active list holds, in order, exactly the reminders not marked inactive |
| Reminders.HistoryReminders | src/pages/Hatirlatmalar.jsx:79 | the history holds, in order, exactly the reminders marked inactive |
| Reminders.ActiveHistoryPartition | src/pages/Hatirlatmalar.jsx:78-79 | every reminder is in exactly one of the two lists |
| Reminders.UpcomingPayments | src/pages/Hatirlatmalar.jsx:60-62 | `slice(0, 5)`: the strip is the first min(5, n) of the week's eligible payments in the order read, eligible meaning not a carry-over and, for a non-admin, not admin-only |
| Reminders.FewUpcomingAllShown | src/pages/Hatirlatmalar.jsx:62 | with at most five eligible payments, every eligible one is shown |
| Reminders.NoAdminOnlySameStrip | src/pages/Hatirlatmalar.jsx:60 | without admin-only payments admins and users see the same strip |
| Reminders.Sections | src/pages/Hatirlatmalar.jsx:221-397 | the one-off section holds the non-repeating reminders and the monthly section the repeating ones still below their count; no reminder is in both |
| Reminders.FinishedMonthlyHidden | src/pages/Hatirlatmalar.jsx:388 | a monthly reminder that has reached its count is in neither section |
| Reminders.ParseLeadingInt | src/pages/Hatirlatmalar.jsx:70 | a number is read exactly when the text starts with a digit |
| Reminders.SplitSlash | src/pages/Hatirlatmalar.jsx:69 | the two parts contain no slash, and text without a slash is its own first part |
| Reminders.MakeDate | src/pages/Hatirlatmalar.jsx:66-70 | the date is valid, and a month index out of range rolls over into the year |
| Reminders.ExpiryStart | src/pages/Hatirlatmalar.jsx:68-70 | a parsed expiry is the first day of a valid month |
| Reminders.ExpiryWindowMonths | src/pages/Hatirlatmalar.jsx:65 | a missing or zero setting means three months, and the window is never zero |
| Reminders.ExpiringCards | src/pages/Hatirlatmalar.jsx:64-73 | the list holds, in order, exactly the cards whose expiry month starts within the window and not before now |
| Reminders.CurrentMonthNotExpiring | src/pages/Hatirlatmalar.jsx:71 | a card expiring in the current month is not listed once the month's first day is over |
| Reminders.ExpiryOfMonthYear | src/pages/Hatirlatmalar.jsx:69-70 | "MM/YY" with a month from 1 to 12 reads as the first day of that month of 20YY |
| Reminders.TwoDigitValue | src/pages/Hatirlatmalar.jsx:70 | two digits read as their decimal value |
| Reminders.FilteredHistory | src/components/ReminderHistory.jsx:18-27 | the search keeps, in order, exactly the reminders whose title, card or supplier contains the lowercased term; an empty term keeps all |
| Reminders.TitleHitFound | src/components/ReminderHistory.jsx:23 | a reminder whose title contains the term is always found |
| Reminders.PaymentsOfReminder | src/components/ReminderHistory.jsx:11-16 | the list holds, in order, exactly the payments recorded against the selected reminder |
| Messages.SelectableUsers | src/pages/Mesajlar.jsx:38-40 | the list holds, in order, exactly the users other than oneself who are not the super administrator |
| Messages.FindUser | src/pages/Mesajlar.jsx:54 | `Common.FindFirst` on the uid: a user is found exactly when one has the uid, and the one found has it |
| Messages.RecipientName | src/pages/Mesajlar.jsx:53-55 | a recipient's name is never empty, and an unknown uid is named "Bilinmeyen" |
| Messages.Recipients | src/pages/Mesajlar.jsx:53-56 | one entry per chosen uid, in order, each with its user name |
| Messages.SendMessages | src/pages/Mesajlar.jsx:46-72 | nothing is sent without recipients, subject or body; otherwise one unread message per recipient, each from the sender, with the same subject, body, recipient list and time |
| Messages.OneMessagePerRecipient | src/pages/Mesajlar.jsx:58-70 | with recipients chosen through the picker, every recipient gets exactly one message |
| Messages.FilteredMessages | src/pages/Mesajlar.jsx:124-144 | the list holds, in order, exactly the folder's messages (received, sent, or the whole trash) that match the search on subject, body or sender name, ignoring case |
| Messages.SentMessageFound | src/pages/Mesajlar.jsx:124-144 | a message just sent is in its recipient's inbox and the sender's sent folder, and searching for its subject finds it |
| Messages.NoSearchShowsFolder | src/pages/Mesajlar.jsx:124-144 | the trash without a search term is shown whole |
| Messages.UnreadCount | src/pages/Mesajlar.jsx:147 | the counter is the number of inbox messages neither read nor deleted |
| Messages.ToggleSelect | src/pages/Mesajlar.jsx:100-106 | a selected message is removed and nothing else changes; an unselected one is appended |
| Messages.ToggleKeepsNoDuplicates | src/pages/Mesajlar.jsx:100-106 | toggling keeps a selection free of repeats |
| Messages.ToggleTwice | src/pages/Mesajlar.jsx:100-106 | toggling the same message twice gives the selection back, up to order when it was selected |
| Messages.Ids | src/pages/Mesajlar.jsx:96 | the ids of the listed messages, in order |
| Messages.ToggleSelectAll | src/pages/Mesajlar.jsx:92-98 | a selection as long as the list is cleared; otherwise every listed message is selected |
| Messages.SelectAllThenClear | src/pages/Mesajlar.jsx:92-98 | selecting all and toggling again clears the selection |
| Messages.SameCountOtherMessagesCleared | src/pages/Mesajlar.jsx:93 | a selection of other messages as long as the list is cleared rather than replaced |
| Messages.AddRecipient | src/pages/Mesajlar.jsx:521-524 | a new uid is appended once; an empty or chosen one changes nothing; the list stays free of repeats |
| Messages.OfferedUsers | src/pages/Mesajlar.jsx:529 | the picker offers exactly the users not chosen yet |
| Messages.ChoosingOfferedAdds | src/pages/Mesajlar.jsx:521-529 | choosing an offered user adds exactly that user, who is then no longer offered |
| Messages.RemovingOffersAgain | src/pages/Mesajlar.jsx:514-529 | removing a chosen recipient offers the user again |
| Admin.FilteredUsers | src/pages/AdminDashboard.jsx:156-159 | the list holds, in order, exactly the users other than `bora` whose name contains the term, ignoring case; `bora` is never listed |
| Admin.EmptySearchListsAllButProtected | src/pages/AdminDashboard.jsx:156-159 | with an empty search every user but `bora` is listed |
| Admin.FilteredLogs | src/pages/AdminDashboard.jsx:161-164 | the list holds, in order, exactly the log entries whose user name or action contains the term, ignoring case |
| Admin.EmptySearchListsAllLogs | src/pages/AdminDashboard.jsx:161-164 | with an empty search every log entry is listed |
| Admin.RoleBadge | src/pages/AdminDashboard.jsx:166-180 | a plain user and any unknown role get the plain user's badge, and only they are labelled "Kullanıcı" |
| Admin.RoleBadgesDistinct | src/pages/AdminDashboard.jsx:166-180 | different known roles have different styles and labels |
| Admin.EditRightsMatchBadge | src/pages/AdminDashboard.jsx:22 | a role may edit exactly when its badge is not the plain user's, and every administrator may edit |
| Admin.ActionColour | src/pages/AdminDashboard.jsx:182-187 | green for an addition or creation, else red for a deletion, else blue for an update, else gray |
| Admin.AddingBeatsDeleting | src/pages/AdminDashboard.jsx:183-184 | an action that both adds and deletes is shown green |
| Admin.EditUser | src/pages/AdminDashboard.jsx:71-74 | editing a user copies its fields into the form and touches nothing of the delete dialog |
| Admin.CancelEdit | src/pages/AdminDashboard.jsx:76-79 | cancelling empties the form, with role `user`, and stops editing |
| Admin.EditThenCancel | src/pages/AdminDashboard.jsx:71-79 | editing and cancelling leaves the page as cancelling alone does |
| Admin.SaveUser | src/pages/AdminDashboard.jsx:43-69 | an edit updates the edited user with the form; otherwise an approved user is added; the form is reset either way |
| Admin.EditThenSaveWritesSameUser | src/pages/AdminDashboard.jsx:43-74 | saving right after choosing a user to edit writes that user's own fields back to it |
| Admin.RequestDelete | src/pages/AdminDashboard.jsx:81-88 | asking to delete `bora` changes nothing; any other user opens the confirmation for that user |
| Admin.ConfirmDelete | src/pages/AdminDashboard.jsx:90-102 | without a user to delete nothing happens; otherwise that user is deleted and the dialog closes |
| Admin.ProtectedNeverDeleted | src/pages/AdminDashboard.jsx:81-102 | when no other deletion is pending, asking to delete `bora` and confirming deletes nothing |
| Admin.RequestThenConfirmDeletes | src/pages/AdminDashboard.jsx:81-102 | confirming after asking deletes exactly the user asked about |
| Register.Validate | src/pages/Register.jsx:17-27 | the account is requested exactly when the passwords match and have at least six characters; otherwise the mismatch error comes first, then the length error |
| Register.MismatchReportedFirst | src/pages/Register.jsx:17-25 | mismatched passwords that are also too short give the mismatch error |
| Register.AfterRegister | src/pages/Register.jsx:27-32 | the success screen shows exactly when the answer reports success; otherwise the answer's error is shown |
| Register.HandleRegister | src/pages/Register.jsx:13-33 | success needs matching passwords of six characters or more and a successful answer; a failed check shows one of the two errors |
| Session.ExpiredAfterSevenDays | src/App.jsx:18-23 | a login is expired exactly when more than 604 800 000 milliseconds have passed |
| Session.MissingTimeNeverExpires | src/App.jsx:18-20 | a login without a time counts as made now and is not expired |
| Session.Restore | src/App.jsx:10-27 | the saved login is restored, unchanged, exactly when it asked to stay logged in and is not expired |
| Session.Check | src/App.jsx:33-57 | a missing id, a different stored id, no stored id and the same id are told apart, each exactly |
| Session.StoredAfter | src/App.jsx:44-49 | the first id is stored on first use, a mismatch clears it, and otherwise it stays |
| Session.SameDevicePassesAgain | src/App.jsx:44-49 | once a device has passed, the same id passes the next check |
| Session.OtherDeviceLocked | src/App.jsx:44-49 | once a device has passed, any other id is refused |
| Session.Shell.constructor | src/App.jsx:10-27 | the first render holds the restored login, keeps the saved login only when it was restored, and starts unlocked and checking |
| Session.Shell.VerifyDevice | src/App.jsx:33-57 | the check ends; a missing or different id locks the application; a different one also empties the storage; the stored id follows the check |
| Session.Shell.CheckSessionExpiry | src/App.jsx:76-88 | an expired saved login is logged out and nothing else changes |
| Session.RestoredLoginSurvivesFirstCheck | src/App.jsx:10-88 | a login restored at start is not expired at that moment |
| Session.Launch | src/App.jsx:10-88 | starting, then the session check and the device check that finishes after it, never logs out; the application is locked exactly when the device check fails, and otherwise the restored login stays |
| Fingerprint.Bytes | src/utils/hwid.js:13-15 | each character of a Latin-1 id is one byte of the same value |
| Fingerprint.SextetRoundTrip | src/utils/hwid.js:14 | each six-bit value has an alphabet character that reads back as it (Table 1 of RFC 4648) |
| Fingerprint.EncodeGroup | src/utils/hwid.js:14 | three bytes encode as four alphabet characters |
| Fingerprint.Encode | src/utils/hwid.js:14 | the encoding has four characters per started group of three bytes, each in the alphabet or `=` (section 4 of RFC 4648) |
| Fingerprint.DecodeGroup | src/utils/hwid.js:14 | four characters give back one to three bytes |
| Fingerprint.GroupRoundTrip | src/utils/hwid.js:14 | a group of three bytes decodes to itself |
| Fingerprint.DecodeEncode | src/utils/hwid.js:14 | decoding undoes the encoding, so the encoding loses nothing |
| Fingerprint.EncodeAppend | src/utils/hwid.js:14 | whole groups of three encode independently of what follows |
| Fingerprint.DeviceFingerprint | src/utils/hwid.js:13-15 | the fingerprint is a prefix of the encoding, of length min(32, 4·⌈n/3⌉), in the alphabet or `=` |
| Fingerprint.TakeEncode24 | src/utils/hwid.js:14 | the first 32 characters of the encoding of 24 bytes or more encode exactly the first 24 bytes |
| Fingerprint.FingerprintOfFirst24 | src/utils/hwid.js:14 | the fingerprint of an id of 24 bytes or more is the encoding of its first 24 |
| Fingerprint.SharedPrefixSameFingerprint | src/utils/hwid.js:14 | ids that share their first 24 bytes have the same fingerprint |
| Fingerprint.FingerprintDecodes | src/utils/hwid.js:14 | the fingerprint decodes to exactly the first min(24, n) bytes of the id |
| Hardware.HexPair | src-tauri/src/lib.rs:5 | a byte is written as two hex digits, without a colon |
| Hardware.Hex | src-tauri/src/lib.rs:5 | the hex text of an address has two characters per byte and no colon |
| Hardware.ParseHexOfHex | src-tauri/src/lib.rs:5 | the hex text reads back as the address, in lower and in upper case |
| Hardware.RemoveColons | src-tauri/src/lib.rs:5 | removing the colons from the colon-separated form leaves the plain hex text |
| Hardware.ColonHexLength | hardware_info.py:30-31 | a colon-separated address of n bytes has 3n − 1 characters |
| Hardware.HardwareId | src-tauri/src/lib.rs:2-10 | the id always starts with `MAC-` and has no colon; without an address it is `MAC-UNKNOWN`; otherwise it is the address without colons, upper-cased |
| Hardware.HardwareIdOfAddress | src-tauri/src/lib.rs:2-10 | a six-byte address gives a 16-character id that reads back as the address and differs from the unknown one |
| Hardware.HardwareIdInjective | src-tauri/src/lib.rs:2-10 | different addresses give different ids |
| Hardware.ShellIdNeverMissing | src-tauri/src/lib.rs:2-10 | the id the shell receives is never treated as missing by the device check |
| Hardware.SplitLines | hardware_info.py:8 | the pieces contain no line break |
| Hardware.SplitJoin | hardware_info.py:8 | joining the pieces with line breaks gives the text back |
| Hardware.NonBlankLines | hardware_info.py:8 | every kept line is non-empty and has no surrounding whitespace |
| Hardware.WmicValue | hardware_info.py:5-11 | a failed command or fewer than two non-blank lines give `N/A`; otherwise the second non-blank line; the answer is never blank and has no surrounding whitespace |
| Hardware.HeaderThenValue | hardware_info.py:8-9 | a header line followed by a value line gives the value |
| Hardware.Dots | hardware_info.py:14 | as many dots as the count when it is positive, none otherwise |
| Hardware.FormatLine | hardware_info.py:13-15 | the line starts with the label and a space, ends with a space and the value, has only dots between, and has max(width, label + value) + 2 characters |
| Hardware.ReportLinesAlign | hardware_info.py:13-15 | report lines that fit the width all have the same length |
| Hardware.MacGroups | hardware_info.py:30-31 | six bytes, the first from the highest shift |
| Hardware.MacLength | hardware_info.py:30-31 | the MAC line has 17 characters, whatever the shift step |
| Hardware.MacGroupsValue | hardware_info.py:30-31 | with whole-byte shifts the six bytes read back as a 48-bit node |
| Hardware.MacReadsBack | hardware_info.py:30-31 | with whole-byte shifts the MAC line, without colons, reads back as the node |
| Hardware.MacInjective | hardware_info.py:30-31 | with whole-byte shifts different 48-bit nodes give different MAC lines |
| Hardware.AsWrittenReadsLow18Bits | hardware_info.py:30-31 | as written, the line depends only on the node's lowest 18 bits |
| Hardware.AsWrittenCollision | hardware_info.py:30-31 | as written, two different nodes give the same line, which the whole-byte version tells apart |
| Hardware.AsWrittenMisplacesByte | hardware_info.py:30-31 | as written, node 0x100 is printed as 00:01:04:10:40:00 instead of 00:00:00:00:01:00 |
| Currency.Sanitize | src/components/YeniOdeme.jsx:15 | only digits and commas are kept, in order, and text made of them is kept whole |
| Currency.SanitizeAppend | src/components/YeniOdeme.jsx:15 | cleaning works character by character: the cleaning of two pieces joined is the two cleanings joined |
| Currency.KeepFirstComma | src/components/YeniOdeme.jsx:18-22 | at most one comma is left, the first one; nothing but later commas is removed |
| Currency.GroupMatchesGroupRight | src/components/YeniOdeme.jsx:34-39 | the regular expression's grouping agrees with grouping the digits in threes from the right |
| Currency.GroupLength | src/components/YeniOdeme.jsx:34-39 | grouping n digits adds (n − 1) / 3 dots |
| Currency.GroupRemoveDots | src/components/YeniOdeme.jsx:34-39 | removing the dots from the grouped digits gives the digits back |
| Currency.HandleChangeWithComma | src/components/YeniOdeme.jsx:9-52 | with a comma typed, the field shows the grouped digits typed before it, a comma and at most two digits typed after it; the value is the same digits around a decimal point |
| Currency.HandleChangeWithoutComma | src/components/YeniOdeme.jsx:9-52 | without a comma, the field shows the grouped digits and the value is the digits |
| Currency.HandleChangeIdempotent | src/components/YeniOdeme.jsx:9-52 | typing the shown text again changes neither the field nor the value |
| Currency.CleanAmount | src/components/CreditCard/CardDetail.jsx:99 | an amount without dots or commas is kept, and nothing grows |
| Currency.CleanDisplayIsNumeric | src/components/CreditCard/CardDetail.jsx:99 | cleaning the text the field shows gives exactly the value the field hands on |
| Definitions.AllNewAdded | src/pages/Tanimlamalar.jsx:420-500 | when no pending item's code exists yet, every pending item is written |

## Left out

- Firestore: reads are parameters and writes are returned values, so ordering, failures and the `Promise.all` fan-outs are not modelled.
- The action log (`addLog`), `console` output, alerts and the new-payment form's reminder log entry (`addReminderLog`) are not modelled; they are write-only side effects.
- Numbers are `real`: the model has no floating point rounding, `NaN` from `parseFloat` of text that is not a number, or `toLocaleString` formatting.
- CardDetail.LocalePrefill: takes the amount's integer and fraction digits as given; how `toLocaleString('tr-TR', {minimumFractionDigits: 2})` turns the number into those digits (rounding to at most three fraction digits, the sign of a negative amount) is not modelled, nor free text typed over the prefill. The one place where a division by zero shows is `CardList.Percent`, which returns the infinities and `NaN` explicitly.
- CardList.UsagePercent: its contract says nothing about a debt on a card whose limit is zero or negative. There the result is whatever `CardList.Percent` gives: an infinity, `NaN` or a negative ratio.
- `new Date()` and time zones are not modelled: today's date and the current time are parameters, and `toISOString` is taken to give the local date.
- `toLowerCase` and `toUpperCase` are ASCII case mapping, and lengths count characters rather than UTF-16 code units. Likewise `Text.StrLt` and the sorts built on it compare Unicode scalar values, where JavaScript's `<` and `.sort()` compare UTF-16 code units; the two orders differ only when a character above U+FFFF meets one in U+E000–U+FFFF. Turkish letters such as `İ` are not folded.
- Text.IsSpace: `trim` and `strip` remove ASCII white space only in the model; JavaScript's `trim` and Python's `strip` also remove U+00A0 and the other Unicode space separators.
- Definitions.KeyLe: a missing field sorts as the empty text. In JavaScript an `undefined` field in `localeCompare` or `<` places the record differently.
- The accumulator objects of the statistics page are groups in first-key order. JavaScript objects list integer-like keys first, in ascending order, so a supplier named by digits alone can come earlier than the model puts it; the top list is sorted by total, so only ties are affected.
- `parseInt` of text that does not start with a digit is `None`, and in the reminder forms a count is taken as an already parsed integer.
- Spreadsheet rows are maps from column names to text. Reading and writing the XLSX file, the export and the backup and restore of the administration page are not modelled.
- The carry-over record that the card form writes for a new card (src/pages/Tanimlamalar.jsx:158-170) is the record that `CardDetail.DevirRecord` builds. The form's own write is not modelled separately.
- The side bar's upcoming strip (src/components/Hatirlatma.jsx:93) has no admin filter; it is `Reminders.UpcomingPayments` with the admin view.
- `Statistics.MonthlyComparison` returns the six totals without the month names shown beside them.
- The cursor repositioning of the currency input is not modelled; it only affects the caret.
- The application shell's `setInterval` and `beforeunload` timing are not modelled; each check is one method call. `getHardwareId` catches its own failure and returns `null`, so the `None` argument is `verifyDevice`'s missing-id branch (src/App.jsx:36-40); its `catch` (src/App.jsx:52-56) leads to the same locked state and is not modelled separately.
- `btoa` throws on characters above U+00FF. `Fingerprint.DeviceFingerprint` requires Latin-1 input instead.
- The `mac_address` crate, `uuid.getnode()`, `subprocess.run` and `platform.*` are not modelled; their results are parameters. `print` is left out, and `main` of hardware_info.py is modelled only through the lines it formats.
- Starred messages, marking a message read, message deletion, the role and approval buttons of the administration page, `GrafikAnaliz.jsx`, the update notice, `Dashboard.jsx`, `Login.jsx`, `Ayarlar.jsx` and `KullaniciYonetimi.jsx` are not part of this model; they are thin Firestore calls or pure display.

## Findings

| source | as written | input that shows it | evidently intended | confidence | as-written member | corrected member |
|---|---|---|---|---|---|---|
| hardware_info.py:30-31 | the MAC bytes are taken at shifts 0, 2, 4, 6, 8 and 10 bits, so neighbouring groups overlap and only the lowest 18 bits of the node are shown | node 0x100 prints `00:01:04:10:40:00`, and nodes 0 and 0x1000_0000_0000 print the same line | shifts of 0, 8, …, 40 bits, one byte per group, printing `00:00:00:00:01:00` | high; not executed | Hardware.AsWrittenMisplacesByte | Hardware.MacReadsBack |
| src/pages/Tanimlamalar.jsx:177-178 | the IBAN length check counts the spaces the form's own formatter inserts | `TR3300 0610 0519 7864 5784 1326`, what the form's formatter stores for the 24 digits `330006100519786457841326`, is refused (29 characters after `TR`) | 24 digits after `TR`, spaces ignored | high; not executed | Definitions.FormattedIbanRefusedAsWritten | Definitions.FormattedIbanSaved |
| src/components/DuzenleOdeme.jsx:224-240 | the edited record is built from the form, which has no admin-only field, so the flag is lost | any admin-only entry saved unchanged is shown to users afterwards (src/pages/Hatirlatmalar.jsx:60) | the edit keeps the entry's admin-only flag, as it keeps its payment type | medium; not executed | PaymentEdit.EditDropsAdminOnly | PaymentEdit.EditedRecord |

=== FILE: admin.dfy ===
/** The administration page: the user and log lists with their search, the role badge
    and the action colour, and the user form with its edit, cancel, save and delete
    steps. The protected account `bora` is hidden from the list and cannot be deleted. */
module Admin {
  import opened Common
  import opened Domain
  import opened Text

  /** A document of the `users` collection. */
  datatype AppUser = AppUser(id: string, username: string, email: string, password: string, role: string)

  /** A document of the `logs` collection. */
  datatype LogEntry = LogEntry(username: string, action: string)

  const Protected := "bora"

  /** `filteredUsers`: every user but the protected one whose name contains the term,
      ignoring case. */
  function FilteredUsers(users: seq<AppUser>, term: string): (r: seq<AppUser>)
    ensures forall u :: u in r ==> u.username != Protected
    ensures forall u :: u in r <==> (u in users && u.username != Protected && Contains(Lower(u.username), Lower(term)))
    ensures IsSubsequence(r, users)
  {
    Filter((u: AppUser) => u.username != Protected && Contains(Lower(u.username), Lower(term)), users)
  }

  /** With an empty search every user but the protected one is listed. */
  lemma {:induction false} EmptySearchListsAllButProtected(users: seq<AppUser>, u: AppUser)
    requires u in users && u.username != Protected
    ensures u in FilteredUsers(users, "")
  {
    assert Lower("") == "";
    assert Contains(Lower(u.username), "");
  }

  /** `filteredLogs`: entries whose user name or action contains the term. */
  function FilteredLogs(logs: seq<LogEntry>, term: string): (r: seq<LogEntry>)
    ensures forall l :: l in r <==> (l in logs &&
      (Contains(Lower(l.username), Lower(term)) || Contains(Lower(l.action), Lower(term))))
    ensures IsSubsequence(r, logs)
  {
    Filter((l: LogEntry) => Contains(Lower(l.username), Lower(term)) || Contains(Lower(l.action), Lower(term)), logs)
  }

  /** With an empty search every entry is listed. */
  lemma {:induction false} EmptySearchListsAllLogs(logs: seq<LogEntry>)
    ensures FilteredLogs(logs, "") == logs
  {
    assert Lower("") == "";
    forall l | l in logs
      ensures Contains(Lower(l.username), "")
    {
    }
    FilterAll((l: LogEntry) => Contains(Lower(l.username), Lower("")) || Contains(Lower(l.action), Lower("")), logs);
  }

  datatype Badge = Badge(style: string, text: string)

  /** The badge of a plain user. */
  const UserBadge := Badge("bg-gray-100 text-gray-800", "Kullanıcı")

  predicate KnownRole(role: string)
  {
    role in {"superadmin", "admin", "editor", "user"}
  }

  /** `getRoleBadge`: the style and the label of a role; an unknown role looks like a
      plain user. */
  function RoleBadge(role: string): (b: Badge)
    ensures b == UserBadge <==> (role == "user" || !KnownRole(role))
    ensures b.text == "Kullanıcı" <==> b == UserBadge
  {
    if role == "superadmin" then Badge("bg-red-100 text-red-800", "Süper Admin")
    else if role == "admin" then Badge("bg-purple-100 text-purple-800", "Admin")
    else if role == "editor" then Badge("bg-blue-100 text-blue-800", "Editör")
    else UserBadge
  }

  /** The known roles have different badges. */
  lemma {:induction false} RoleBadgesDistinct(a: string, b: string)
    requires KnownRole(a) && KnownRole(b) && a != b
    ensures RoleBadge(a).style != RoleBadge(b).style && RoleBadge(a).text != RoleBadge(b).text
  {
  }

  /** `canEdit`: exactly the roles whose badge is not the plain user's may edit, and
      every administrator may. */
  lemma {:induction false} EditRightsMatchBadge(role: string)
    ensures CanEdit(role) <==> RoleBadge(role) != UserBadge
    ensures IsAdmin(role) ==> CanEdit(role)
  {
  }

  datatype Colour = Green | Red | Blue | Gray

  /** `getActionColor`: the first rule that applies wins. */
  function ActionColour(action: string): (c: Colour)
    ensures c == Green <==> Contains(action, "Ekledi") || Contains(action, "Oluşturdu")
    ensures c == Red <==> !Contains(action, "Ekledi") && !Contains(action, "Oluşturdu") && Contains(action, "Sildi")
    ensures c == Blue <==> (!Contains(action, "Ekledi") && !Contains(action, "Oluşturdu") && !Contains(action, "Sildi") &&
      Contains(action, "Güncelledi"))
  {
    if Contains(action, "Ekledi") || Contains(action, "Oluşturdu") then Green
    else if Contains(action, "Sildi") then Red
    else if Contains(action, "Güncelledi") then Blue
    else Gray
  }

  /** An action that both adds and deletes is shown as an addition. */
  lemma {:induction false} AddingBeatsDeleting(prefix: string, middle: string, suffix: string)
    ensures ActionColour(prefix + "Ekledi" + middle + "Sildi" + suffix) == Green
  {
    var s := prefix + "Ekledi" + middle + "Sildi" + suffix;
    assert s[|prefix|..|prefix| + 6] == "Ekledi";
    ContainsAt(s, "Ekledi", |prefix|);
  }

  /** The user form. */
  datatype UserForm = UserForm(username: string, email: string, password: string, role: string)

  const EmptyForm := UserForm("", "", "", "user")

  /** What the page keeps between clicks. */
  datatype Page = Page(form: UserForm, editing: Option<AppUser>, showDeleteConfirm: bool,
                       userToDelete: Option<(string, string)>)

  /** A document write the page issues. */
  datatype UserWrite =
    | UpdateUser(id: string, fields: UserForm)
    | AddUser(fields: UserForm, approved: bool)
    | DeleteUser(id: string)

  /** `handleEditUser`: the user's fields go into the form. */
  function EditUser(page: Page, u: AppUser): (r: Page)
    ensures r.editing == Some(u) && r.form == UserForm(u.username, u.email, u.password, u.role)
    ensures r.showDeleteConfirm == page.showDeleteConfirm && r.userToDelete == page.userToDelete
  {
    page.(editing := Some(u), form := UserForm(u.username, u.email, u.password, u.role))
  }

  /** `handleCancelEdit`: an empty form for a plain user. */
  function CancelEdit(page: Page): (r: Page)
    ensures r.editing == None && r.form == UserForm("", "", "", "user")
    ensures r.showDeleteConfirm == page.showDeleteConfirm && r.userToDelete == page.userToDelete
  {
    page.(editing := None, form := EmptyForm)
  }

  /** Cancelling forgets the edit altogether. */
  lemma {:induction false} EditThenCancel(page: Page, u: AppUser)
    ensures CancelEdit(EditUser(page, u)) == CancelEdit(page)
  {
  }

  /** `handleAddUser`: the form updates the user being edited or adds an approved user;
      the form is then emptied. */
  function SaveUser(page: Page): (r: (UserWrite, Page))
    ensures page.editing.Some? ==> r.0 == UpdateUser(page.editing.value.id, page.form)
    ensures page.editing.None? ==> r.0 == AddUser(page.form, true)
    ensures r.1 == CancelEdit(page)
  {
    var write := if page.editing.Some? then UpdateUser(page.editing.value.id, page.form) else AddUser(page.form, true);
    (write, page.(editing := None, form := EmptyForm))
  }

  /** Saving an edit without changing anything writes the user's own fields back. */
  lemma {:induction false} EditThenSaveWritesSameUser(page: Page, u: AppUser)
    ensures SaveUser(EditUser(page, u)).0 == UpdateUser(u.id, UserForm(u.username, u.email, u.password, u.role))
  {
  }

  /** `handleDeleteUser`: the protected user is refused; anyone else is asked about. */
  function RequestDelete(page: Page, id: string, username: string): (r: Page)
    ensures username == Protected ==> r == page
    ensures username != Protected ==> r.showDeleteConfirm && r.userToDelete == Some((id, username))
    ensures r.form == page.form && r.editing == page.editing
  {
    if username == Protected then page
    else page.(userToDelete := Some((id, username)), showDeleteConfirm := true)
  }

  /** `confirmDelete`: deletes the user asked about and closes the question. */
  function ConfirmDelete(page: Page): (r: (Option<UserWrite>, Page))
    ensures page.userToDelete.None? ==> r == (None, page)
    ensures page.userToDelete.Some? ==>
      r.0 == Some(DeleteUser(page.userToDelete.value.0)) && !r.1.showDeleteConfirm && r.1.userToDelete.None?
  {
    match page.userToDelete
    case None => (None, page)
    case Some(target) => (Some(DeleteUser(target.0)), page.(showDeleteConfirm := false, userToDelete := None))
  }

  /** Asking to delete the protected user and confirming deletes nothing when nobody
      else was asked about. */
  lemma {:induction false} ProtectedNeverDeleted(page: Page, id: string)
    requires page.userToDelete.None?
    ensures ConfirmDelete(RequestDelete(page, id, Protected)).0.None?
  {
  }

  /** Confirming after asking deletes exactly the user asked about. */
  lemma {:induction false} RequestThenConfirmDeletes(page: Page, id: string, username: string)
    requires username != Protected
    ensures ConfirmDelete(RequestDelete(page, id, username)).0 == Some(DeleteUser(id))
  {
  }
}

=== FILE: calendar.dfy ===
/** The agenda page: the payments shown on each day of the month view and their order,
    the day totals, the holiday marks, the layout of the month grid, the month summary
    and what a click on a day opens. The payments are those the page loaded for the
    month; the weekday of a day comes from the JavaScript `Date` and is a parameter. */
module Calendar {
  import opened Common
  import opened Domain
  import opened Sorting

  predicate IsCheque(p: Payment)
  {
    p.paymentMethod == Cek
  }

  /** The day a payment is shown on: a cheque with a due date on its due date, anything
      else on its payment date. */
  function ShownOn(p: Payment): (d: Date)
    ensures IsCheque(p) && p.dueDate.Some? ==> d == p.dueDate.value
    ensures !(IsCheque(p) && p.dueDate.Some?) ==> d == p.paymentDate
  {
    if IsCheque(p) && p.dueDate.Some? then p.dueDate.value else p.paymentDate
  }

  /** The filter of `getPaymentsForDay`: carry-overs are never shown. */
  function OnDay(day: Date): Payment -> bool
  {
    (p: Payment) => p.paymentMethod != Devir && ShownOn(p) == day
  }

  /** The sign of `new Date(a) - new Date(b)`. */
  function DateCompare(a: Date, b: Date): (r: int)
    ensures r < 0 <==> DateLt(a, b)
    ensures r == 0 <==> a == b
    ensures r > 0 <==> DateLt(b, a)
  {
    if a == b then 0 else if DateLe(a, b) then -1 else 1
  }

  /** The comparator of the day view. Between two cheques a missing due date makes
      `new Date(undefined)` an invalid date, the difference NaN, and the sort takes it
      as 0. */
  function DayCompare(a: Payment, b: Payment): int
  {
    if IsCheque(a) && IsCheque(b) then
      var byIssue := DateCompare(a.paymentDate, b.paymentDate);
      if byIssue != 0 then byIssue
      else if a.dueDate.Some? && b.dueDate.Some? then DateCompare(a.dueDate.value, b.dueDate.value)
      else 0
    else if IsCheque(a) then -1
    else if IsCheque(b) then 1
    else DateCompare(a.paymentDate, b.paymentDate)
  }

  function DayLe(): (Payment, Payment) -> bool
  {
    (a: Payment, b: Payment) => DayCompare(a, b) <= 0
  }

  /** The order the day view promises: cheques first, then by payment date. */
  predicate ChequesFirst(a: Payment, b: Payment)
  {
    (IsCheque(a) && !IsCheque(b)) || (IsCheque(a) == IsCheque(b) && DateLe(a.paymentDate, b.paymentDate))
  }

  function ChequesFirstLe(): (Payment, Payment) -> bool
  {
    (a: Payment, b: Payment) => ChequesFirst(a, b)
  }

  lemma {:induction false} ChequesFirstTotalPreorder()
    ensures TotalPreorder(ChequesFirstLe())
  {
    forall a: Payment, b: Payment, c: Payment
      ensures ChequesFirst(a, b) || ChequesFirst(b, a)
      ensures ChequesFirst(a, b) && ChequesFirst(b, c) ==> ChequesFirst(a, c)
    {
      DateLeTotalOrder(a.paymentDate, b.paymentDate, c.paymentDate);
    }
  }

  /** On one day the comparator is the cheques-first order: two cheques shown on the same
      day have the same due date or lack one. */
  lemma {:induction false} DayCompareOnOneDay(day: Date, a: Payment, b: Payment)
    requires OnDay(day)(a) && OnDay(day)(b)
    ensures DayLe()(a, b) == ChequesFirst(a, b)
  {
    DateLeTotalOrder(a.paymentDate, b.paymentDate, a.paymentDate);
  }

  /** `getPaymentsForDay`: the payments shown on the day, cheques first and each group
      by payment date. */
  function PaymentsForDay(payments: seq<Payment>, day: Date): (r: seq<Payment>)
    ensures forall p :: p in r <==> p in payments && p.paymentMethod != Devir && ShownOn(p) == day
    ensures multiset(r) == multiset(Filter(OnDay(day), payments))
    ensures SortedBy(ChequesFirstLe(), r)
  {
    var shown := Filter(OnDay(day), payments);
    forall a, b | a in shown && b in shown
      ensures DayLe()(a, b) == ChequesFirstLe()(a, b)
    {
      DayCompareOnOneDay(day, a, b);
    }
    SortAgrees(DayLe(), ChequesFirstLe(), shown);
    ChequesFirstTotalPreorder();
    SortSorted(ChequesFirstLe(), shown);
    var r := Sort(DayLe(), shown);
    assert forall p :: p in r <==> p in multiset(r);
    r
  }

  /** In a day's list no cheque comes after a payment that is not one. */
  lemma {:induction false} ChequesBeforeOthers(payments: seq<Payment>, day: Date, i: nat, j: nat)
    requires i < j < |PaymentsForDay(payments, day)|
    requires IsCheque(PaymentsForDay(payments, day)[j])
    ensures IsCheque(PaymentsForDay(payments, day)[i])
  {
    assert ChequesFirstLe()(PaymentsForDay(payments, day)[i], PaymentsForDay(payments, day)[j]);
  }

  /** `getTotalForDay`: the sum over the day's list, which the sort does not change. */
  function TotalForDay(payments: seq<Payment>, day: Date): (t: real)
    ensures t == SumOf(Amount, Filter(OnDay(day), payments))
  {
    SumOfPermutation(Amount, PaymentsForDay(payments, day), Filter(OnDay(day), payments));
    SumOf(Amount, PaymentsForDay(payments, day))
  }

  /** A day mark: its kind, its name and whether offices are closed. */
  datatype Holiday = Holiday(kind: string, name: string, isClosedDay: bool)

  /** The fixed closed days: New Year, Labour Day and the 2025 and 2026 religious holidays,
      which are checked every year. */
  predicate ClosedDate(month: int, date: int)
  {
    (month == 1 && date == 1) || (month == 5 && date == 1) ||
    (month == 3 && (date == 20 || date == 21 || date == 30 || date == 31)) ||
    (month == 5 && (date == 27 || date == 28)) ||
    (month == 6 && (date == 6 || date == 7))
  }

  /** The commemoration days that are marked but not closed. */
  predicate SpecialDate(month: int, date: int)
  {
    (month == 4 && date == 23) || (month == 5 && date == 19) || (month == 7 && date == 15) ||
    (month == 8 && date == 30) || (month == 10 && date == 29)
  }

  /** `isHoliday`: Sundays first, then the date table; `None` is `null`. */
  function IsHoliday(month: int, date: int, dayOfWeek: int): (r: Option<Holiday>)
    ensures dayOfWeek == 0 ==> r == Some(Holiday("sunday", "Pazar", true))
    ensures r.Some? && r.value.isClosedDay <==> dayOfWeek == 0 || ClosedDate(month, date)
    ensures r.Some? && !r.value.isClosedDay <==> dayOfWeek != 0 && SpecialDate(month, date)
    ensures r.None? <==> dayOfWeek != 0 && !ClosedDate(month, date) && !SpecialDate(month, date)
  {
    if dayOfWeek == 0 then Some(Holiday("sunday", "Pazar", true))
    else if month == 1 && date == 1 then Some(Holiday("newyear", "Yılbaşı", true))
    else if month == 5 && date == 1 then Some(Holiday("holiday", "İşçi Bayramı", true))
    else if month == 3 && (date == 30 || date == 31) then Some(Holiday("religious", "Ramazan Bayramı", true))
    else if month == 6 && (date == 6 || date == 7) then Some(Holiday("religious", "Kurban Bayramı", true))
    else if month == 3 && (date == 20 || date == 21) then Some(Holiday("religious", "Ramazan Bayramı", true))
    else if month == 5 && (date == 27 || date == 28) then Some(Holiday("religious", "Kurban Bayramı", true))
    else if month == 4 && date == 23 then Some(Holiday("special", "23 Nisan", false))
    else if month == 5 && date == 19 then Some(Holiday("special", "19 Mayıs", false))
    else if month == 7 && date == 15 then Some(Holiday("special", "15 Temmuz", false))
    else if month == 8 && date == 30 then Some(Holiday("special", "30 Ağustos", false))
    else if month == 10 && date == 29 then Some(Holiday("special", "29 Ekim", false))
    else None
  }

  /** A commemoration day falling on a Sunday is shown as a Sunday. */
  lemma {:induction false} SundayHidesSpecialDay(month: int, date: int)
    requires SpecialDate(month, date)
    ensures IsHoliday(month, date, 0).value.name == "Pazar"
    ensures IsHoliday(month, date, 1).value.isClosedDay == false
  {
  }

  /** The empty cells before the 1st in a grid whose weeks start on Monday (`getDay()` is
      0 for Sunday). */
  function LeadingBlanks(firstWeekday: int): (n: int)
    requires 0 <= firstWeekday <= 6
    ensures 0 <= n <= 6
    ensures (n + 1) % 7 == firstWeekday
  {
    if firstWeekday == 0 then 6 else firstWeekday - 1
  }

  /** `Math.ceil(cells / 7)`. */
  function RowCount(cells: nat): (rows: nat)
    ensures 7 * rows >= cells
    ensures rows > 0 ==> 7 * (rows - 1) < cells
  {
    (cells + 6) / 7
  }

  /** The grid of a month needs four to six rows; the compact layout is used exactly when
      the month spills into a sixth week. */
  lemma {:induction false} MonthRows(firstWeekday: int, days: int)
    requires 0 <= firstWeekday <= 6 && 28 <= days <= 31
    ensures 4 <= RowCount(LeadingBlanks(firstWeekday) + days) <= 6
    ensures RowCount(LeadingBlanks(firstWeekday) + days) == 6 <==> LeadingBlanks(firstWeekday) + days > 35
  {
  }

  /** The month summary's filter: carry-overs left out. */
  function Summarised(): Payment -> bool
  {
    (p: Payment) => p.paymentMethod != Devir
  }

  /** The month summary's total and count. */
  function MonthTotal(payments: seq<Payment>): real
  {
    SumOf(Amount, Filter(Summarised(), payments))
  }

  function MonthCount(payments: seq<Payment>): (n: nat)
    ensures n <= |payments|
    ensures n == |payments| <==> forall p :: p in payments ==> p.paymentMethod != Devir
  {
    if forall p :: p in payments ==> p.paymentMethod != Devir then
      FilterAll(Summarised(), payments);
      |Filter(Summarised(), payments)|
    else
      FilterShorter(Summarised(), payments);
      |Filter(Summarised(), payments)|
  }

  /** Dropping an element makes a filtered list shorter. */
  lemma {:induction false} FilterShorter<T(!new)>(f: T -> bool, s: seq<T>)
    requires exists x :: x in s && !f(x)
    ensures |Filter(f, s)| < |s|
  {
    if f(s[0]) {
      FilterShorter(f, s[1..]);
    }
  }

  /** The carried-over amounts of the month. */
  function CarriedOver(payments: seq<Payment>): real
  {
    SumOf(Amount, Filter((p: Payment) => p.paymentMethod == Devir, payments))
  }

  /** The month total and the carried-over amounts together make the sum of everything
      loaded. */
  lemma {:induction false} MonthTotalAndCarryOvers(payments: seq<Payment>)
    ensures MonthTotal(payments) + CarriedOver(payments) == SumOf(Amount, payments)
  {
    SumOfPartition(Amount, Summarised(), (p: Payment) => p.paymentMethod == Devir, payments);
  }

  /** The number of payments a predicate keeps (the type and method counts of the
      summary). */
  function CountWhere(f: Payment -> bool, payments: seq<Payment>): (n: nat)
    ensures n <= |payments|
  {
    |Filter(f, payments)|
  }

  /** The card and supplier counts of the summary never exceed the payment count. */
  lemma {:induction false} TypeCountsWithinCount(payments: seq<Payment>)
    ensures CountWhere((p: Payment) => p.paymentType == KrediKarti && p.paymentMethod != Devir, payments) +
            CountWhere((p: Payment) => p.paymentType == Cari && p.paymentMethod != Devir, payments) <= MonthCount(payments)
  {
    var card := (p: Payment) => p.paymentType == KrediKarti && p.paymentMethod != Devir;
    var cari := (p: Payment) => p.paymentType == Cari && p.paymentMethod != Devir;
    var kept := Filter(Summarised(), payments);
    FilterAfterCoarserFilter(card, Summarised(), payments);
    FilterAfterCoarserFilter(cari, Summarised(), payments);
    DisjointFiltersWithin(card, cari, kept);
  }

  lemma {:induction false} DisjointFiltersWithin<T(!new)>(f: T -> bool, g: T -> bool, s: seq<T>)
    requires forall x :: !(f(x) && g(x))
    ensures |Filter(f, s)| + |Filter(g, s)| <= |s|
  {
    if s != [] {
      DisjointFiltersWithin(f, g, s[1..]);
    }
  }

  /** What a click on a day opens. */
  datatype DayAction = ShowList(day: Date, payments: seq<Payment>) | NewPayment(day: Date)

  /** `handleDayClick`: the day's list when it has payments, the new-payment form for that
      day otherwise. */
  function DayClick(payments: seq<Payment>, day: Date): (a: DayAction)
    ensures a.day == day
    ensures a.ShowList? <==> exists p :: p in payments && p.paymentMethod != Devir && ShownOn(p) == day
    ensures a.ShowList? ==> a.payments == PaymentsForDay(payments, day)
  {
    var dayPayments := PaymentsForDay(payments, day);
    if |dayPayments| > 0 then
      assert dayPayments[0] in dayPayments;
      ShowList(day, dayPayments)
    else NewPayment(day)
  }
}

=== FILE: card_data.dfy ===
/** The `useCardData` hook: the card list of the card pages and, once it is loaded, the
    usage (ledger balance) of every card, keyed by card id. */
module CardData {
  import opened Domain
  import opened Ledger

  /** The `forEach` of `loadCardUsages`: one entry per card, keyed by its id. */
  method BuildUsages(cards: seq<Card>, payments: seq<Payment>) returns (usages: map<string, real>)
    ensures usages.Keys == set c | c in cards :: c.id
    ensures forall id :: id in usages ==> usages[id] == CardUsage(id, payments)
  {
    usages := map[];
    var i := 0;
    while i < |cards|
      invariant 0 <= i <= |cards|
      invariant usages.Keys == set c | c in cards[..i] :: c.id
      invariant forall id :: id in usages ==> usages[id] == CardUsage(id, payments)
    {
      var card := cards[i];
      assert (set c | c in cards[..i + 1] :: c.id) == (set c | c in cards[..i] :: c.id) + {card.id} by {
        assert cards[..i + 1] == cards[..i] + [card];
      }
      usages := usages[card.id := CardUsage(card.id, payments)];
      i := i + 1;
    }
    assert cards[..i] == cards;
  }

  /** The hook's state: `cards`, `cardUsages` and `usagesLoaded`. */
  class CardDataHook {
    var cards: seq<Card>
    var cardUsages: map<string, real>
    var usagesLoaded: bool

    constructor ()
      ensures cards == [] && cardUsages == map[] && !usagesLoaded
    {
      cards := [];
      cardUsages := map[];
      usagesLoaded := false;
    }

    /** `loadCards`: the fetched list replaces the cards and marks the usages stale. */
    method LoadCards(data: seq<Card>)
      modifies this
      ensures cards == data && !usagesLoaded && cardUsages == old(cardUsages)
    {
      cards := data;
      usagesLoaded := false;
    }

    /** `loadCardUsages` over the fetched payments. */
    method LoadCardUsages(payments: seq<Payment>)
      modifies this
      ensures cards == old(cards) && usagesLoaded
      ensures cardUsages.Keys == set c | c in cards :: c.id
      ensures forall id :: id in cardUsages ==> cardUsages[id] == CardUsage(id, payments)
    {
      var usages := BuildUsages(cards, payments);
      cardUsages := usages;
      usagesLoaded := true;
    }

    /** The effect that runs whenever `cards` changes: usages are computed for a
        non-empty list; an empty list is marked loaded without computing anything. */
    method OnCardsChanged(payments: seq<Payment>)
      modifies this
      ensures cards == old(cards) && usagesLoaded
      ensures old(cards) == [] ==> cardUsages == old(cardUsages)
      ensures old(cards) != [] ==>
        cardUsages.Keys == (set c | c in cards :: c.id) &&
        forall id :: id in cardUsages ==> cardUsages[id] == CardUsage(id, payments)
    {
      if |cards| > 0 {
        LoadCardUsages(payments);
      } else {
        usagesLoaded := true;
      }
    }
  }
}

=== FILE: card_detail.dfy ===
/** The card detail view: the card's ledger in date order with a running balance, a
    text and date-range filter over the rows, in-place editing of a row, and the
    carry-over (`devir`) dialog. The locale texts a row is searched by (its date as
    `toLocaleDateString` and its amount as `toString` give them) are parameters. */
module CardDetail {
  import opened Common
  import opened Domain
  import opened Text
  import opened Ledger
  import Currency
  import Sorting

  /** `loadPayments`: the entries of this card, ascending by payment date. */
  function LoadedPayments(allPayments: seq<Payment>, card: Card): (r: seq<Payment>)
    ensures Sorting.SortedBy(ByDate, r)
    ensures multiset(r) == multiset(Filter(OnCard(card.id), allPayments))
    ensures forall p :: p in r <==> p in allPayments && p.creditCardId == card.id
  {
    SortedCardPaymentsSpec(allPayments, card.id);
    SortedCardPayments(allPayments, card.id)
  }

  /** The card's balance as the view shows it under the last row equals its usage on the
      card pages. */
  lemma {:induction false} LoadedBalanceIsUsage(allPayments: seq<Payment>, card: Card)
    ensures CurrentBalance(LoadedPayments(allPayments, card)) == CardUsage(card.id, allPayments)
  {
  }

  /** The optional date bounds of the filter: a row before `start` or after `end` is hidden. */
  predicate InDateRange(d: Date, start: Option<Date>, end: Option<Date>)
  {
    (start.None? || !DateLt(d, start.value)) && (end.None? || !DateLt(end.value, d))
  }

  /** With both bounds the range is inclusive at both ends; without bounds it holds
      every day. */
  lemma {:induction false} DateRangeBounds(d: Date, start: Option<Date>, end: Option<Date>)
    ensures start.Some? ==> (!DateLt(d, start.value) <==> DateLe(start.value, d))
    ensures end.Some? ==> (!DateLt(end.value, d) <==> DateLe(d, end.value))
    ensures start.None? && end.None? ==> InDateRange(d, start, end)
  {
    if start.Some? {
      DateLeTotalOrder(d, start.value, d);
    }
    if end.Some? {
      DateLeTotalOrder(d, end.value, d);
    }
  }

  /** The text search: the lowercased term occurs in the row's date text, description,
      supplier name or amount text. */
  predicate MatchesText(p: Payment, term: string, dateText: Date -> string, amountText: real -> string)
  {
    var t := Lower(term);
    Contains(dateText(p.paymentDate), t) || Contains(Lower(p.description), t) ||
    Contains(Lower(p.cariName), t) || Contains(amountText(p.amount), t)
  }

  /** The row filter of the view. */
  function Shown(term: string, start: Option<Date>, end: Option<Date>,
                 dateText: Date -> string, amountText: real -> string): Payment -> bool
  {
    (p: Payment) => MatchesText(p, term, dateText, amountText) && InDateRange(p.paymentDate, start, end)
  }

  /** `filteredPayments`: the shown rows, in the loaded order. */
  function FilteredPayments(cardPayments: seq<Payment>, term: string, start: Option<Date>, end: Option<Date>,
                            dateText: Date -> string, amountText: real -> string): (r: seq<Payment>)
    ensures IsSubsequence(r, cardPayments)
    ensures forall p :: p in r <==>
      p in cardPayments && MatchesText(p, term, dateText, amountText) && InDateRange(p.paymentDate, start, end)
  {
    Filter(Shown(term, start, end, dateText, amountText), cardPayments)
  }

  lemma {:induction false} ContainsEmpty(s: string)
    ensures Contains(s, "")
  {
  }

  /** An empty search without date bounds shows every row. */
  lemma {:induction false} EmptyFilterShowsAll(cardPayments: seq<Payment>, dateText: Date -> string, amountText: real -> string)
    ensures FilteredPayments(cardPayments, "", None, None, dateText, amountText) == cardPayments
  {
    forall p | p in cardPayments
      ensures Shown("", None, None, dateText, amountText)(p)
    {
      ContainsEmpty(dateText(p.paymentDate));
    }
    FilterAll(Shown("", None, None, dateText, amountText), cardPayments);
  }

  /** The balance column is computed over the shown rows only: a hidden row, wherever it
      sits, changes no displayed balance. */
  lemma {:induction false} HiddenRowDoesNotCount(a: seq<Payment>, h: Payment, b: seq<Payment>, term: string,
                              start: Option<Date>, end: Option<Date>,
                              dateText: Date -> string, amountText: real -> string)
    requires !Shown(term, start, end, dateText, amountText)(h)
    ensures FilteredPayments(a + [h] + b, term, start, end, dateText, amountText) ==
            FilteredPayments(a + b, term, start, end, dateText, amountText)
    ensures forall i :: 0 <= i < |FilteredPayments(a + b, term, start, end, dateText, amountText)| ==>
      BalanceAt(FilteredPayments(a + [h] + b, term, start, end, dateText, amountText), i) ==
      BalanceAt(FilteredPayments(a + b, term, start, end, dateText, amountText), i)
  {
    var f := Shown(term, start, end, dateText, amountText);
    FilterAppend(f, a + [h], b);
    FilterAppend(f, a, [h]);
    FilterAppend(f, a, b);
    assert Filter(f, a) + [] == Filter(f, a);
  }

  /** The fields `handleSavePayment` writes: the cleaned amount text (handed to
      `parseFloat`), the description and, when a new date is given, the payment date. */
  datatype EntryUpdate = EntryUpdate(amountText: string, description: string, paymentDate: Option<Date>)

  /** `handleSavePayment`'s `updates`; `payment` is the row looked up by id. A carry-over
      row always keeps the description "Devir". */
  function SaveUpdates(payment: Option<Payment>, newAmount: string, newDescription: string,
                       newDate: Option<Date>): (u: EntryUpdate)
    ensures u.amountText == Currency.CleanAmount(newAmount)
    ensures payment.Some? && payment.value.paymentMethod == Devir ==> u.description == "Devir"
    ensures !(payment.Some? && payment.value.paymentMethod == Devir) ==> u.description == newDescription
    ensures newDate.None? ==> u.paymentDate.None?
  {
    EntryUpdate(Currency.CleanAmount(newAmount),
                if payment.Some? && payment.value.paymentMethod == Devir then "Devir" else newDescription,
                newDate)
  }

  /** `updatePayment(id, updates)` on the row, with `amount` the parsed amount text. */
  function ApplyUpdate(p: Payment, u: EntryUpdate, amount: real): (q: Payment)
    ensures q.id == p.id && q.paymentType == p.paymentType && q.paymentMethod == p.paymentMethod
    ensures q.creditCardId == p.creditCardId && q.amount == amount && q.description == u.description
    ensures u.paymentDate.None? ==> q.paymentDate == p.paymentDate
    ensures u.paymentDate.Some? ==> q.paymentDate == u.paymentDate.value
  {
    var date := if u.paymentDate.Some? then u.paymentDate.value else p.paymentDate;
    p.(amount := amount, description := u.description, paymentDate := date)
  }

  /** Editing a carry-over row keeps it a carry-over of the same card, described "Devir";
      its balance row is then minus the new amount. */
  lemma {:induction false} EditedDevirStaysDevir(p: Payment, newAmount: string, newDescription: string, newDate: Option<Date>,
                              amount: real, rows: seq<Payment>, i: nat)
    requires p.paymentMethod == Devir
    requires i < |rows| && rows[i] == ApplyUpdate(p, SaveUpdates(Some(p), newAmount, newDescription, newDate), amount)
    ensures rows[i].paymentMethod == Devir && rows[i].description == "Devir" && rows[i].creditCardId == p.creditCardId
    ensures BalanceAt(rows, i) == -amount
  {
  }

  /** The amount field's prefill `amount.toLocaleString('tr-TR', {minimumFractionDigits: 2})`
      for an amount with integer digits `whole` and fraction digits `fraction`: the
      integer digits grouped by dots from the right, a comma, then the fraction. */
  function LocalePrefill(whole: string, fraction: string): (t: string)
    ensures ',' in t
  {
    Currency.GroupRight(whole) + "," + fraction
  }

  /** Saving the prefilled amount untouched hands `parseFloat` the same amount in plain
      decimal notation: the dots are dropped and the comma becomes the point. */
  lemma {:induction false} PrefilledAmountCleans(payment: Option<Payment>, whole: string, fraction: string,
                                                 newDescription: string, newDate: Option<Date>)
    requires AllDigits(whole) && AllDigits(fraction)
    ensures SaveUpdates(payment, LocalePrefill(whole, fraction), newDescription, newDate).amountText ==
            whole + "." + fraction
  {
    Currency.CleanShownWithComma(whole, fraction);
  }

  /** `handleSaveDevir`'s guard: an empty amount or one that parses to zero or less is
      refused. */
  predicate DevirRejected(amountText: string, parsed: real)
  {
    amountText == "" || parsed <= 0.0
  }

  /** The carry-over record, stored under the id `Devir_<card id>`. */
  function DevirRecord(card: Card, date: Date, amount: real): (r: Payment)
    ensures r.id == "Devir_" + card.id && r.creditCardId == card.id
    ensures r.paymentMethod == Devir && r.paymentType == KrediKarti && r.description == "Devir"
    ensures r.amount == amount && r.paymentDate == date && r.dueDate.None?
  {
    Payment("Devir_" + card.id, date, None, amount, KrediKarti, Devir, card.id, "", "", "", "Devir", false, "")
  }

  /** `addPaymentWithId`: `setDoc` replaces any record with the same id. */
  function PutWithId(store: seq<Payment>, record: Payment): (r: seq<Payment>)
    ensures record in r
    ensures forall p :: p in r && p.id == record.id ==> p == record
    ensures forall p :: p in r <==> (p in store && p.id != record.id) || p == record
  {
    Filter((p: Payment) => p.id != record.id, store) + [record]
  }

  /** The dialog: nothing when the guard refuses, otherwise the store with the card's
      carry-over record put in place. */
  function SaveDevir(store: seq<Payment>, card: Card, amountText: string, parsed: real, date: Date): (r: Option<seq<Payment>>)
    ensures r.None? <==> DevirRejected(amountText, parsed)
    ensures r.Some? ==> parsed > 0.0 && DevirRecord(card, date, parsed) in r.value
    ensures r.Some? ==> forall p :: p in r.value && p.id == "Devir_" + card.id ==> p == DevirRecord(card, date, parsed)
  {
    if DevirRejected(amountText, parsed) then None
    else Some(PutWithId(store, DevirRecord(card, date, parsed)))
  }

  /** A carry-over dated after every other entry of the card sets its usage to minus the
      carried amount, whatever the entries before it. */
  lemma {:induction false} DevirSetsUsage(store: seq<Payment>, card: Card, amountText: string, parsed: real, date: Date)
    requires !DevirRejected(amountText, parsed)
    requires forall p :: p in store && p.creditCardId == card.id ==> DateLt(p.paymentDate, date)
    ensures CardUsage(card.id, SaveDevir(store, card, amountText, parsed, date).value) == -parsed
  {
    var d := DevirRecord(card, date, parsed);
    var after := SaveDevir(store, card, amountText, parsed, date).value;
    forall p | p in after && p.creditCardId == card.id && p != d
      ensures DateLt(p.paymentDate, d.paymentDate)
    {
      assert p in store;
    }
    CardUsageLatestDevir(card.id, after, d);
  }
}

=== FILE: card_list.dfy ===
/** The card list: brand detection from the card number, the available limit and the
    usage and availability percentages behind each card's colour and progress bar, and
    the local toggle of a card's active flag. Percentages divide by the card limit; a
    zero limit gives JavaScript's infinities and NaN, which are modelled explicitly. */
module CardList {
  import opened Common
  import opened Domain
  import opened Text

  /** `detectCardType`: the brand by the first digit of the number (also the same
      function in the definitions page). */
  function DetectCardType(code: string): (r: string)
    ensures r == "Visa" <==> Digits(code) != [] && Digits(code)[0] == '4'
    ensures r == "Mastercard" <==> Digits(code) != [] && Digits(code)[0] == '5'
    ensures r == "Troy" <==> Digits(code) != [] && Digits(code)[0] == '9'
    ensures r == "" <==> Digits(code) == [] || Digits(code)[0] !in {'4', '5', '9'}
  {
    var cleaned := Digits(code);
    if StartsWith(cleaned, "4") then "Visa"
    else if StartsWith(cleaned, "5") then "Mastercard"
    else if StartsWith(cleaned, "9") then "Troy"
    else ""
  }

  /** Separators and other non-digits do not change the brand. */
  lemma {:induction false} BrandIgnoresSeparators(a: string, b: string)
    requires Digits(a) == Digits(b)
    ensures DetectCardType(a) == DetectCardType(b)
  {
  }

  /** `cardUsages[card.id] || 0`. */
  function UsageOf(cardUsages: map<string, real>, id: string): real
  {
    if id in cardUsages then cardUsages[id] else 0.0
  }

  /** `card.limit_amount + currentBalance`. */
  function Available(card: Card, cardUsages: map<string, real>): (r: real)
    ensures card.id !in cardUsages ==> r == card.limitAmount
    ensures card.id in cardUsages ==> r == card.limitAmount + cardUsages[card.id]
  {
    card.limitAmount + UsageOf(cardUsages, card.id)
  }

  /** A JavaScript number produced by a division. */
  datatype Ratio = Finite(value: real) | PlusInfinity | MinusInfinity | NotANumber

  /** `a / b * 100`. */
  function Percent(a: real, b: real): (r: Ratio)
    ensures b != 0.0 ==> r == Finite(a / b * 100.0)
    ensures b == 0.0 && a > 0.0 ==> r == PlusInfinity
    ensures b == 0.0 && a < 0.0 ==> r == MinusInfinity
    ensures b == 0.0 && a == 0.0 ==> r == NotANumber
  {
    if b != 0.0 then Finite(a / b * 100.0)
    else if a > 0.0 then PlusInfinity
    else if a < 0.0 then MinusInfinity
    else NotANumber
  }

  /** `x > t` on a JavaScript number. */
  predicate Above(x: Ratio, t: real)
  {
    match x
    case Finite(v) => v > t
    case PlusInfinity => true
    case MinusInfinity => false
    case NotANumber => false
  }

  /** `usagePercent`: the share of the limit in use, 0 when the card is not in debt. */
  function UsagePercent(balance: real, limit: real): (r: Ratio)
    ensures balance >= 0.0 ==> r == Finite(0.0)
    ensures balance < 0.0 && limit > 0.0 ==> r.Finite? && r.value > 0.0
    ensures balance < 0.0 && limit > 0.0 && -balance <= limit ==> r.Finite? && r.value <= 100.0
  {
    if balance < 0.0 then Percent(-balance, limit) else Finite(0.0)
  }

  datatype Colour = Red | Yellow | Green

  /** The colour of the available amount and of the bar. */
  function UsageColour(usage: Ratio): (c: Colour)
    ensures c == Red <==> Above(usage, 80.0)
    ensures c == Yellow <==> !Above(usage, 80.0) && Above(usage, 50.0)
    ensures c == Green <==> !Above(usage, 50.0)
  {
    if Above(usage, 80.0) then Red else if Above(usage, 50.0) then Yellow else Green
  }

  /** `Math.max(0, Math.min(availablePercent, 100))`; `None` is NaN, which gives no width. */
  function BarWidth(availablePercent: Ratio): (w: Option<real>)
    ensures w.Some? ==> 0.0 <= w.value <= 100.0
    ensures w.None? <==> availablePercent.NotANumber?
    ensures availablePercent.Finite? && 0.0 <= availablePercent.value <= 100.0 ==> w == Some(availablePercent.value)
  {
    match availablePercent
    case Finite(v) => Some(if v < 0.0 then 0.0 else if v > 100.0 then 100.0 else v)
    case PlusInfinity => Some(100.0)
    case MinusInfinity => Some(0.0)
    case NotANumber => None
  }

  /** With a positive limit the bar and the usage share add up: a card in debt within its
      limit shows `100 - usage` percent of the bar. */
  lemma {:induction false} BarComplementsUsage(card: Card, balance: real)
    requires card.limitAmount > 0.0 && balance <= 0.0 && -balance <= card.limitAmount
    ensures BarWidth(Percent(card.limitAmount + balance, card.limitAmount)) ==
            Some(100.0 - UsagePercent(balance, card.limitAmount).value)
  {
    var l := card.limitAmount;
    var q := balance / l;
    assert l * q == balance;
    assert l * (1.0 + q) == l + balance;
    QuotientOfProduct(l + balance, l, 1.0 + q);
    assert (-balance) / l == -q;
    if balance < 0.0 {
      assert 0.0 <= (l + balance) / l * 100.0 <= 100.0;
    }
  }

  lemma {:induction false} QuotientOfProduct(x: real, l: real, y: real)
    requires l != 0.0 && x == l * y
    ensures x / l == y
  {
  }

  /** `handleToggleActive`'s local update. */
  function ToggleActive(cards: seq<Card>, id: string): (r: seq<Card>)
    ensures |r| == |cards|
    ensures forall i :: 0 <= i < |cards| && cards[i].id == id ==> r[i] == cards[i].(isActive := !cards[i].isActive)
    ensures forall i :: 0 <= i < |cards| && cards[i].id != id ==> r[i] == cards[i]
  {
    if cards == [] then []
    else [if cards[0].id == id then cards[0].(isActive := !cards[0].isActive) else cards[0]] + ToggleActive(cards[1..], id)
  }

  /** Toggling the same card twice gives the list back. */
  lemma {:induction false} ToggleTwice(cards: seq<Card>, id: string)
    ensures ToggleActive(ToggleActive(cards, id), id) == cards
  {
    var once := ToggleActive(cards, id);
    var twice := ToggleActive(once, id);
    assert |twice| == |cards|;
    forall i | 0 <= i < |cards|
      ensures twice[i] == cards[i]
    {
    }
  }
}

=== FILE: card_page.dfy ===
/** The credit-card page: the bank filter's choices, the filtered card list and how a
    card's number is shown to users who are not administrators. */
module CardPage {
  import opened Common
  import opened Domain
  import opened Text
  import opened Sorting

  /** `cards.map(card => card.bank)`. */
  function Banks(cards: seq<Card>): (r: seq<string>)
    ensures |r| == |cards|
    ensures forall i :: 0 <= i < |cards| ==> r[i] == cards[i].bank
  {
    seq(|cards|, i requires 0 <= i < |cards| => cards[i].bank)
  }

  /** `.filter(Boolean)` on strings. */
  function NonEmpty(): string -> bool
  {
    (s: string) => s != ""
  }

  /** The order of `sort()` without a comparator on strings. */
  function Ascending(): (string, string) -> bool
  {
    (a: string, b: string) => StrLe(a, b)
  }

  lemma {:induction false} AscendingTotalPreorder()
    ensures TotalPreorder(Ascending())
  {
    forall a: string, b: string, c: string
      ensures Ascending()(a, b) || Ascending()(b, a)
      ensures Ascending()(a, b) && Ascending()(b, c) ==> Ascending()(a, c)
    {
      StrLeTotalPreorder(a, b, c);
    }
  }

  /** `availableBanks`: the distinct bank names of the cards, without the empty one, in
      ascending order. */
  function AvailableBanks(cards: seq<Card>): (r: seq<string>)
    ensures forall b :: b in r <==> b != "" && exists c :: c in cards && c.bank == b
    ensures forall i, j :: 0 <= i < j < |r| ==> StrLt(r[i], r[j])
  {
    var names := Distinct(Filter(NonEmpty(), Banks(cards)));
    var r := Sort(Ascending(), names);
    AscendingTotalPreorder();
    SortSorted(Ascending(), names);
    NoDuplicatesPermutation(names, r);
    StrictlyAscending(r);
    SameElements(names, r);
    BanksOfCards(cards);
    r
  }

  lemma {:induction false} SameElements(a: seq<string>, b: seq<string>)
    requires multiset(a) == multiset(b)
    ensures forall x :: x in a <==> x in b
  {
    assert forall x :: x in a <==> x in multiset(a);
    assert forall x :: x in b <==> x in multiset(b);
  }

  lemma {:induction false} BanksOfCards(cards: seq<Card>)
    ensures forall b :: b in Banks(cards) <==> exists c :: c in cards && c.bank == b
  {
    forall b | b in Banks(cards)
      ensures exists c :: c in cards && c.bank == b
    {
      var i :| 0 <= i < |cards| && Banks(cards)[i] == b;
      assert cards[i] in cards;
    }
    forall b | exists c :: c in cards && c.bank == b
      ensures b in Banks(cards)
    {
      var c :| c in cards && c.bank == b;
      var i :| 0 <= i < |cards| && cards[i] == c;
      assert Banks(cards)[i] == b;
    }
  }

  /** Ascending and without repeats is strictly ascending. */
  lemma {:induction false} StrictlyAscending(r: seq<string>)
    requires SortedBy(Ascending(), r) && NoDuplicates(r)
    ensures forall i, j :: 0 <= i < j < |r| ==> StrLt(r[i], r[j])
  {
    forall i, j | 0 <= i < j < |r|
      ensures StrLt(r[i], r[j])
    {
      assert Ascending()(r[i], r[j]);
      StrLtTotal(r[i], r[j]);
    }
  }

  /** The search term and the two filters of the page. */
  predicate CardShown(term: string, bank: string, category: string, c: Card)
  {
    (Contains(Lower(c.name), Lower(term)) || Contains(Lower(c.code), Lower(term)) || Contains(Lower(c.bank), Lower(term))) &&
    (bank == "" || c.bank == bank) &&
    (category == "" || c.cardCategory == category)
  }

  function Shown(term: string, bank: string, category: string): Card -> bool
  {
    (c: Card) => CardShown(term, bank, category, c)
  }

  /** `filteredCards`. */
  function FilteredCards(cards: seq<Card>, term: string, bank: string, category: string): (r: seq<Card>)
    ensures forall c :: c in r <==> (c in cards &&
      (Contains(Lower(c.name), Lower(term)) || Contains(Lower(c.code), Lower(term)) || Contains(Lower(c.bank), Lower(term))) &&
      (bank == "" || c.bank == bank) && (category == "" || c.cardCategory == category))
    ensures IsSubsequence(r, cards)
  {
    Filter(Shown(term, bank, category), cards)
  }

  /** With no search term and no filter, every card is listed, in order. */
  lemma {:induction false} NoFilterShowsAll(cards: seq<Card>)
    ensures FilteredCards(cards, "", "", "") == cards
  {
    forall c | c in cards
      ensures Shown("", "", "")(c)
    {
      assert Lower("") == "";
      assert Contains(Lower(c.name), "");
    }
    FilterAll(Shown("", "", ""), cards);
  }

  /** Choosing a bank only narrows the list: the result is the unfiltered list with the
      other banks' cards removed. */
  lemma {:induction false} BankFilterNarrows(cards: seq<Card>, term: string, bank: string, category: string)
    requires bank != ""
    ensures FilteredCards(cards, term, bank, category) ==
      Filter((c: Card) => c.bank == bank, FilteredCards(cards, term, "", category))
  {
    if cards != [] {
      BankFilterNarrows(cards[1..], term, bank, category);
    }
  }

  /** Every bank offered by the filter lists at least one card. */
  lemma {:induction false} OfferedBankListsACard(cards: seq<Card>, bank: string)
    requires bank in AvailableBanks(cards)
    ensures FilteredCards(cards, "", bank, "") != []
  {
    var c :| c in cards && c.bank == bank;
    assert Lower("") == "";
    assert Contains(Lower(c.name), "");
    assert c in FilteredCards(cards, "", bank, "");
  }

  /** `code.slice(-4)`. */
  function LastFour(code: string): (r: string)
    ensures |r| == if |code| < 4 then |code| else 4
    ensures code == code[..|code| - |r|] + r
  {
    if |code| < 4 then code else code[|code| - 4..]
  }

  /** The number under a card's name: administrators see it whole, everyone else only
      its last four characters. */
  function DisplayedCode(role: string, code: string): (r: string)
    ensures IsAdmin(role) ==> r == code
    ensures !IsAdmin(role) ==> r == "****-****-****-" + LastFour(code) && |r| <= 19
  {
    if IsAdmin(role) then code else "****-****-****-" + LastFour(code)
  }

  /** For other users the shown number depends on the last four characters only. */
  lemma {:induction false} MaskDependsOnLastFour(role: string, a: string, b: string)
    requires !IsAdmin(role) && LastFour(a) == LastFour(b)
    ensures DisplayedCode(role, a) == DisplayedCode(role, b)
  {
  }
}

=== FILE: common.dfy ===
/** Sequence helpers shared by every view of the application: an optional value,
    the JavaScript `filter` on arrays, sums of amounts and order-preserving
    subsequences. */
module Common {

  datatype Option<T> = None | Some(value: T)

  /** An octet. */
  type Byte = b: int | 0 <= b < 256

  /** `xs.filter(p)`: the elements that satisfy `p`, in their original order. */
  function Filter<T(==,!new)>(p: T -> bool, s: seq<T>): (r: seq<T>)
    ensures |r| <= |s|
    ensures forall x :: x in r <==> x in s && p(x)
    ensures forall x :: multiset(r)[x] == if p(x) then multiset(s)[x] else 0
    ensures IsSubsequence(r, s)
  {
    if s == [] then []
    else
      var rest := Filter(p, s[1..]);
      assert s == [s[0]] + s[1..];
      if p(s[0]) then [s[0]] + rest else rest
  }

  /** `xs.find(p)`: the first element that satisfies `p`, or nothing when none does. */
  function FindFirst<T(==,!new)>(p: T -> bool, s: seq<T>): (r: Option<T>)
    ensures r.None? <==> forall x :: x in s ==> !p(x)
    ensures r.Some? ==> r.value in s && p(r.value)
  {
    if s == [] then None
    else if p(s[0]) then Some(s[0])
    else FindFirst(p, s[1..])
  }

  /** The element found is the first match: any element before it fails `p`. */
  lemma {:induction false} FindFirstIsFirst<T(!new)>(p: T -> bool, s: seq<T>, i: nat)
    requires i < |s| && p(s[i])
    requires forall j :: 0 <= j < i ==> !p(s[j])
    ensures FindFirst(p, s) == Some(s[i])
  {
    if i > 0 {
      FindFirstIsFirst(p, s[1..], i - 1);
    }
  }

  /** Filtering by `p` and then by `q` is filtering once by their conjunction. */
  lemma {:induction false} FilterFilter<T(!new)>(p: T -> bool, q: T -> bool, both: T -> bool, s: seq<T>)
    requires forall x :: both(x) == (p(x) && q(x))
    ensures Filter(q, Filter(p, s)) == Filter(both, s)
  {
    if s != [] {
      FilterFilter(p, q, both, s[1..]);
    }
  }

  /** `r` can be obtained from `s` by deleting elements, keeping the order of the rest. */
  predicate IsSubsequence<T(==,!new)>(r: seq<T>, s: seq<T>)
    decreases |s|
  {
    r == [] || (s != [] && ((r[0] == s[0] && IsSubsequence(r[1..], s[1..])) || IsSubsequence(r, s[1..])))
  }

  /** Filtering twice with the same predicate changes nothing. */
  lemma {:induction false} FilterIdempotent<T(!new)>(p: T -> bool, s: seq<T>)
    ensures Filter(p, Filter(p, s)) == Filter(p, s)
  {
    if s != [] {
      FilterIdempotent(p, s[1..]);
    }
  }

  /** Filtering distributes over concatenation. */
  lemma {:induction false} FilterAppend<T(!new)>(p: T -> bool, a: seq<T>, b: seq<T>)
    ensures Filter(p, a + b) == Filter(p, a) + Filter(p, b)
  {
    if a == [] {
      assert a + b == b;
    } else {
      assert (a + b)[0] == a[0] && (a + b)[1..] == a[1..] + b;
      FilterAppend(p, a[1..], b);
    }
  }

  /** A predicate that holds of no element leaves nothing. */
  lemma {:induction false} FilterNone<T(!new)>(p: T -> bool, s: seq<T>)
    requires forall x :: x in s ==> !p(x)
    ensures Filter(p, s) == []
  {
    if Filter(p, s) != [] {
      assert Filter(p, s)[0] in Filter(p, s);
    }
  }

  /** Filtering first by `q` changes nothing for `p` when every element `q` drops is
      one `p` drops as well. */
  lemma {:induction false} FilterAfterCoarserFilter<T(!new)>(p: T -> bool, q: T -> bool, s: seq<T>)
    requires forall x :: x in s && !q(x) ==> !p(x)
    ensures Filter(p, Filter(q, s)) == Filter(p, s)
  {
    if s != [] {
      assert s == [s[0]] + s[1..];
      FilterAfterCoarserFilter(p, q, s[1..]);
    }
  }

  /** Predicates that agree on the elements filter alike. */
  lemma {:induction false} FilterExtensional<T(!new)>(p: T -> bool, q: T -> bool, s: seq<T>)
    requires forall x :: x in s ==> p(x) == q(x)
    ensures Filter(p, s) == Filter(q, s)
  {
    if s != [] {
      FilterExtensional(p, q, s[1..]);
    }
  }

  /** A predicate that holds of every element keeps the whole sequence. */
  lemma {:induction false} FilterAll<T(!new)>(p: T -> bool, s: seq<T>)
    requires forall x :: x in s ==> p(x)
    ensures Filter(p, s) == s
  {
    if s != [] {
      assert s == [s[0]] + s[1..];
      FilterAll(p, s[1..]);
    }
  }

  /** `xs.reduce((sum, x) => sum + f(x), 0)`. */
  function SumOf<T>(f: T -> real, s: seq<T>): real
  {
    if s == [] then 0.0 else f(s[0]) + SumOf(f, s[1..])
  }

  lemma {:induction false} SumOfAppend<T>(f: T -> real, a: seq<T>, b: seq<T>)
    ensures SumOf(f, a + b) == SumOf(f, a) + SumOf(f, b)
  {
    if a != [] {
      assert (a + b)[0] == a[0] && (a + b)[1..] == a[1..] + b;
      SumOfAppend(f, a[1..], b);
    } else {
      assert a + b == b;
    }
  }

  /** Reordering a list does not change its sum. */
  lemma {:induction false} SumOfPermutation<T(!new)>(f: T -> real, a: seq<T>, b: seq<T>)
    requires multiset(a) == multiset(b)
    ensures SumOf(f, a) == SumOf(f, b)
    decreases |a|
  {
    if a == [] {
      assert |b| == |multiset(b)| == 0;
    } else {
      assert a[0] in multiset(b);
      var i :| 0 <= i < |b| && b[i] == a[0];
      SumOfRemoveAt(f, b, i);
      MultisetRemoveAt(a, b, i);
      SumOfPermutation(f, a[1..], b[..i] + b[i + 1..]);
    }
  }

  lemma {:induction false} SumOfRemoveAt<T>(f: T -> real, b: seq<T>, i: nat)
    requires i < |b|
    ensures SumOf(f, b) == f(b[i]) + SumOf(f, b[..i] + b[i + 1..])
  {
    assert b == b[..i] + [b[i]] + b[i + 1..];
    SumOfAppend(f, b[..i] + [b[i]], b[i + 1..]);
    SumOfAppend(f, b[..i], [b[i]]);
    SumOfAppend(f, b[..i], b[i + 1..]);
  }

  lemma {:induction false} MultisetRemoveAt<T>(a: seq<T>, b: seq<T>, i: nat)
    requires multiset(a) == multiset(b) && a != [] && i < |b| && b[i] == a[0]
    ensures multiset(a[1..]) == multiset(b[..i] + b[i + 1..])
  {
    assert a == [a[0]] + a[1..];
    assert b == b[..i] + [b[i]] + b[i + 1..];
    assert multiset(b) == multiset(b[..i]) + multiset{b[i]} + multiset(b[i + 1..]);
    assert multiset(a) == multiset{a[0]} + multiset(a[1..]);
    assert multiset(b[..i] + b[i + 1..]) == multiset(b[..i]) + multiset(b[i + 1..]);
    forall y
      ensures multiset(a[1..])[y] == multiset(b[..i] + b[i + 1..])[y]
    {
      assert multiset(a)[y] == multiset(b)[y];
    }
  }

  /** Replacing one element changes the sum by the difference. */
  lemma {:induction false} SumOfUpdate<T>(f: T -> real, s: seq<T>, i: nat, x: T)
    requires i < |s|
    ensures SumOf(f, s[i := x]) == SumOf(f, s) - f(s[i]) + f(x)
  {
    if i > 0 {
      assert s[i := x][1..] == s[1..][i - 1 := x];
      SumOfUpdate(f, s[1..], i - 1, x);
    }
  }

  /** A sum of terms between two bounds lies between the bounds times the length. */
  lemma {:induction false} SumOfBounds<T>(f: T -> real, s: seq<T>, lo: real, hi: real)
    requires forall i :: 0 <= i < |s| ==> lo <= f(s[i]) <= hi
    ensures |s| as real * lo <= SumOf(f, s) <= |s| as real * hi
  {
    if s != [] {
      SumOfBounds(f, s[1..], lo, hi);
      assert lo <= f(s[0]) <= hi;
    }
  }

  /** Splitting a list by a predicate and its complement splits its sum. */
  lemma {:induction false} SumOfPartition<T(!new)>(f: T -> real, p: T -> bool, q: T -> bool, s: seq<T>)
    requires forall x :: x in s ==> q(x) == !p(x)
    ensures SumOf(f, s) == SumOf(f, Filter(p, s)) + SumOf(f, Filter(q, s))
  {
    if s != [] {
      SumOfPartition(f, p, q, s[1..]);
    }
  }

  /** `xs.slice(0, n)`. */
  function Take<T>(s: seq<T>, n: nat): (r: seq<T>)
    ensures |r| == if n < |s| then n else |s|
    ensures r <= s
  {
    if n < |s| then s[..n] else s
  }

  /** `xs.includes(x)` on an array. */
  predicate Includes<T(==,!new)>(s: seq<T>, x: T)
  {
    x in s
  }

  /** `[...xs]` with every element equal to `x` removed (`xs.filter(y => y !== x)`). */
  function Without<T(==,!new)>(s: seq<T>, x: T): (r: seq<T>)
    ensures x !in r
    ensures forall y :: y != x ==> multiset(r)[y] == multiset(s)[y]
  {
    Filter(y => y != x, s)
  }

  /** No element occurs twice. */
  predicate NoDuplicates<T(==)>(s: seq<T>)
  {
    forall i, j :: 0 <= i < j < |s| ==> s[i] != s[j]
  }

  /** `[...new Set(xs)]`: every element once, in the order of its first occurrence. */
  function Distinct<T(==,!new)>(s: seq<T>): (r: seq<T>)
    ensures forall x :: x in r <==> x in s
    ensures NoDuplicates(r)
  {
    if s == [] then []
    else
      var d := Distinct(s[..|s| - 1]);
      var x := s[|s| - 1];
      assert forall y :: y in s <==> y in s[..|s| - 1] || y == x;
      if x in d then d else d + [x]
  }

  /** A list without duplicates comes out of `Distinct` unchanged. */
  lemma {:induction false} DistinctOfDistinct<T(!new)>(s: seq<T>)
    requires NoDuplicates(s)
    ensures Distinct(s) == s
  {
    if s != [] {
      var init := s[..|s| - 1];
      DistinctOfDistinct(init);
      assert s[|s| - 1] !in init;
      assert s == init + [s[|s| - 1]];
    }
  }

  /** In a list without duplicates every element occurs once. */
  lemma {:induction false} NoDuplicatesMultiplicity<T>(s: seq<T>)
    requires NoDuplicates(s)
    ensures forall x :: multiset(s)[x] <= 1
  {
    if s != [] {
      NoDuplicatesMultiplicity(s[1..]);
      assert s == [s[0]] + s[1..];
      assert s[0] !in s[1..];
    }
  }

  /** A reordering of a list without duplicates has none. */
  lemma {:induction false} NoDuplicatesPermutation<T>(a: seq<T>, b: seq<T>)
    requires NoDuplicates(a) && multiset(a) == multiset(b)
    ensures NoDuplicates(b)
  {
    NoDuplicatesMultiplicity(a);
    forall i, j | 0 <= i < j < |b|
      ensures b[i] != b[j]
    {
      PairMultiplicity(b, i, j);
    }
  }

  /** An element at two positions occurs at least twice. */
  lemma {:induction false} PairMultiplicity<T>(s: seq<T>, i: nat, j: nat)
    requires i < j < |s|
    ensures s[i] == s[j] ==> multiset(s)[s[i]] >= 2
  {
    assert s == s[..j] + s[j..];
    assert s[i] in multiset(s[..j]) && s[j] in multiset(s[j..]);
    assert multiset(s)[s[i]] == multiset(s[..j])[s[i]] + multiset(s[j..])[s[i]];
  }

  /** A prefix is a subsequence. */
  lemma {:induction false} SubsequencePrefix<T(!new)>(r: seq<T>, s: seq<T>)
    requires r <= s
    ensures IsSubsequence(r, s)
  {
    if r != [] {
      SubsequencePrefix(r[1..], s[1..]);
    }
  }

  /** A subsequence of a subsequence is a subsequence. */
  lemma {:induction false} SubsequenceTransitive<T(!new)>(a: seq<T>, b: seq<T>, c: seq<T>)
    requires IsSubsequence(a, b) && IsSubsequence(b, c)
    ensures IsSubsequence(a, c)
    decreases |c|
  {
    if a != [] {
      if b[0] == c[0] && IsSubsequence(b[1..], c[1..]) {
        if a[0] == b[0] && IsSubsequence(a[1..], b[1..]) {
          SubsequenceTransitive(a[1..], b[1..], c[1..]);
        } else {
          SubsequenceTransitive(a, b[1..], c[1..]);
        }
      } else {
        SubsequenceTransitive(a, b, c[1..]);
      }
    }
  }
}

=== FILE: currency.dfy ===
/** The currency input of the payment forms (`CurrencyInput.handleChange`, identical in
    the new-payment form and the card detail view) and the amount cleaning of the card
    detail editor. The field shows Turkish notation (`1.234.567,89`: '.' groups
    thousands, ',' separates kuruş) and hands the parent the plain decimal string
    (`1234567.89`). */
module Currency {
  import opened Common
  import opened Text

  predicate IsAmountChar(c: char)
  {
    IsDigit(c) || c == ','
  }

  /** `s.replace(/[^0-9,]/g, '')`. */
  function Sanitize(s: string): (r: string)
    ensures forall i :: 0 <= i < |r| ==> IsAmountChar(r[i])
    ensures |r| <= |s|
    ensures (forall i :: 0 <= i < |s| ==> IsAmountChar(s[i])) ==> r == s
  {
    if s == [] then ""
    else (if IsAmountChar(s[0]) then [s[0]] else "") + Sanitize(s[1..])
  }

  lemma {:induction false} SanitizeAppend(a: string, b: string)
    ensures Sanitize(a + b) == Sanitize(a) + Sanitize(b)
  {
    if a == [] {
      assert a + b == b;
    } else {
      assert (a + b)[0] == a[0] && (a + b)[1..] == a[1..] + b;
      SanitizeAppend(a[1..], b);
    }
  }

  /** The multiple-comma repair: with more than one comma, every comma after the first
      is deleted. */
  function KeepFirstComma(s: string): (r: string)
    ensures CountChar(r, ',') <= 1
    ensures RemoveChar(r, ',') == RemoveChar(s, ',')
    ensures ',' !in s ==> r == s
    ensures ',' in s ==> r == s[..IndexOf(s, ',') + 1] + RemoveChar(s[IndexOf(s, ',') + 1..], ',')
  {
    if CountChar(s, ',') > 1 then
      assert ',' in s by {
        if ',' !in s {
          CommaFreeGeneral(s, ',');
        }
      }
      var i := IndexOf(s, ',');
      assert s == s[..i] + "," + s[i + 1..] && s[..i + 1] == s[..i] + ",";
      CommaRepair(s[..i], s[i + 1..]);
      s[..i + 1] + RemoveChar(s[i + 1..], ',')
    else
      SingleComma(s);
      s
  }

  /** Deleting the commas after a first one leaves that one comma and deletes no other
      character. */
  lemma {:induction false} CommaRepair(head: string, tail: string)
    requires ',' !in head
    ensures CountChar(head + "," + RemoveChar(tail, ','), ',') == 1
    ensures RemoveChar(head + "," + RemoveChar(tail, ','), ',') == RemoveChar(head + "," + tail, ',')
  {
    var t := RemoveChar(tail, ',');
    assert CountChar(head + "," + t, ',') == 1 by {
      CountAppend(head + ",", t, ',');
      CountAppend(head, ",", ',');
      CommaFreeGeneral(head, ',');
      CommaFreeGeneral(t, ',');
      assert CountChar(",", ',') == 1 by {
        assert ","[1..] == [];
      }
    }
    assert RemoveChar(head + "," + t, ',') == RemoveChar(head + ",", ',') + t by {
      RemoveCharAppend(head + ",", t, ',');
    }
    assert RemoveChar(head + "," + tail, ',') == RemoveChar(head + ",", ',') + t by {
      RemoveCharAppend(head + ",", tail, ',');
    }
  }

  /** With at most one comma, nothing after the first comma is a comma. */
  lemma {:induction false} SingleComma(s: string)
    requires CountChar(s, ',') <= 1
    ensures ',' in s ==> ',' !in s[IndexOf(s, ',') + 1..]
  {
    if ',' in s {
      var i := IndexOf(s, ',');
      assert s == s[..i + 1] + s[i + 1..];
      CountAppend(s[..i + 1], s[i + 1..], ',');
      CountAtFirst(s, ',');
      if ',' in s[i + 1..] {
        CountPositive(s[i + 1..], ',');
      }
    }
  }

  lemma {:induction false} CommaFree(s: string)
    requires ',' !in s
    ensures CountChar(s, ',') == 0
  {
    if s != [] {
      CommaFree(s[1..]);
    }
  }

  lemma {:induction false} CountAppend(a: string, b: string, c: char)
    ensures CountChar(a + b, c) == CountChar(a, c) + CountChar(b, c)
  {
    if a == [] {
      assert a + b == b;
    } else {
      assert (a + b)[0] == a[0] && (a + b)[1..] == a[1..] + b;
      CountAppend(a[1..], b, c);
    }
  }

  /** The prefix up to and including the first `c` holds exactly one `c`. */
  lemma {:induction false} CountAtFirst(s: string, c: char)
    requires c in s
    ensures CountChar(s[..IndexOf(s, c) + 1], c) == 1
  {
    var i := IndexOf(s, c);
    assert s[..i + 1] == s[..i] + [c];
    CountAppend(s[..i], [c], c);
    CommaFreeGeneral(s[..i], c);
  }

  lemma {:induction false} CommaFreeGeneral(s: string, c: char)
    requires c !in s
    ensures CountChar(s, c) == 0
  {
    if s != [] {
      CommaFreeGeneral(s[1..], c);
    }
  }

  lemma {:induction false} CountPositive(s: string, c: char)
    requires c in s
    ensures CountChar(s, c) > 0
  {
    if s[0] != c {
      CountPositive(s[1..], c);
    }
  }

  lemma {:induction false} RemoveCharIdempotent(s: string, c: char)
    ensures RemoveChar(RemoveChar(s, c), c) == RemoveChar(s, c)
  {
  }

  /** The regular expression `\B(?=(\d{3})+(?!\d))` replaced by '.', on a string of
      digits: a '.' goes before position `p` exactly when `p` is not the first
      position and the number of digits from `p` to the end is a multiple of three.
      `notFirst` says whether a character precedes `t` in the whole string. */
  function GroupFrom(t: string, notFirst: bool): string
  {
    if t == [] then ""
    else (if notFirst && |t| % 3 == 0 then "." else "") + [t[0]] + GroupFrom(t[1..], true)
  }

  function Group(digits: string): string
  {
    GroupFrom(digits, false)
  }

  /** An independent reading of the same rule: split off the last three digits, group
      the rest, join with '.'. */
  function GroupRight(digits: string): (r: string)
    decreases |digits|
  {
    if |digits| <= 3 then digits
    else GroupRight(digits[..|digits| - 3]) + "." + digits[|digits| - 3..]
  }

  lemma {:induction false} GroupFromShort(t: string, notFirst: bool)
    requires |t| < 3 || (|t| == 3 && !notFirst)
    ensures GroupFrom(t, notFirst) == t
  {
    if t != [] {
      GroupFromShort(t[1..], true);
    }
  }

  lemma {:induction false} GroupFromAppend(a: string, b: string, notFirst: bool)
    requires a != [] && |b| % 3 == 0
    ensures GroupFrom(a + b, notFirst) == GroupFrom(a, notFirst) + GroupFrom(b, true)
  {
    assert (a + b)[0] == a[0] && (a + b)[1..] == a[1..] + b;
    if |a| == 1 {
      assert a[1..] + b == b;
    } else {
      GroupFromAppend(a[1..], b, true);
    }
  }

  /** The regular expression and the right-to-left grouping agree on every string. */
  lemma {:induction false} GroupMatchesGroupRight(digits: string)
    ensures Group(digits) == GroupRight(digits)
    decreases |digits|
  {
    if |digits| <= 3 {
      GroupFromShort(digits, false);
    } else {
      var a, b := digits[..|digits| - 3], digits[|digits| - 3..];
      assert digits == a + b;
      GroupFromAppend(a, b, false);
      GroupMatchesGroupRight(a);
      assert GroupFrom(b, true) == "." + [b[0]] + GroupFrom(b[1..], true);
      GroupFromShort(b[1..], true);
      assert [b[0]] + b[1..] == b;
    }
  }

  /** A grouped string of `n > 0` digits has `(n - 1) / 3` separators. */
  lemma {:induction false} GroupLength(digits: string)
    requires digits != []
    ensures |GroupRight(digits)| == |digits| + (|digits| - 1) / 3
    decreases |digits|
  {
    if |digits| > 3 {
      GroupLength(digits[..|digits| - 3]);
    }
  }

  /** Deleting the separators gives the digits back. */
  lemma {:induction false} GroupRemoveDots(digits: string)
    requires '.' !in digits
    ensures RemoveChar(GroupRight(digits), '.') == digits
    decreases |digits|
  {
    if |digits| > 3 {
      var a, b := digits[..|digits| - 3], digits[|digits| - 3..];
      var ga := GroupRight(a);
      assert GroupRight(digits) == ga + "." + b;
      assert '.' !in a && '.' !in b by {
        assert digits == a + b;
      }
      assert RemoveChar(ga, '.') == a by {
        GroupRemoveDots(a);
      }
      assert RemoveChar(ga + "." + b, '.') == RemoveChar(ga, '.') + b by {
        RemoveCharAppend(ga + ".", b, '.');
        RemoveCharAppend(ga, ".", '.');
        assert RemoveChar(".", '.') == "" by {
          assert "."[1..] == [];
        }
      }
      assert a + b == digits;
    }
  }

  /** Grouping adds no digit and removes none. */
  lemma {:induction false} GroupDigits(digits: string)
    ensures Digits(GroupRight(digits)) == Digits(digits)
    decreases |digits|
  {
    if |digits| > 3 {
      var a, b := digits[..|digits| - 3], digits[|digits| - 3..];
      assert digits == a + b;
      var ga := GroupRight(a);
      assert GroupRight(digits) == ga + "." + b;
      GroupDigits(a);
      DigitsAppend(ga + ".", b);
      DigitsAppend(ga, ".");
      DigitsAppend(a, b);
    }
  }

  /** Grouping a string without commas introduces none. */
  lemma {:induction false} GroupNoComma(digits: string)
    requires ',' !in digits
    ensures ',' !in GroupRight(digits)
    decreases |digits|
  {
    if |digits| > 3 {
      var a, b := digits[..|digits| - 3], digits[|digits| - 3..];
      assert digits == a + b;
      GroupNoComma(a);
    }
  }

  lemma {:induction false} SanitizeNoComma(x: string)
    requires ',' !in x
    ensures Sanitize(x) == Digits(x)
  {
    if x != [] {
      SanitizeNoComma(x[1..]);
    }
  }

  lemma {:induction false} RemoveCommaOfSanitize(x: string)
    ensures RemoveChar(Sanitize(x), ',') == Digits(x)
  {
    if x != [] {
      RemoveCommaOfSanitize(x[1..]);
      var h: string := if IsAmountChar(x[0]) then [x[0]] else "";
      RemoveCharAppend(h, Sanitize(x[1..]), ',');
    }
  }

  lemma {:induction false} NoCommaInDigits(s: string)
    requires AllDigits(s)
    ensures ',' !in s && '.' !in s
  {
  }

  /** Sanitising around the first comma typed. */
  lemma {:induction false} SanitizeAtComma(raw: string, i: nat)
    requires i < |raw| && raw[i] == ',' && ',' !in raw[..i]
    ensures Sanitize(raw) == Digits(raw[..i]) + "," + Sanitize(raw[i + 1..])
  {
    var head, rest := raw[..i], raw[i + 1..];
    var tail := [','] + rest;
    assert Sanitize(raw) == Sanitize(head) + Sanitize(tail) by {
      assert raw == head + tail;
      SanitizeAppend(head, tail);
    }
    assert Sanitize(tail) == [','] + Sanitize(rest) by {
      assert tail[0] == ',' && tail[1..] == rest;
    }
    assert Sanitize(head) == Digits(head) by {
      SanitizeNoComma(head);
    }
  }

  /** The comma repair on comma-free text, a comma, and anything. */
  lemma {:induction false} KeepFirstCommaAt(d: string, t: string)
    requires ',' !in d
    ensures KeepFirstComma(d + "," + t) == d + "," + RemoveChar(t, ',')
  {
    var s := d + "," + t;
    IndexOfAfterFree(d, "," + t, ',');
    assert s[..|d| + 1] == d + ",";
    assert s[|d| + 1..] == t;
  }

  /** After sanitising and the comma repair, the text is the digits typed before the
      first comma, that comma, and the digits typed after it. */
  lemma {:induction false} NormalizedComma(raw: string)
    requires ',' in raw
    ensures KeepFirstComma(Sanitize(raw)) ==
      Digits(raw[..IndexOf(raw, ',')]) + "," + Digits(raw[IndexOf(raw, ',') + 1..])
  {
    var i := IndexOf(raw, ',');
    var rest := raw[i + 1..];
    var d, t := Digits(raw[..i]), Sanitize(rest);
    var x := Sanitize(raw);
    assert x == d + "," + t by {
      SanitizeAtComma(raw, i);
    }
    assert KeepFirstComma(x) == d + "," + RemoveChar(t, ',') by {
      NoCommaInDigits(d);
      KeepFirstCommaAt(d, t);
    }
    assert RemoveChar(t, ',') == Digits(rest) by {
      RemoveCommaOfSanitize(rest);
    }
  }

  /** Without a comma, only the digits typed remain. */
  lemma {:induction false} NormalizedNoComma(raw: string)
    requires ',' !in raw
    ensures KeepFirstComma(Sanitize(raw)) == Digits(raw)
  {
    SanitizeNoComma(raw);
    NoCommaInDigits(Digits(raw));
  }

  /** What `handleChange` produces: the text shown in the field and the value handed
      to the parent form. */
  datatype Amount = Amount(display: string, numeric: string)

  /** The input handler: sanitise, repair the commas, then split at the comma. */
  function HandleChange(raw: string): Amount
  {
    var s := KeepFirstComma(Sanitize(raw));
    var i := IndexOf(s, ',');
    if i != -1 then
      var before := s[..i];
      var after := Take(s[i + 1..], 2);
      Amount(Group(before) + "," + after, before + "." + after)
    else
      Amount(Group(s), s)
  }

  /** Digits, a comma, and more text: the comma is found right after the digits. */
  lemma {:induction false} SplitAtComma(d: string, e: string)
    requires ',' !in d
    ensures IndexOf(d + "," + e, ',') == |d|
    ensures (d + "," + e)[..|d|] == d && (d + "," + e)[|d| + 1..] == e
  {
    IndexOfAfterFree(d, "," + e, ',');
    assert d + "," + e == d + ("," + e);
  }

  /** With a comma typed: the integer digits are the digits typed before the first
      comma, grouped by three from the right for display; at most two digits typed
      after it are kept; the value handed on is integer digits, '.', fraction, with no
      separators. */
  lemma {:induction false} HandleChangeWithComma(raw: string, before: string, after: string)
    requires ',' in raw
    requires before == Digits(raw[..IndexOf(raw, ',')])
    requires after == Take(Digits(raw[IndexOf(raw, ',') + 1..]), 2)
    ensures HandleChange(raw) == Amount(GroupRight(before) + "," + after, before + "." + after)
  {
    var k := IndexOf(raw, ',');
    var e := Digits(raw[k + 1..]);
    var s := before + "," + e;
    assert KeepFirstComma(Sanitize(raw)) == s by {
      NormalizedComma(raw);
    }
    assert IndexOf(s, ',') == |before| && s[..|before|] == before && s[|before| + 1..] == e by {
      NoCommaInDigits(before);
      SplitAtComma(before, e);
    }
    assert Group(before) == GroupRight(before) by {
      GroupMatchesGroupRight(before);
    }
  }

  /** Without a comma: the digits typed, grouped for display and plain as the value. */
  lemma {:induction false} HandleChangeWithoutComma(raw: string)
    requires ',' !in raw
    ensures HandleChange(raw) == Amount(GroupRight(Digits(raw)), Digits(raw))
  {
    var s := KeepFirstComma(Sanitize(raw));
    NormalizedNoComma(raw);
    NoCommaInDigits(Digits(raw));
    assert IndexOf(s, ',') == -1;
    GroupMatchesGroupRight(s);
  }

  /** Feeding the shown text back into the field changes nothing: the handler is
      idempotent on its own output. */
  lemma {:induction false} HandleChangeIdempotent(raw: string)
    ensures HandleChange(HandleChange(raw).display) == HandleChange(raw)
  {
    if ',' in raw {
      var k := IndexOf(raw, ',');
      var before := Digits(raw[..k]);
      var after := Take(Digits(raw[k + 1..]), 2);
      HandleChangeWithComma(raw, before, after);
      TakeDigits(Digits(raw[k + 1..]), 2);
      ShownWithCommaAgain(before, after);
    } else {
      HandleChangeWithoutComma(raw);
      ShownWithoutCommaAgain(Digits(raw));
    }
  }

  lemma {:induction false} ShownWithCommaAgain(before: string, after: string)
    requires AllDigits(before) && AllDigits(after) && |after| <= 2
    ensures HandleChange(GroupRight(before) + "," + after) ==
            Amount(GroupRight(before) + "," + after, before + "." + after)
  {
    var g := GroupRight(before);
    var shown := g + "," + after;
    NoCommaInDigits(before);
    GroupNoComma(before);
    SplitAtComma(g, after);
    HandleChangeWithComma(shown, Digits(g), Take(Digits(after), 2));
    GroupDigits(before);
  }

  lemma {:induction false} ShownWithoutCommaAgain(d: string)
    requires AllDigits(d)
    ensures HandleChange(GroupRight(d)) == Amount(GroupRight(d), d)
  {
    NoCommaInDigits(d);
    GroupNoComma(d);
    GroupDigits(d);
    HandleChangeWithoutComma(GroupRight(d));
  }

  lemma {:induction false} TakeDigits(s: string, n: nat)
    requires AllDigits(s)
    ensures AllDigits(Take(s, n)) && |Take(s, n)| <= n
  {
  }

  /** `newAmount.replace(/\./g, '').replace(',', '.')`: the card detail editor's
      cleaning of an amount typed in Turkish notation. */
  function CleanAmount(s: string): (r: string)
    ensures |r| <= |s|
    ensures '.' !in s && ',' !in s ==> r == s
  {
    ReplaceFirst(RemoveChar(s, '.'), ',', '.')
  }

  /** Cleaning the text the currency input shows gives back exactly the value it hands
      to the parent, so the two notations agree. */
  lemma {:induction false} CleanDisplayIsNumeric(raw: string)
    ensures CleanAmount(HandleChange(raw).display) == HandleChange(raw).numeric
  {
    if ',' in raw {
      var k := IndexOf(raw, ',');
      var before := Digits(raw[..k]);
      var after := Take(Digits(raw[k + 1..]), 2);
      HandleChangeWithComma(raw, before, after);
      TakeDigits(Digits(raw[k + 1..]), 2);
      CleanShownWithComma(before, after);
    } else {
      var d := Digits(raw);
      HandleChangeWithoutComma(raw);
      NoCommaInDigits(d);
      GroupRemoveDots(d);
    }
  }

  lemma {:induction false} CleanShownWithComma(before: string, after: string)
    requires AllDigits(before) && AllDigits(after)
    ensures CleanAmount(GroupRight(before) + "," + after) == before + "." + after
  {
    NoCommaInDigits(before);
    NoCommaInDigits(after);
    GroupRemoveDots(before);
    RemoveDotsAround(GroupRight(before), after);
    SplitAtComma(before, after);
  }

  lemma {:induction false} RemoveDotsAround(g: string, after: string)
    requires '.' !in after
    ensures RemoveChar(g + "," + after, '.') == RemoveChar(g, '.') + "," + after
  {
    RemoveCharAppend(g, "," + after, '.');
    RemoveCharAppend(",", after, '.');
    assert g + "," + after == g + ("," + after);
  }

  /** The first `c` of `a + b`, when `a` has none, is the first `c` of `b`, shifted. */
  lemma {:induction false} IndexOfAfterFree(a: string, b: string, c: char)
    requires c !in a && c in b
    ensures IndexOf(a + b, c) == |a| + IndexOf(b, c)
  {
    if a == [] {
      assert a + b == b;
    } else {
      assert (a + b)[0] == a[0] && (a + b)[1..] == a[1..] + b;
      IndexOfAfterFree(a[1..], b, c);
    }
  }
}

=== FILE: day_list.dfy ===
/** The payment list of one day: which payments it shows, its total, and the summary of
    what has to be in which account ("Hesaplarda Bulunması Gereken"): per bank account,
    the cash box (`kasa`), transfers (`havale`) and supplier payments by card. */
module DayList {
  import opened Common
  import opened Domain
  import Calendar

  /** A cheque listed on the day because it was issued that day. */
  function IssuedOn(day: Date): Payment -> bool
  {
    (p: Payment) => p.paymentMethod == Cek && p.paymentDate == day
  }

  /** `loadPayments`: the payments shown on the day (as in the agenda), followed by the
      cheques issued that day. */
  function DayPayments(allPayments: seq<Payment>, day: Date): (r: seq<Payment>)
    ensures forall p :: p in r <==> (p in allPayments &&
      ((p.paymentMethod != Devir && Calendar.ShownOn(p) == day) || (p.paymentMethod == Cek && p.paymentDate == day)))
    ensures forall p: Payment :: p.paymentMethod == Cek && p.paymentDate == day && Calendar.ShownOn(p) == day ==>
      multiset(r)[p] == 2 * multiset(allPayments)[p]
  {
    Filter(Calendar.OnDay(day), allPayments) + Filter(IssuedOn(day), allPayments)
  }

  /** A cheque row that is on the list only for its issue day: it adds nothing to the day. */
  predicate IssueOnly(day: Date, p: Payment)
  {
    p.paymentMethod == Cek && p.paymentDate == day && !(p.dueDate.Some? && p.dueDate.value == day)
  }

  /** What a row adds to the day's total. */
  function Weight(day: Date): Payment -> real
  {
    (p: Payment) => if IssueOnly(day, p) then 0.0 else p.amount
  }

  /** The "Toplam Ödeme" of the day. */
  function DayTotal(payments: seq<Payment>, day: Date): real
  {
    SumOf(Weight(day), payments)
  }

  /** A cheque due on the day and issued on it is listed twice, and each copy adds its
      amount to the day's total. */
  lemma {:induction false} ChequeDueAndIssuedSameDay(allPayments: seq<Payment>, day: Date, p: Payment)
    requires p in allPayments && p.paymentMethod == Cek && p.paymentDate == day && p.dueDate == Some(day)
    ensures multiset(DayPayments(allPayments, day))[p] == 2 * multiset(allPayments)[p]
    ensures Weight(day)(p) == p.amount
  {
  }

  /** A cheque without a due date issued on the day is listed twice, and neither copy adds
      anything to the day's total. */
  lemma {:induction false} ChequeWithoutDueDateAddsNothing(allPayments: seq<Payment>, day: Date, p: Payment)
    requires p in allPayments && p.paymentMethod == Cek && p.paymentDate == day && p.dueDate.None?
    ensures multiset(DayPayments(allPayments, day))[p] == 2 * multiset(allPayments)[p]
    ensures Weight(day)(p) == 0.0
  {
  }

  /** A cheque due on another day appears on its issue day, but adds nothing to its total. */
  lemma {:induction false} ChequeIssuedEarlierAddsNothing(allPayments: seq<Payment>, day: Date, p: Payment)
    requires p in allPayments && p.paymentMethod == Cek && p.paymentDate == day
    requires p.dueDate.Some? && p.dueDate.value != day
    ensures p in DayPayments(allPayments, day)
    ensures Weight(day)(p) == 0.0
  {
  }

  /** The summary bucket a row goes into. */
  datatype Bucket = Account(name: string) | CariCard | HavaleBox | Kasa | NoBucket

  /** `bank_account_name || 'Bilinmeyen Hesap'`. */
  function AccountName(p: Payment): (name: string)
    ensures name != ""
  {
    if p.bankAccountName == "" then "Bilinmeyen Hesap" else p.bankAccountName
  }

  /** Card repayments and supplier payments by cheque or DBS are drawn from a bank
      account; other supplier payments by card, by transfer or in cash; anything else
      (a free payment) goes nowhere. */
  function BucketOf(p: Payment): (b: Bucket)
    ensures b.Account? <==> p.paymentType == KrediKarti || (p.paymentType == Cari && (p.paymentMethod == Cek || p.paymentMethod == Dbs))
    ensures b.Account? ==> b.name == AccountName(p)
    ensures b == CariCard <==> p.paymentType == Cari && p.paymentMethod == KrediKarti
    ensures b == HavaleBox <==> p.paymentType == Cari && p.paymentMethod == Havale
    ensures b == Kasa <==> p.paymentType == Cari && p.paymentMethod !in {KrediKarti, Havale, Cek, Dbs}
    ensures b == NoBucket <==> p.paymentType != KrediKarti && p.paymentType != Cari
  {
    if p.paymentType == KrediKarti then Account(AccountName(p))
    else if p.paymentType == Cari then
      if p.paymentMethod == KrediKarti then CariCard
      else if p.paymentMethod == Havale then HavaleBox
      else if p.paymentMethod == Cek then Account(AccountName(p))
      else if p.paymentMethod == Dbs then Account(AccountName(p))
      else Kasa
    else NoBucket
  }

  /** The summary's accumulators. */
  datatype Summary = Summary(accounts: map<string, real>, kasa: real, havale: real, cariCard: real)

  /** One row of the `forEach`. */
  function Step(s: Summary, day: Date, p: Payment): Summary
  {
    if IssueOnly(day, p) then s
    else match BucketOf(p)
      case Account(name) =>
        s.(accounts := s.accounts[name := (if name in s.accounts then s.accounts[name] else 0.0) + p.amount])
      case CariCard => s.(cariCard := s.cariCard + p.amount)
      case HavaleBox => s.(havale := s.havale + p.amount)
      case Kasa => s.(kasa := s.kasa + p.amount)
      case NoBucket => s
  }

  /** The summary of the rows, in order. */
  function SummaryOf(payments: seq<Payment>, day: Date): Summary
  {
    if payments == [] then Summary(map[], 0.0, 0.0, 0.0)
    else Step(SummaryOf(payments[..|payments| - 1], day), day, payments[|payments| - 1])
  }

  /** The loop of the account summary. */
  method Summarise(payments: seq<Payment>, day: Date) returns (s: Summary)
    ensures s == SummaryOf(payments, day)
  {
    var accounts: map<string, real> := map[];
    var kasa := 0.0;
    var havale := 0.0;
    var cariCard := 0.0;
    var i := 0;
    while i < |payments|
      invariant 0 <= i <= |payments|
      invariant Summary(accounts, kasa, havale, cariCard) == SummaryOf(payments[..i], day)
    {
      var p := payments[i];
      ghost var before := Summary(accounts, kasa, havale, cariCard);
      assert SummaryOf(payments[..i + 1], day) == Step(before, day, p) by {
        assert payments[..i + 1][..i] == payments[..i];
      }
      var issueOnly := p.paymentMethod == Cek && p.paymentDate == day && !(p.dueDate.Some? && p.dueDate.value == day);
      if !issueOnly {
        if p.paymentType == KrediKarti {
          var name := if p.bankAccountName == "" then "Bilinmeyen Hesap" else p.bankAccountName;
          accounts := accounts[name := (if name in accounts then accounts[name] else 0.0) + p.amount];
        } else if p.paymentType == Cari {
          if p.paymentMethod == KrediKarti {
            cariCard := cariCard + p.amount;
          } else if p.paymentMethod == Havale {
            havale := havale + p.amount;
          } else if p.paymentMethod == Cek || p.paymentMethod == Dbs {
            var name := if p.bankAccountName == "" then "Bilinmeyen Hesap" else p.bankAccountName;
            accounts := accounts[name := (if name in accounts then accounts[name] else 0.0) + p.amount];
          } else {
            kasa := kasa + p.amount;
          }
        }
      }
      assert Summary(accounts, kasa, havale, cariCard) == Step(before, day, p);
      i := i + 1;
    }
    assert payments[..i] == payments;
    s := Summary(accounts, kasa, havale, cariCard);
  }

  /** The rows a bucket collects. */
  function In(day: Date, b: Bucket): Payment -> bool
  {
    (p: Payment) => !IssueOnly(day, p) && BucketOf(p) == b
  }

  function InSomeAccount(day: Date): Payment -> bool
  {
    (p: Payment) => !IssueOnly(day, p) && BucketOf(p).Account?
  }

  function Unbucketed(day: Date): Payment -> bool
  {
    (p: Payment) => IssueOnly(day, p) || BucketOf(p) == NoBucket
  }

  /** Adding a row to the end adds its amount to its own bucket's sum only. */
  lemma {:induction false} BucketSumSnoc(init: seq<Payment>, last: Payment, day: Date, b: Bucket)
    ensures SumOf(Amount, Filter(In(day, b), init + [last])) ==
            SumOf(Amount, Filter(In(day, b), init)) + (if In(day, b)(last) then last.amount else 0.0)
  {
    FilterAppend(In(day, b), init, [last]);
    SumOfAppend(Amount, Filter(In(day, b), init), Filter(In(day, b), [last]));
  }

  /** What one row does to the boxes. */
  lemma {:induction false} StepBoxes(s: Summary, day: Date, p: Payment)
    ensures Step(s, day, p).kasa == s.kasa + (if In(day, Kasa)(p) then p.amount else 0.0)
    ensures Step(s, day, p).havale == s.havale + (if In(day, HavaleBox)(p) then p.amount else 0.0)
    ensures Step(s, day, p).cariCard == s.cariCard + (if In(day, CariCard)(p) then p.amount else 0.0)
  {
  }

  /** What one row does to an account. */
  lemma {:induction false} StepAccount(s: Summary, day: Date, p: Payment, name: string)
    ensures name in Step(s, day, p).accounts <==> name in s.accounts || In(day, Account(name))(p)
    ensures name in Step(s, day, p).accounts ==>
      (Step(s, day, p).accounts[name] ==
       (if name in s.accounts then s.accounts[name] else 0.0) + (if In(day, Account(name))(p) then p.amount else 0.0))
  {
  }

  /** The cash box, the transfers and the supplier card payments each hold the sum of
      the amounts of their rows. */
  lemma {:induction false} BoxesAreSums(payments: seq<Payment>, day: Date)
    ensures SummaryOf(payments, day).kasa == SumOf(Amount, Filter(In(day, Kasa), payments))
    ensures SummaryOf(payments, day).havale == SumOf(Amount, Filter(In(day, HavaleBox), payments))
    ensures SummaryOf(payments, day).cariCard == SumOf(Amount, Filter(In(day, CariCard), payments))
  {
    if payments != [] {
      var init := payments[..|payments| - 1];
      var last := payments[|payments| - 1];
      assert payments == init + [last];
      assert SummaryOf(payments, day) == Step(SummaryOf(init, day), day, last);
      BoxesAreSums(init, day);
      StepBoxes(SummaryOf(init, day), day, last);
      BucketSumSnoc(init, last, day, Kasa);
      BucketSumSnoc(init, last, day, HavaleBox);
      BucketSumSnoc(init, last, day, CariCard);
    }
  }

  /** An account appears in the summary exactly when a counted row is drawn from it, and
      holds the sum of the amounts of those rows. */
  lemma {:induction false} AccountsAreSums(payments: seq<Payment>, day: Date, name: string)
    ensures name in SummaryOf(payments, day).accounts <==> Filter(In(day, Account(name)), payments) != []
    ensures name in SummaryOf(payments, day).accounts ==>
      SummaryOf(payments, day).accounts[name] == SumOf(Amount, Filter(In(day, Account(name)), payments))
  {
    if payments != [] {
      var init := payments[..|payments| - 1];
      var last := payments[|payments| - 1];
      assert payments == init + [last];
      assert SummaryOf(payments, day) == Step(SummaryOf(init, day), day, last);
      AccountsAreSums(init, day, name);
      StepAccount(SummaryOf(init, day), day, last, name);
      FilterAppend(In(day, Account(name)), init, [last]);
      BucketSumSnoc(init, last, day, Account(name));
      if name !in SummaryOf(init, day).accounts {
        assert SumOf(Amount, Filter(In(day, Account(name)), init)) == 0.0;
      }
    }
  }

  /** Nothing is lost or counted twice: the account boxes, the cash box, the transfers,
      the card payments and the rows that go nowhere add up to the day's total. */
  lemma {:induction false} SummaryConserves(payments: seq<Payment>, day: Date)
    ensures DayTotal(payments, day) ==
      SumOf(Amount, Filter(InSomeAccount(day), payments)) +
      SumOf(Amount, Filter(In(day, Kasa), payments)) +
      SumOf(Amount, Filter(In(day, HavaleBox), payments)) +
      SumOf(Amount, Filter(In(day, CariCard), payments)) +
      SumOf(Weight(day), Filter(Unbucketed(day), payments))
  {
    if payments != [] {
      SummaryConserves(payments[1..], day);
    }
  }

  /** The free payments of the day are what the boxes leave out of the total. */
  lemma {:induction false} SummaryMissesFreePayments(payments: seq<Payment>, day: Date)
    requires forall p :: p in payments ==> p.paymentType == KrediKarti || p.paymentType == Cari
    ensures DayTotal(payments, day) ==
      SumOf(Amount, Filter(InSomeAccount(day), payments)) +
      SumOf(Amount, Filter(In(day, Kasa), payments)) +
      SumOf(Amount, Filter(In(day, HavaleBox), payments)) +
      SumOf(Amount, Filter(In(day, CariCard), payments))
  {
    SummaryConserves(payments, day);
    WeightlessRows(payments, day);
  }

  lemma {:induction false} WeightlessRows(payments: seq<Payment>, day: Date)
    requires forall p :: p in payments ==> p.paymentType == KrediKarti || p.paymentType == Cari
    ensures SumOf(Weight(day), Filter(Unbucketed(day), payments)) == 0.0
  {
    if payments != [] {
      WeightlessRows(payments[1..], day);
    }
  }

  /** `hasData`. */
  predicate HasData(s: Summary)
  {
    |s.accounts| > 0 || s.kasa > 0.0 || s.havale > 0.0 || s.cariCard > 0.0
  }

  /** With amounts that are not negative, a counted row with a positive amount in any
      box makes the summary show. */
  lemma {:induction false} PositiveRowShows(payments: seq<Payment>, day: Date, p: Payment)
    requires forall q :: q in payments ==> q.amount >= 0.0
    requires p in payments && !IssueOnly(day, p) && BucketOf(p) != NoBucket && p.amount > 0.0
    ensures HasData(SummaryOf(payments, day))
  {
    BoxesAreSums(payments, day);
    var s := SummaryOf(payments, day);
    match BucketOf(p)
    case Account(name) =>
      AccountsAreSums(payments, day, name);
      assert name in s.accounts;
      assert |s.accounts| > 0;
    case Kasa => SumOfPositive(Amount, Filter(In(day, Kasa), payments), p);
    case HavaleBox => SumOfPositive(Amount, Filter(In(day, HavaleBox), payments), p);
    case CariCard => SumOfPositive(Amount, Filter(In(day, CariCard), payments), p);
  }

  lemma {:induction false} SumOfPositive(f: Payment -> real, s: seq<Payment>, x: Payment)
    requires forall y :: y in s ==> f(y) >= 0.0
    requires x in s && f(x) > 0.0
    ensures SumOf(f, s) > 0.0
  {
    if s[0] != x {
      SumOfPositive(f, s[1..], x);
    }
    SumOfNonNegative(f, s[1..]);
  }

  lemma {:induction false} SumOfNonNegative(f: Payment -> real, s: seq<Payment>)
    requires forall y :: y in s ==> f(y) >= 0.0
    ensures SumOf(f, s) >= 0.0
  {
    if s != [] {
      SumOfNonNegative(f, s[1..]);
    }
  }

  /** The payment method as the deletion log names it. */
  function MethodLabel(m: string): (r: string)
    ensures r == "?" <==> m !in {Nakit, Dbs, Havale, KrediKarti, Cek}
    ensures m == Nakit ==> r == "Nakit"
    ensures m == Dbs ==> r == "DBS"
    ensures m == Havale ==> r == "Havale"
    ensures m == KrediKarti ==> r == "Kredi Kartı"
    ensures m == Cek ==> r == "Çek"
  {
    if m == Nakit then "Nakit"
    else if m == Dbs then "DBS"
    else if m == Havale then "Havale"
    else if m == KrediKarti then "Kredi Kartı"
    else if m == Cek then "Çek"
    else "?"
  }

  /** Known methods get different labels. */
  lemma {:induction false} MethodLabelsDistinct(a: string, b: string)
    requires a in {Nakit, Dbs, Havale, KrediKarti, Cek} && b in {Nakit, Dbs, Havale, KrediKarti, Cek}
    requires a != b
    ensures MethodLabel(a) != MethodLabel(b)
  {
  }
}

=== FILE: definitions.dfy ===
/** The definitions page: the card number and IBAN formatters of the entry form, the
    submit checks, the sortable and searchable table of the active tab, and the Excel
    import with its conflict handling. Spreadsheet parsing is outside the model: a row
    is the map from column header to cell text that `sheet_to_json` produces. */
module Definitions {
  import opened Common
  import opened Text
  import CardList
  import Sorting

  // ---------------------------------------------------------------------------
  // Formatters

  /** `formatCardNumber`: at most 16 digits, in groups of four joined by '-'
      (`dddd-dddd-dddd-dddd`). */
  function FormatCardNumber(value: string): (r: string)
    ensures Digits(r) == Take(Digits(value), 16)
    ensures |r| <= 19
    ensures var c := Take(Digits(value), 16); |r| == |c| + (if c == [] then 0 else (|c| + 3) / 4 - 1)
    ensures GroupedByFour(r, Take(Digits(value), 16), '-')
    ensures forall k :: 0 <= k < |r| ==> (r[k] == '-' <==> k % 5 == 4)
  {
    var cleaned := Take(Digits(value), 16);
    var parts := Chunks(cleaned, 4);
    ChunksAllDigits(cleaned, 4);
    DigitsOfJoin(parts, "-");
    ChunksConcat(cleaned, 4);
    GroupedLength(cleaned, "-");
    GroupedLayout(cleaned, '-');
    SeparatorsAt(Join(parts, "-"), cleaned, '-');
    Join(parts, "-")
  }

  /** In digits grouped by a non-digit, the separator is exactly at every fifth
      position. */
  lemma {:induction false} SeparatorsAt(r: string, s: string, c: char)
    requires AllDigits(s) && !IsDigit(c)
    requires GroupedByFour(r, s, c)
    ensures forall k :: 0 <= k < |r| ==> (r[k] == c <==> k % 5 == 4)
  {
    forall k | 0 <= k < |r| && k % 5 != 4
      ensures r[k] != c
    {
      var i := k - k / 5;
      assert 0 <= i < |s| && r[k] == s[i];
      assert IsDigit(s[i]);
    }
  }

  /** Grouping by four with a separator adds one separator between groups. */
  lemma {:induction false} GroupedLength(cleaned: string, sep: string)
    ensures |Join(Chunks(cleaned, 4), sep)| ==
            |cleaned| + (if cleaned == [] then 0 else ((|cleaned| + 3) / 4 - 1) * |sep|)
  {
    var parts := Chunks(cleaned, 4);
    ChunksConcat(cleaned, 4);
    ChunkCount4(cleaned);
    if parts != [] {
      JoinLength(parts, sep);
    }
  }

  /** Reformatting a formatted card number changes nothing. */
  lemma {:induction false} FormatCardNumberIdempotent(value: string)
    ensures FormatCardNumber(FormatCardNumber(value)) == FormatCardNumber(value)
  {
  }

  /** `formatIBAN`: "TR" and at most 24 digits in groups of four joined by ' '
      (`TRdd dddd dddd …`). */
  function FormatIBAN(value: string): (r: string)
    ensures |r| >= 2 && r[..2] == "TR"
    ensures Digits(r) == Take(Digits(value), 24)
    ensures var c := Take(Digits(value), 24); |r| == 2 + |c| + (if c == [] then 0 else (|c| + 3) / 4 - 1)
    ensures GroupedByFour(r[2..], Take(Digits(value), 24), ' ')
    ensures var body := r[2..]; forall k :: 0 <= k < |body| ==> (body[k] == ' ' <==> k % 5 == 4)
  {
    var cleaned := Take(Digits(value), 24);
    var parts := Chunks(cleaned, 4);
    ChunksAllDigits(cleaned, 4);
    DigitsOfJoin(parts, " ");
    ChunksConcat(cleaned, 4);
    DigitsAppend("TR", Join(parts, " "));
    GroupedLayout(cleaned, ' ');
    SeparatorsAt(Join(parts, " "), cleaned, ' ');
    GroupedLength(cleaned, " ");
    assert ("TR" + Join(parts, " "))[2..] == Join(parts, " ");
    "TR" + Join(parts, " ")
  }

  /** The groups after "TR" in a formatted IBAN. */
  function IbanGroups(value: string): seq<string>
  {
    Chunks(Take(Digits(value), 24), 4)
  }

  /** `value.replace(/^TR/i, '')`. */
  function StripTR(value: string): (r: string)
    ensures |r| <= |value|
    ensures Digits(r) == Digits(value)
  {
    if |value| >= 2 && Lower(value[..2]) == "tr" then
      assert value == value[..2] + value[2..];
      DigitsAppend(value[..2], value[2..]);
      assert Digits(value[..2]) == "";
      value[2..]
    else value
  }

  /** `handleIBANChange`: the leading "TR" typed by the user is dropped before formatting. */
  function HandleIBANChange(value: string): (r: string)
    ensures r == FormatIBAN(value)
  {
    FormatIBAN(StripTR(value))
  }

  /** The IBAN field is stable: feeding its text back through the handler, or through the
      formatter, gives the same text. */
  lemma {:induction false} IBANIdempotent(value: string)
    ensures HandleIBANChange(HandleIBANChange(value)) == HandleIBANChange(value)
    ensures FormatIBAN(FormatIBAN(value)) == FormatIBAN(value)
  {
  }

  /** The formatted IBAN after "TR": the digits plus one space between groups. */
  lemma {:induction false} IbanBodyLength(value: string)
    ensures |StripTR(FormatIBAN(value))| == |Take(Digits(value), 24)| + (|Take(Digits(value), 24)| + 3) / 4 - (if Take(Digits(value), 24) == [] then 0 else 1)
  {
    var cleaned := Take(Digits(value), 24);
    var parts := Chunks(cleaned, 4);
    var f := FormatIBAN(value);
    assert f == "TR" + Join(parts, " ");
    assert f[..2] == "TR";
    assert StripTR(f) == Join(parts, " ");
    GroupedLength(cleaned, " ");
  }

  // ---------------------------------------------------------------------------
  // Submit checks

  /** The card form's check: exactly 16 digits in the number. */
  predicate CardNumberAccepted(code: string)
  {
    |Digits(code)| == 16
  }

  /** A number from the formatter passes exactly when at least 16 digits were typed. */
  lemma {:induction false} FormattedCardNumberAccepted(value: string)
    ensures CardNumberAccepted(FormatCardNumber(value)) <==> |Digits(value)| >= 16
  {
  }

  /** The bank account form's check, as written: the text after "TR", spaces included,
      must be 24 characters long. */
  predicate IbanAcceptedAsWritten(iban: string)
  {
    |StripTR(iban)| == 24
  }

  /** On the formatter's output the check accepts exactly 20 digits, so a full 24-digit
      Turkish IBAN is refused. */
  lemma {:induction false} IbanCheckAsWritten(value: string)
    ensures IbanAcceptedAsWritten(HandleIBANChange(value)) <==> |Take(Digits(value), 24)| == 20
  {
    IbanBodyLength(value);
  }

  /** A full IBAN typed in the form, 24 digits with or without "TR" and spaces, is
      refused by the check as written. */
  lemma {:induction false} FullIbanRefused(value: string)
    requires |Digits(value)| == 24
    ensures !IbanAcceptedAsWritten(HandleIBANChange(value))
  {
    IbanCheckAsWritten(value);
  }

  /** The check as intended: 24 digits after "TR", whatever the spacing. */
  predicate IbanAccepted(iban: string)
  {
    |Digits(StripTR(iban))| == 24
  }

  /** On the formatter's output the intended check accepts exactly the full 24 digits. */
  lemma {:induction false} IbanCheck(value: string)
    ensures IbanAccepted(HandleIBANChange(value)) <==> |Digits(value)| >= 24
  {
  }

  /** How `handleSubmit` ends: refused with a message, or saved. */
  datatype SubmitResult = NoPermission | BadCardNumber | BadIban | Saved

  /** The order of `handleSubmit`'s refusals, given the outcome of the tab's format
      check: the edit right first, then the card number or the IBAN. */
  function SubmitOrder(tab: Tab, canEdit: bool, cardOk: bool, ibanOk: bool): SubmitResult
  {
    if !canEdit then NoPermission
    else if tab == CardsTab && !cardOk then BadCardNumber
    else if tab == AccountsTab && !ibanOk then BadIban
    else Saved
  }

  /** `handleSubmit`'s checks before anything is written, as written: the IBAN check
      counts the characters after "TR". */
  function SubmitCheckAsWritten(tab: Tab, canEdit: bool, code: string, iban: string): (r: SubmitResult)
    ensures r == Saved <==>
      canEdit && (tab == CardsTab ==> CardNumberAccepted(code)) && (tab == AccountsTab ==> IbanAcceptedAsWritten(iban))
    ensures r == NoPermission <==> !canEdit
    ensures r == BadCardNumber <==> canEdit && tab == CardsTab && !CardNumberAccepted(code)
    ensures r == BadIban <==> canEdit && tab == AccountsTab && !IbanAcceptedAsWritten(iban)
  {
    SubmitOrder(tab, canEdit, CardNumberAccepted(code), IbanAcceptedAsWritten(iban))
  }

  /** As written, a full IBAN from the form's own formatter is refused. */
  lemma {:induction false} FormattedIbanRefusedAsWritten(value: string)
    requires |Digits(value)| >= 24
    ensures SubmitCheckAsWritten(AccountsTab, true, "", HandleIBANChange(value)) == BadIban
  {
    IbanCheckAsWritten(value);
  }

  /** `handleSubmit`'s checks with the IBAN check as intended (the corrected half of the
      IBAN finding). */
  function SubmitCheck(tab: Tab, canEdit: bool, code: string, iban: string): (r: SubmitResult)
    ensures r == Saved <==>
      canEdit && (tab == CardsTab ==> CardNumberAccepted(code)) && (tab == AccountsTab ==> IbanAccepted(iban))
    ensures r == NoPermission <==> !canEdit
    ensures r == BadCardNumber <==> canEdit && tab == CardsTab && !CardNumberAccepted(code)
    ensures r == BadIban <==> canEdit && tab == AccountsTab && !IbanAccepted(iban)
  {
    SubmitOrder(tab, canEdit, CardNumberAccepted(code), IbanAccepted(iban))
  }

  /** A full IBAN from the form's own formatter is saved. */
  lemma {:induction false} FormattedIbanSaved(value: string)
    requires |Digits(value)| >= 24
    ensures SubmitCheck(AccountsTab, true, "", HandleIBANChange(value)) == Saved
  {
    IbanCheck(value);
  }

  // ---------------------------------------------------------------------------
  // The table

  datatype Tab = CardsTab | AccountsTab | CategoriesTab | CariTab

  /** A row of the active tab's table; fields a tab does not have are "" or 0. */
  datatype Item = Item(code: string, name: string, ownerName: string, bank: string, iban: string,
                       limitAmount: real, balance: real)

  /** The columns the table can be sorted on. */
  datatype SortKey = Code | Name | Iban | OwnerName | Bank | LimitAmount | Balance

  datatype Direction = Asc | Desc

  datatype SortConfig = SortConfig(key: Option<SortKey>, direction: Direction)

  /** `handleSort`: a click on the column sorted ascending turns it descending; any other
      click sorts that column ascending. */
  function HandleSort(prev: SortConfig, key: SortKey): (r: SortConfig)
    ensures r.key == Some(key)
    ensures r.direction == Desc <==> prev.key == Some(key) && prev.direction == Asc
  {
    SortConfig(Some(key), if prev.key == Some(key) && prev.direction == Asc then Desc else Asc)
  }

  /** Clicking the same column again always reverses the direction. */
  lemma {:induction false} HandleSortAlternates(prev: SortConfig, key: SortKey)
    ensures HandleSort(HandleSort(prev, key), key).direction != HandleSort(prev, key).direction
  {
  }

  /** The search: the lowercased term in one of the tab's searched fields. */
  predicate Matches(tab: Tab, term: string, item: Item)
  {
    var t := Lower(term);
    if tab == CardsTab then
      Contains(Lower(item.code), t) || Contains(Lower(item.ownerName), t) || Contains(Lower(item.bank), t)
    else
      Contains(Lower(item.code), t) || Contains(Lower(item.name), t)
  }

  /** Ascending order on a column; text columns compare lowercased. */
  predicate KeyLe(key: SortKey, a: Item, b: Item)
  {
    match key
    case Code => StrLe(Lower(a.code), Lower(b.code))
    case Name => StrLe(Lower(a.name), Lower(b.name))
    case Iban => StrLe(Lower(a.iban), Lower(b.iban))
    case OwnerName => StrLe(Lower(a.ownerName), Lower(b.ownerName))
    case Bank => StrLe(Lower(a.bank), Lower(b.bank))
    case LimitAmount => a.limitAmount <= b.limitAmount
    case Balance => a.balance <= b.balance
  }

  /** The comparator of `getFilteredData` as "may come first". */
  function ItemLe(key: SortKey, direction: Direction): (Item, Item) -> bool
  {
    (a: Item, b: Item) => if direction == Asc then KeyLe(key, a, b) else KeyLe(key, b, a)
  }

  lemma {:induction false} KeyLeTotalPreorder(key: SortKey, a: Item, b: Item, c: Item)
    ensures KeyLe(key, a, b) || KeyLe(key, b, a)
    ensures KeyLe(key, a, b) && KeyLe(key, b, c) ==> KeyLe(key, a, c)
  {
    match key
    case Code => StrLeTotalPreorder(Lower(a.code), Lower(b.code), Lower(c.code));
    case Name => StrLeTotalPreorder(Lower(a.name), Lower(b.name), Lower(c.name));
    case Iban => StrLeTotalPreorder(Lower(a.iban), Lower(b.iban), Lower(c.iban));
    case OwnerName => StrLeTotalPreorder(Lower(a.ownerName), Lower(b.ownerName), Lower(c.ownerName));
    case Bank => StrLeTotalPreorder(Lower(a.bank), Lower(b.bank), Lower(c.bank));
    case LimitAmount =>
    case Balance =>
  }

  lemma {:induction false} ItemLeTotalPreorder(key: SortKey, direction: Direction)
    ensures Sorting.TotalPreorder(ItemLe(key, direction))
  {
    forall a: Item, b: Item, c: Item
      ensures ItemLe(key, direction)(a, b) || ItemLe(key, direction)(b, a)
      ensures ItemLe(key, direction)(a, b) && ItemLe(key, direction)(b, c) ==> ItemLe(key, direction)(a, c)
    {
      KeyLeTotalPreorder(key, a, b, c);
      KeyLeTotalPreorder(key, c, b, a);
    }
  }

  /** `getFilteredData`: the matching items, sorted on the chosen column when one is set. */
  function FilteredData(tab: Tab, items: seq<Item>, term: string, config: SortConfig): (r: seq<Item>)
    ensures multiset(r) == multiset(Filter((x: Item) => Matches(tab, term, x), items))
    ensures forall x :: x in r <==> x in items && Matches(tab, term, x)
    ensures config.key.Some? ==> Sorting.SortedBy(ItemLe(config.key.value, config.direction), r)
    ensures config.key.None? ==> r == Filter((x: Item) => Matches(tab, term, x), items)
  {
    var data := Filter((x: Item) => Matches(tab, term, x), items);
    if config.key.Some? then
      ItemLeTotalPreorder(config.key.value, config.direction);
      Sorting.SortSorted(ItemLe(config.key.value, config.direction), data);
      var sorted := Sorting.Sort(ItemLe(config.key.value, config.direction), data);
      assert forall x :: x in sorted <==> x in multiset(sorted);
      sorted
    else data
  }

  // ---------------------------------------------------------------------------
  // Excel import

  /** A spreadsheet row: cell text by column header. */
  type Row = map<string, string>

  /** `row[h1] || row[h2] || … || ''`: the first non-empty cell among the headers. */
  function FirstOf(row: Row, headers: seq<string>): (r: string)
    ensures r != "" ==> exists h :: h in headers && h in row && row[h] == r
    ensures r == "" <==> forall h :: h in headers && h in row ==> row[h] == ""
  {
    if headers == [] then ""
    else if headers[0] in row && row[headers[0]] != "" then row[headers[0]]
    else FirstOf(row, headers[1..])
  }

  /** The text fields an imported item carries; numbers parsed from cells are not part of
      the model. */
  datatype ItemData = ItemData(code: string, name: string, ownerName: string, bank: string,
                               cardCategory: string, cardType: string, expiryDate: string, iban: string)

  /** `{ data, identifier }` of `pendingData`. */
  datatype Pending = Pending(data: ItemData, identifier: string)

  /** The item of one row, or `None` for a row that is skipped (`continue`). */
  function ParseRow(tab: Tab, row: Row): (r: Option<Pending>)
    ensures r.Some? && tab == CardsTab ==>
      CardNumberAccepted(r.value.identifier) && r.value.identifier == r.value.data.code &&
      r.value.identifier == FormatCardNumber(FirstOf(row, ["Kart Numarası", "kart numarası", "Numara", "numara"]))
    ensures r.Some? && tab != CardsTab ==>
      r.value.identifier == r.value.data.code && (r.value.data.code != "" || r.value.data.name != "")
    ensures r.None? <==>
      (if tab == CardsTab then |Digits(FirstOf(row, ["Kart Numarası", "kart numarası", "Numara", "numara"]))| != 16
       else FirstOf(row, ["Kod", "kod"]) == "" && FirstOf(row, ["İsim", "isim", "Ad", "ad"]) == "")
  {
    if tab == CardsTab then
      var raw := FirstOf(row, ["Kart Numarası", "kart numarası", "Numara", "numara"]);
      var number := Digits(raw);
      if |number| != 16 then None
      else
        var formatted := Join(Chunks(number, 4), "-");
        assert FormatCardNumber(raw) == formatted;
        var data := ItemData(formatted, "",
                             FirstOf(row, ["Kullanıcı", "kullanıcı", "Kullanıcı İsmi"]),
                             FirstOf(row, ["Banka", "banka"]),
                             (var c := FirstOf(row, ["Tür", "tür", "Kart Türü"]); if c == "" then "bireysel" else c),
                             CardList.DetectCardType(formatted),
                             FirstOf(row, ["S.K.T", "skt", "Son Kullanma"]),
                             "");
        Some(Pending(data, formatted))
    else
      var code := FirstOf(row, ["Kod", "kod"]);
      var name := FirstOf(row, ["İsim", "isim", "Ad", "ad"]);
      if code == "" && name == "" then None
      else
        var iban := if tab == AccountsTab then FirstOf(row, ["IBAN", "iban"]) else "";
        Some(Pending(ItemData(code, name, "", "", "", "", "", iban), code))
  }

  /** A row whose item has a code already in use: `{ existing, new }`. */
  datatype Conflict = Conflict(existingCode: string, newItem: ItemData)

  /** The pending items of a sheet, in row order. */
  function PendingOf(tab: Tab, rows: seq<Row>): (ps: seq<Pending>)
    ensures |ps| <= |rows|
    ensures forall p :: p in ps ==> exists row :: row in rows && ParseRow(tab, row) == Some(p)
  {
    if rows == [] then []
    else
      var last := rows[|rows| - 1];
      var earlier := PendingOf(tab, rows[..|rows| - 1]);
      assert forall row :: row in rows[..|rows| - 1] ==> row in rows;
      match ParseRow(tab, last)
      case Some(p) => earlier + [p]
      case None => earlier
  }

  /** The conflicts among pending items: those whose identifier is an existing code. */
  function ConflictsOf(pending: seq<Pending>, existingCodes: seq<string>): (cs: seq<Conflict>)
    ensures |cs| <= |pending|
    ensures forall c :: c in cs ==> c.existingCode in existingCodes
  {
    if pending == [] then []
    else
      var last := pending[|pending| - 1];
      var earlier := ConflictsOf(pending[..|pending| - 1], existingCodes);
      if last.identifier in existingCodes then earlier + [Conflict(last.identifier, last.data)] else earlier
  }

  /** `handleExcelImport`'s loop: every row is parsed, skipped rows are dropped, and each
      item whose identifier is an existing code is also listed as a conflict. */
  method ReadSheet(tab: Tab, rows: seq<Row>, existingCodes: seq<string>)
    returns (conflicts: seq<Conflict>, pending: seq<Pending>)
    ensures pending == PendingOf(tab, rows)
    ensures conflicts == ConflictsOf(pending, existingCodes)
  {
    conflicts := [];
    pending := [];
    var i := 0;
    while i < |rows|
      invariant 0 <= i <= |rows|
      invariant pending == PendingOf(tab, rows[..i])
      invariant conflicts == ConflictsOf(pending, existingCodes)
    {
      assert rows[..i + 1][..i] == rows[..i];
      var parsed := ParseRow(tab, rows[i]);
      if parsed.Some? {
        var item := parsed.value;
        var before := pending;
        if item.identifier in existingCodes {
          conflicts := conflicts + [Conflict(item.identifier, item.data)];
        }
        pending := pending + [item];
        assert pending[..|pending| - 1] == before;
      }
      i := i + 1;
    }
    assert rows[..i] == rows;
  }

  /** A conflict's code is the identifier of its pending item, and every pending item with
      an existing code has a conflict. */
  lemma {:induction false} ConflictsCoverExisting(pending: seq<Pending>, existingCodes: seq<string>)
    ensures forall p :: p in pending && p.identifier in existingCodes ==>
      exists c :: c in ConflictsOf(pending, existingCodes) && c.newItem.code == p.identifier
    ensures forall c :: c in ConflictsOf(pending, existingCodes) ==> c.existingCode == c.newItem.code
    requires forall p :: p in pending ==> p.identifier == p.data.code
  {
    if pending != [] {
      var rest := pending[..|pending| - 1];
      assert forall p :: p in rest ==> p in pending;
      ConflictsCoverExisting(rest, existingCodes);
      var last := pending[|pending| - 1];
      if last.identifier in existingCodes {
        assert Conflict(last.identifier, last.data) in ConflictsOf(pending, existingCodes);
      }
      forall p | p in pending && p.identifier in existingCodes
        ensures exists c :: c in ConflictsOf(pending, existingCodes) && c.newItem.code == p.identifier
      {
        if p != last {
          assert p in rest;
        }
      }
    }
  }

  /** Every pending item's identifier is its code. */
  lemma {:induction false} PendingIdentifiers(tab: Tab, rows: seq<Row>)
    ensures forall p :: p in PendingOf(tab, rows) ==> p.identifier == p.data.code
  {
  }

  /** "Skip": the pending items no conflict's new code equals. */
  function SkipConflicts(pending: seq<Pending>, conflicts: seq<Conflict>): (r: seq<Pending>)
    ensures forall p :: p in r <==> p in pending && forall c :: c in conflicts ==> c.newItem.code != p.identifier
    ensures IsSubsequence(r, pending)
  {
    Filter((p: Pending) => forall c :: c in conflicts ==> c.newItem.code != p.identifier, pending)
  }

  /** One write of `processImport`; card writes also put the card's carry-over record. */
  datatype ImportWrite = Update(code: string, data: ItemData, withDevir: bool) | Add(data: ItemData, withDevir: bool)

  /** What `processImport` does with one pending item: `None` is the `continue` of an
      existing code without the replace choice. */
  function ImportStep(tab: Tab, p: Pending, existingCodes: seq<string>, replaceConflicts: bool): (w: Option<ImportWrite>)
    ensures p.identifier in existingCodes && replaceConflicts ==> w == Some(Update(p.identifier, p.data, tab == CardsTab))
    ensures p.identifier !in existingCodes ==> w == Some(Add(p.data, tab == CardsTab))
    ensures p.identifier in existingCodes && !replaceConflicts ==> w.None?
  {
    if p.identifier in existingCodes && replaceConflicts then Some(Update(p.identifier, p.data, tab == CardsTab))
    else if p.identifier !in existingCodes then Some(Add(p.data, tab == CardsTab))
    else None
  }

  /** The writes of `processImport`, in order. */
  function ImportWrites(tab: Tab, pending: seq<Pending>, existingCodes: seq<string>, replaceConflicts: bool): (ws: seq<ImportWrite>)
    ensures |ws| <= |pending|
    ensures forall w :: w in ws ==> exists p :: p in pending && ImportStep(tab, p, existingCodes, replaceConflicts) == Some(w)
  {
    if pending == [] then []
    else
      var earlier := ImportWrites(tab, pending[..|pending| - 1], existingCodes, replaceConflicts);
      assert forall p :: p in pending[..|pending| - 1] ==> p in pending;
      match ImportStep(tab, pending[|pending| - 1], existingCodes, replaceConflicts)
      case Some(w) => earlier + [w]
      case None => earlier
  }

  /** `processImport`: one pass over the pending items, counting the successful writes.
      Firestore failures, the only source of `errorCount`, are outside the model. */
  method ProcessImport(tab: Tab, pending: seq<Pending>, existingCodes: seq<string>, replaceConflicts: bool)
    returns (writes: seq<ImportWrite>, successCount: nat)
    ensures writes == ImportWrites(tab, pending, existingCodes, replaceConflicts)
    ensures successCount == |writes|
  {
    writes := [];
    successCount := 0;
    var i := 0;
    while i < |pending|
      invariant 0 <= i <= |pending|
      invariant writes == ImportWrites(tab, pending[..i], existingCodes, replaceConflicts)
      invariant successCount == |writes|
    {
      assert pending[..i + 1][..i] == pending[..i];
      var p := pending[i];
      if p.identifier in existingCodes && replaceConflicts {
        writes := writes + [Update(p.identifier, p.data, tab == CardsTab)];
        successCount := successCount + 1;
      } else if p.identifier !in existingCodes {
        writes := writes + [Add(p.data, tab == CardsTab)];
        successCount := successCount + 1;
      }
      i := i + 1;
    }
    assert pending[..i] == pending;
  }

  /** With the replace choice every pending item is written. */
  lemma {:induction false} ReplaceWritesAll(tab: Tab, pending: seq<Pending>, existingCodes: seq<string>)
    ensures |ImportWrites(tab, pending, existingCodes, true)| == |pending|
  {
    if pending != [] {
      ReplaceWritesAll(tab, pending[..|pending| - 1], existingCodes);
    }
  }

  /** Without it, no existing record is touched: every write adds a new one. */
  lemma {:induction false} NoReplaceOnlyAdds(tab: Tab, pending: seq<Pending>, existingCodes: seq<string>)
    ensures forall w :: w in ImportWrites(tab, pending, existingCodes, false) ==> w.Add?
  {
  }

  /** After "skip", nothing left has an existing code, so every remaining item is added. */
  lemma {:induction false} SkipThenImportAddsAll(tab: Tab, rows: seq<Row>, existingCodes: seq<string>)
    ensures
      var pending := PendingOf(tab, rows);
      var rest := SkipConflicts(pending, ConflictsOf(pending, existingCodes));
      |ImportWrites(tab, rest, existingCodes, false)| == |rest| &&
      forall w :: w in ImportWrites(tab, rest, existingCodes, false) ==> w.Add?
  {
    var pending := PendingOf(tab, rows);
    var conflicts := ConflictsOf(pending, existingCodes);
    var rest := SkipConflicts(pending, conflicts);
    PendingIdentifiers(tab, rows);
    ConflictsCoverExisting(pending, existingCodes);
    forall p | p in rest
      ensures p.identifier !in existingCodes
    {
      assert forall c :: c in conflicts ==> c.newItem.code != p.identifier;
    }
    AllNewAdded(tab, rest, existingCodes);
  }

  lemma {:induction false} AllNewAdded(tab: Tab, pending: seq<Pending>, existingCodes: seq<string>)
    requires forall p :: p in pending ==> p.identifier !in existingCodes
    ensures |ImportWrites(tab, pending, existingCodes, false)| == |pending|
  {
    if pending != [] {
      assert forall p :: p in pending[..|pending| - 1] ==> p in pending;
      AllNewAdded(tab, pending[..|pending| - 1], existingCodes);
    }
  }

  /** What `handleExcelImport` ends in: the conflict dialog, or the import itself. */
  datatype ImportOutcome =
    | ConflictPrompt(conflicts: seq<Conflict>, pending: seq<Pending>)
    | Imported(writes: seq<ImportWrite>, successCount: nat)

  /** `handleExcelImport`: read the sheet; with conflicts, ask; without, import every
      pending item, each of which is then new. */
  method HandleExcelImport(tab: Tab, rows: seq<Row>, existingCodes: seq<string>) returns (outcome: ImportOutcome)
    ensures outcome.ConflictPrompt? <==> ConflictsOf(PendingOf(tab, rows), existingCodes) != []
    ensures outcome.ConflictPrompt? ==>
      outcome.pending == PendingOf(tab, rows) && outcome.conflicts == ConflictsOf(PendingOf(tab, rows), existingCodes)
    ensures outcome.Imported? ==>
      outcome.writes == ImportWrites(tab, PendingOf(tab, rows), existingCodes, false) &&
      outcome.successCount == |PendingOf(tab, rows)| &&
      forall w :: w in outcome.writes ==> w.Add?
  {
    var conflicts, pending := ReadSheet(tab, rows, existingCodes);
    if |conflicts| > 0 {
      outcome := ConflictPrompt(conflicts, pending);
    } else {
      PendingIdentifiers(tab, rows);
      ConflictsCoverExisting(pending, existingCodes);
      AllNewAdded(tab, pending, existingCodes);
      NoReplaceOnlyAdds(tab, pending, existingCodes);
      var writes, successCount := ProcessImport(tab, pending, existingCodes, false);
      outcome := Imported(writes, successCount);
    }
  }
}

=== FILE: domain.dfy ===
/** The records the application keeps in its Firestore collections, as the views read
    them: payments, credit cards and reminders. Field names follow the stored documents
    (`payment_date` becomes `paymentDate`); an absent or null text field is "". */
module Domain {
  import opened Common

  /** A calendar day as stored in `payment_date` / `due_date` ("yyyy-MM-dd"). */
  datatype Date = Date(year: int, month: int, day: int)

  /** The order of `new Date(a) - new Date(b)` on calendar days: year, then month, then day. */
  predicate DateLe(a: Date, b: Date)
  {
    a.year < b.year || (a.year == b.year && (a.month < b.month || (a.month == b.month && a.day <= b.day)))
  }

  predicate DateLt(a: Date, b: Date)
  {
    DateLe(a, b) && a != b
  }

  /** Calendar order is total, transitive and antisymmetric. */
  lemma {:induction false} DateLeTotalOrder(a: Date, b: Date, c: Date)
    ensures DateLe(a, b) || DateLe(b, a)
    ensures DateLe(a, b) && DateLe(b, c) ==> DateLe(a, c)
    ensures DateLe(a, b) && DateLe(b, a) ==> a == b
  {
  }

  predicate IsLeapYear(y: int)
  {
    (y % 4 == 0 && y % 100 != 0) || y % 400 == 0
  }

  /** The number of days of a month (1-12) of the Gregorian calendar. */
  function DaysInMonth(year: int, month: int): (n: int)
    requires 1 <= month <= 12
    ensures 28 <= n <= 31
    ensures n == 29 <==> month == 2 && IsLeapYear(year)
  {
    if month == 2 then (if IsLeapYear(year) then 29 else 28)
    else if month == 4 || month == 6 || month == 9 || month == 11 then 30
    else 31
  }

  /** A day that exists in the calendar. */
  predicate ValidDate(d: Date)
  {
    1 <= d.month <= 12 && 1 <= d.day <= DaysInMonth(d.year, d.month)
  }

  // Values of `payment_type`.
  const KrediKarti := "kredi_karti"
  const Cari := "cari"
  // Values of `payment_method` beyond "kredi_karti".
  const Nakit := "nakit"
  const Dbs := "dbs"
  const Havale := "havale"
  const Cek := "cek"
  const Devir := "devir"

  /** A document of the `payments` collection. A `devir` (carry-over) entry records the
      debt a card had when it was entered into the application. */
  datatype Payment = Payment(
    id: string,
    paymentDate: Date,
    dueDate: Option<Date>,
    amount: real,
    paymentType: string,
    paymentMethod: string,
    creditCardId: string,
    cariId: string,
    cariName: string,
    bankAccountName: string,
    description: string,
    isAdminOnly: bool,
    reminderId: string)

  /** The amount of a payment, as the sums over payments take it. */
  function Amount(p: Payment): real
  {
    p.amount
  }

  /** A document of the `creditCards` collection; `expiryDate` is "MM/YY" or "". */
  datatype Card = Card(
    id: string,
    code: string,
    name: string,
    ownerName: string,
    bank: string,
    cardCategory: string,
    limitAmount: real,
    isActive: bool,
    expiryDate: string)

  /** `cards.find(c => c.id === id)`: the first card with that id. */
  function FindCard(cards: seq<Card>, id: string): (r: Option<Card>)
    ensures r.None? <==> forall c :: c in cards ==> c.id != id
    ensures r.Some? ==> r.value in cards && r.value.id == id
  {
    FindFirst((c: Card) => c.id == id, cards)
  }

  // Values of a reminder's `type`.
  const CreditCardReminder := "creditCard"
  const CariReminder := "cari"
  const GeneralReminder := "general"

  /** A document of the `reminders` collection. `dayStart`/`dayEnd` are 0 when unset,
      `paymentType` is "" when the reminder accepts any payment method, and the
      counters read as `parseInt(x) || 0`. `isActive` is `None` when the field is absent. */
  datatype Reminder = Reminder(
    id: string,
    kind: string,
    title: string,
    creditCardId: string,
    cariId: string,
    paymentType: string,
    dayStart: int,
    dayEnd: int,
    repeatMonthly: bool,
    autoCloseOnPayment: bool,
    remainingCount: int,
    paymentCount: int,
    isActive: Option<bool>)

  /** `role === 'superadmin' || role === 'admin' || role === 'editor'`. */
  predicate CanEdit(role: string)
  {
    role == "superadmin" || role == "admin" || role == "editor"
  }

  /** `role === 'superadmin' || role === 'admin'`. */
  predicate IsAdmin(role: string)
  {
    role == "superadmin" || role == "admin"
  }

  /** A document of the `cari` (supplier account) collection. */
  datatype CariAccount = CariAccount(id: string, code: string, name: string)

  /** `cariList.find(c => c.id === id)`. */
  function FindCari(cariList: seq<CariAccount>, id: string): (r: Option<CariAccount>)
    ensures r.None? <==> forall c :: c in cariList ==> c.id != id
    ensures r.Some? ==> r.value in cariList && r.value.id == id
  {
    FindFirst((c: CariAccount) => c.id == id, cariList)
  }
}

=== FILE: fingerprint.dfy ===
/** The device fingerprint: the first 32 characters of the Base64 encoding (section 4
    of RFC 4648, with `=` padding) of the hardware id. `btoa` reads each character of a
    Latin-1 string as one byte. */
module Fingerprint {
  import opened Common

  /** `btoa` accepts only characters up to U+00FF. */
  predicate Latin1(s: string)
  {
    forall i :: 0 <= i < |s| ==> s[i] as int < 256
  }

  function Bytes(s: string): (r: seq<Byte>)
    requires Latin1(s)
    ensures |r| == |s|
    ensures forall i :: 0 <= i < |s| ==> r[i] == s[i] as int
  {
    seq(|s|, i requires 0 <= i < |s| && Latin1(s) => s[i] as int as Byte)
  }

  /** Table 1 of RFC 4648: `A`-`Z`, `a`-`z`, `0`-`9`, `+`, `/`. */
  function Sextet(k: int): (c: char)
    requires 0 <= k < 64
  {
    if k < 26 then ('A' as int + k) as char
    else if k < 52 then ('a' as int + k - 26) as char
    else if k < 62 then ('0' as int + k - 52) as char
    else if k == 62 then '+'
    else '/'
  }

  predicate InAlphabet(c: char)
  {
    'A' <= c <= 'Z' || 'a' <= c <= 'z' || '0' <= c <= '9' || c == '+' || c == '/'
  }

  /** The value of an alphabet character; anything else reads as 0. */
  function SextetValue(c: char): (k: int)
    ensures 0 <= k < 64
  {
    if 'A' <= c <= 'Z' then c as int - 'A' as int
    else if 'a' <= c <= 'z' then c as int - 'a' as int + 26
    else if '0' <= c <= '9' then c as int - '0' as int + 52
    else if c == '+' then 62
    else if c == '/' then 63
    else 0
  }

  lemma {:induction false} SextetRoundTrip(k: int)
    requires 0 <= k < 64
    ensures InAlphabet(Sextet(k)) && SextetValue(Sextet(k)) == k && Sextet(k) != '='
  {
  }

  /** Three bytes as four characters. */
  function EncodeGroup(a: Byte, b: Byte, c: Byte): (r: string)
    ensures |r| == 4 && forall ch :: ch in r ==> InAlphabet(ch)
  {
    SextetRoundTrip(a / 4);
    SextetRoundTrip((a % 4) * 16 + b / 16);
    SextetRoundTrip((b % 16) * 4 + c / 64);
    SextetRoundTrip(c % 64);
    [Sextet(a / 4), Sextet((a % 4) * 16 + b / 16), Sextet((b % 16) * 4 + c / 64), Sextet(c % 64)]
  }

  /** The standard encoding, padded with `=` to a multiple of four characters. */
  function Encode(s: seq<Byte>): (r: string)
    ensures |r| == 4 * ((|s| + 2) / 3)
    ensures forall ch :: ch in r ==> InAlphabet(ch) || ch == '='
    decreases |s|
  {
    if |s| == 0 then ""
    else if |s| == 1 then
      SextetRoundTrip(s[0] / 4);
      SextetRoundTrip((s[0] % 4) * 16);
      [Sextet(s[0] / 4), Sextet((s[0] % 4) * 16), '=', '=']
    else if |s| == 2 then
      SextetRoundTrip(s[0] / 4);
      SextetRoundTrip((s[0] % 4) * 16 + s[1] / 16);
      SextetRoundTrip((s[1] % 16) * 4);
      [Sextet(s[0] / 4), Sextet((s[0] % 4) * 16 + s[1] / 16), Sextet((s[1] % 16) * 4), '=']
    else EncodeGroup(s[0], s[1], s[2]) + Encode(s[3..])
  }

  /** Four characters back to one, two or three bytes, as the padding says. */
  function DecodeGroup(g: string): (r: seq<Byte>)
    requires |g| == 4
    ensures 1 <= |r| <= 3
  {
    var i0, i1, i2, i3 := SextetValue(g[0]), SextetValue(g[1]), SextetValue(g[2]), SextetValue(g[3]);
    var x: Byte := i0 * 4 + i1 / 16;
    var y: Byte := (i1 % 16) * 16 + i2 / 4;
    var z: Byte := (i2 % 4) * 64 + i3;
    if g[2] == '=' then [x]
    else if g[3] == '=' then [x, y]
    else [x, y, z]
  }

  /** The decoder, group by group; a trailing piece shorter than four is ignored. */
  function Decode(s: string): (r: seq<Byte>)
    decreases |s|
  {
    if |s| < 4 then [] else DecodeGroup(s[..4]) + Decode(s[4..])
  }

  /** The bit arithmetic of one group: the four sextets give the three bytes back. */
  lemma {:induction false} SextetsRejoin(a: Byte, b: Byte, c: Byte)
    ensures var k0, k1 := a / 4, (a % 4) * 16 + b / 16;
      k0 * 4 + k1 / 16 == a
    ensures var k1, k2 := (a % 4) * 16 + b / 16, (b % 16) * 4 + c / 64;
      (k1 % 16) * 16 + k2 / 4 == b
    ensures var k2, k3 := (b % 16) * 4 + c / 64, c % 64;
      (k2 % 4) * 64 + k3 == c
  {
    var k1 := (a % 4) * 16 + b / 16;
    assert k1 / 16 == a % 4 && k1 % 16 == b / 16;
    var k2 := (b % 16) * 4 + c / 64;
    assert k2 / 4 == b % 16 && k2 % 4 == c / 64;
  }

  lemma {:induction false} GroupRoundTrip(a: Byte, b: Byte, c: Byte)
    ensures DecodeGroup(EncodeGroup(a, b, c)) == [a, b, c]
  {
    var k0, k1, k2, k3 := a / 4, (a % 4) * 16 + b / 16, (b % 16) * 4 + c / 64, c % 64;
    SextetRoundTrip(k0);
    SextetRoundTrip(k1);
    SextetRoundTrip(k2);
    SextetRoundTrip(k3);
    SextetsRejoin(a, b, c);
    var g := EncodeGroup(a, b, c);
    assert g == [Sextet(k0), Sextet(k1), Sextet(k2), Sextet(k3)];
    assert SextetValue(g[0]) == k0 && SextetValue(g[1]) == k1 && SextetValue(g[2]) == k2 && SextetValue(g[3]) == k3;
    assert g[2] != '=' && g[3] != '=';
  }

  /** Decoding undoes encoding. */
  lemma {:induction false} DecodeEncode(s: seq<Byte>)
    ensures Decode(Encode(s)) == s
    decreases |s|
  {
    if |s| == 0 {
    } else if |s| == 1 {
      SextetRoundTrip(s[0] / 4);
      SextetRoundTrip((s[0] % 4) * 16);
    } else if |s| == 2 {
      SextetRoundTrip(s[0] / 4);
      SextetRoundTrip((s[0] % 4) * 16 + s[1] / 16);
      SextetRoundTrip((s[1] % 16) * 4);
    } else {
      var e := Encode(s);
      var g := EncodeGroup(s[0], s[1], s[2]);
      assert e == g + Encode(s[3..]);
      assert e[..4] == g && e[4..] == Encode(s[3..]);
      GroupRoundTrip(s[0], s[1], s[2]);
      DecodeEncode(s[3..]);
      assert s == [s[0], s[1], s[2]] + s[3..];
    }
  }

  /** Whole groups of three encode independently of what follows. */
  lemma {:induction false} EncodeAppend(a: seq<Byte>, b: seq<Byte>)
    requires |a| % 3 == 0
    ensures Encode(a + b) == Encode(a) + Encode(b)
    decreases |a|
  {
    if a == [] {
      assert a + b == b;
    } else {
      assert (a + b)[3..] == a[3..] + b;
      EncodeAppend(a[3..], b);
    }
  }

  /** `generateDeviceFingerprint`. */
  function DeviceFingerprint(hwid: string): (r: string)
    requires Latin1(hwid)
    ensures |r| == if |hwid| >= 24 then 32 else 4 * ((|hwid| + 2) / 3)
    ensures forall ch :: ch in r ==> InAlphabet(ch) || ch == '='
    ensures r <= Encode(Bytes(hwid))
  {
    Take(Encode(Bytes(hwid)), 32)
  }

  /** The first 32 characters of an encoding of 24 bytes or more encode the first 24. */
  lemma {:induction false} TakeEncode24(b: seq<Byte>)
    requires |b| >= 24
    ensures Take(Encode(b), 32) == Encode(b[..24])
  {
    var head, tail := b[..24], b[24..];
    assert Encode(b) == Encode(head) + Encode(tail) by {
      assert b == head + tail;
      EncodeAppend(head, tail);
    }
    assert |Encode(head)| == 32;
  }

  /** The fingerprint of an id of 24 bytes or more is the encoding of its first 24. */
  lemma {:induction false} FingerprintOfFirst24(hwid: string)
    requires Latin1(hwid) && |hwid| >= 24
    ensures DeviceFingerprint(hwid) == Encode(Bytes(hwid)[..24])
  {
    TakeEncode24(Bytes(hwid));
  }

  /** Ids that agree on their first 24 bytes have the same fingerprint. */
  lemma {:induction false} SharedPrefixSameFingerprint(h1: string, h2: string)
    requires Latin1(h1) && Latin1(h2) && |h1| >= 24 && |h2| >= 24
    requires h1[..24] == h2[..24]
    ensures DeviceFingerprint(h1) == DeviceFingerprint(h2)
  {
    FingerprintOfFirst24(h1);
    FingerprintOfFirst24(h2);
    assert Bytes(h1)[..24] == Bytes(h2)[..24] by {
      forall i | 0 <= i < 24
        ensures Bytes(h1)[i] == Bytes(h2)[i]
      {
        assert h1[i] == h1[..24][i];
      }
    }
  }

  /** The fingerprint holds exactly the first min(24, n) bytes of the id. */
  lemma {:induction false} FingerprintDecodes(hwid: string)
    requires Latin1(hwid)
    ensures |hwid| >= 24 ==> Decode(DeviceFingerprint(hwid)) == Bytes(hwid)[..24]
    ensures |hwid| < 24 ==> Decode(DeviceFingerprint(hwid)) == Bytes(hwid)
  {
    if |hwid| >= 24 {
      FingerprintOfFirst24(hwid);
      DecodeEncode(Bytes(hwid)[..24]);
    } else {
      DecodeEncode(Bytes(hwid));
    }
  }
}

=== FILE: hardware.dfy ===
/** The hardware identity: the `MAC-…` id the desktop shell answers with, and the
    hardware report script's value picker, line formatter and MAC text. */
module Hardware {
  import opened Common
  import opened Text
  import Session

  // ---------------------------------------------------------------------------
  // Hexadecimal text of bytes
  // ---------------------------------------------------------------------------

  /** A lower-case hexadecimal digit. */
  function HexDigit(d: int): (c: char)
    requires 0 <= d < 16
    ensures '0' <= c <= '9' || 'a' <= c <= 'f'
  {
    if d < 10 then ('0' as int + d) as char else ('a' as int + d - 10) as char
  }

  /** The value of a hexadecimal digit of either case; anything else reads as 0. */
  function HexValue(c: char): (d: int)
    ensures 0 <= d < 16
  {
    if '0' <= c <= '9' then c as int - '0' as int
    else if 'a' <= c <= 'f' then c as int - 'a' as int + 10
    else if 'A' <= c <= 'F' then c as int - 'A' as int + 10
    else 0
  }

  lemma {:induction false} HexDigitValue(d: int)
    requires 0 <= d < 16
    ensures HexValue(HexDigit(d)) == d && HexValue(AsciiUpper(HexDigit(d))) == d
  {
  }

  /** `'{:02x}'.format(x)` for a byte. */
  function HexPair(x: Byte): (r: string)
    ensures |r| == 2 && ':' !in r
  {
    [HexDigit(x / 16), HexDigit(x % 16)]
  }

  function Pairs(b: seq<Byte>): (r: seq<string>)
    ensures |r| == |b| && forall i :: 0 <= i < |b| ==> r[i] == HexPair(b[i])
  {
    seq(|b|, i requires 0 <= i < |b| => HexPair(b[i]))
  }

  /** The bytes in hexadecimal, two digits each, without separators. */
  function Hex(b: seq<Byte>): (r: string)
    ensures |r| == 2 * |b| && ':' !in r
  {
    if b == [] then "" else HexPair(b[0]) + Hex(b[1..])
  }

  /** `':'.join(...)` of the two-digit groups. */
  function ColonHex(b: seq<Byte>): (r: string)
  {
    Join(Pairs(b), ":")
  }

  /** Reads two hexadecimal digits at a time. */
  function ParseHex(s: string): (r: seq<Byte>)
    ensures |r| == |s| / 2
  {
    if |s| < 2 then [] else [16 * HexValue(s[0]) + HexValue(s[1])] + ParseHex(s[2..])
  }

  lemma {:induction false} UpperAppend(a: string, b: string)
    ensures Upper(a + b) == Upper(a) + Upper(b)
  {
    var l, r := Upper(a + b), Upper(a) + Upper(b);
    assert |l| == |r|;
    forall i | 0 <= i < |l|
      ensures l[i] == r[i]
    {
      if i < |a| {
        assert (a + b)[i] == a[i];
      } else {
        assert (a + b)[i] == b[i - |a|];
      }
    }
  }

  /** The hexadecimal text reads back as the bytes, in either case. */
  lemma {:induction false} ParseHexOfHex(b: seq<Byte>)
    ensures ParseHex(Hex(b)) == b
    ensures ParseHex(Upper(Hex(b))) == b
  {
    if b != [] {
      var p, rest := HexPair(b[0]), Hex(b[1..]);
      HexDigitValue(b[0] / 16);
      HexDigitValue(b[0] % 16);
      ParseHexOfHex(b[1..]);
      assert (p + rest)[2..] == rest;
      UpperAppend(p, rest);
      assert (Upper(p) + Upper(rest))[2..] == Upper(rest);
      assert b == [b[0]] + b[1..];
    }
  }

  /** Removing the colons from the joined groups leaves the plain hexadecimal text. */
  lemma {:induction false} RemoveColons(b: seq<Byte>)
    ensures RemoveChar(ColonHex(b), ':') == Hex(b)
  {
    if |b| == 0 {
    } else if |b| == 1 {
      assert Hex(b) == HexPair(b[0]) + Hex([]);
    } else {
      RemoveColons(b[1..]);
      assert Pairs(b)[1..] == Pairs(b[1..]);
      var p := HexPair(b[0]);
      assert ColonHex(b) == p + ":" + ColonHex(b[1..]);
      RemoveCharAppend(p + ":", ColonHex(b[1..]), ':');
      RemoveCharAppend(p, ":", ':');
    }
  }

  /** The groups joined without a separator are the plain hexadecimal text. */
  lemma {:induction false} JoinPairs(b: seq<Byte>)
    ensures Join(Pairs(b), "") == Hex(b)
  {
    if |b| == 1 {
      assert Hex(b) == HexPair(b[0]) + Hex([]);
    } else if |b| > 1 {
      assert Pairs(b)[1..] == Pairs(b[1..]);
      JoinPairs(b[1..]);
    }
  }

  /** Two digits per byte and a colon between neighbours. */
  lemma {:induction false} ColonHexLength(b: seq<Byte>)
    requires b != []
    ensures |ColonHex(b)| == 3 * |b| - 1
  {
    JoinLength(Pairs(b), ":");
    JoinPairs(b);
  }

  // ---------------------------------------------------------------------------
  // get_hardware_id
  // ---------------------------------------------------------------------------

  /** `get_hardware_id`, given the MAC address text the `mac_address` crate prints
      (`None` when it failed or found no address). It always succeeds. */
  function HardwareId(mac: Option<string>): (r: string)
    ensures "MAC-" <= r && ':' !in r
    ensures mac.None? ==> r == "MAC-UNKNOWN"
    ensures mac.Some? ==> r == "MAC-" + Upper(RemoveChar(mac.value, ':'))
  {
    var text := match mac
      case Some(m) => Upper(RemoveChar(m, ':'))
      case None => "UNKNOWN";
    "MAC-" + text
  }

  /** For an address of six bytes the id is `MAC-` and twelve upper-case hexadecimal
      digits that read back as the address. */
  lemma {:induction false} HardwareIdOfAddress(b: seq<Byte>)
    requires |b| == 6
    ensures HardwareId(Some(ColonHex(b))) == "MAC-" + Upper(Hex(b))
    ensures |HardwareId(Some(ColonHex(b)))| == 16
    ensures ParseHex(HardwareId(Some(ColonHex(b)))[4..]) == b
    ensures HardwareId(Some(ColonHex(b))) != HardwareId(None)
  {
    RemoveColons(b);
    ParseHexOfHex(b);
    assert ("MAC-" + Upper(Hex(b)))[4..] == Upper(Hex(b));
  }

  /** Different addresses give different ids. */
  lemma {:induction false} HardwareIdInjective(b1: seq<Byte>, b2: seq<Byte>)
    requires |b1| == 6 && |b2| == 6 && b1 != b2
    ensures HardwareId(Some(ColonHex(b1))) != HardwareId(Some(ColonHex(b2)))
  {
    HardwareIdOfAddress(b1);
    HardwareIdOfAddress(b2);
  }

  /** The id the shell answers never takes the application's missing-id branch. */
  lemma {:induction false} ShellIdNeverMissing(mac: Option<string>, stored: Option<string>)
    ensures Session.Check(Some(HardwareId(mac)), stored) != Session.MissingId
  {
  }

  // ---------------------------------------------------------------------------
  // hardware_info.py: get_wmic_output
  // ---------------------------------------------------------------------------

  const NotAvailable := "N/A"

  /** Python's `s.split('\n')`: the pieces between line breaks, at least one. */
  function SplitLines(s: string): (r: seq<string>)
    ensures |r| >= 1
    ensures forall k :: 0 <= k < |r| ==> '\n' !in r[k]
  {
    if s == [] then [""]
    else
      var rest := SplitLines(s[1..]);
      if s[0] == '\n' then [""] + rest
      else [[s[0]] + rest[0]] + rest[1..]
  }

  /** Joining the pieces with line breaks gives the text back. */
  lemma {:induction false} SplitJoin(s: string)
    ensures Join(SplitLines(s), "\n") == s
  {
    if s != [] {
      var rest := SplitLines(s[1..]);
      SplitJoin(s[1..]);
      if s[0] == '\n' {
        assert s == "\n" + s[1..];
        JoinFront("", rest);
      } else {
        JoinFirst(s[0], rest);
        assert s == [s[0]] + s[1..];
      }
    }
  }

  lemma {:induction false} JoinFront(first: string, rest: seq<string>)
    requires rest != []
    ensures Join([first] + rest, "\n") == first + "\n" + Join(rest, "\n")
  {
    assert ([first] + rest)[1..] == rest;
  }

  lemma {:induction false} JoinFirst(c: char, parts: seq<string>)
    requires parts != []
    ensures Join([[c] + parts[0]] + parts[1..], "\n") == [c] + Join(parts, "\n")
  {
    var q := [[c] + parts[0]] + parts[1..];
    if |parts| > 1 {
      assert q[1..] == parts[1..];
    }
  }

  /** A line without breaks splits into itself. */
  lemma {:induction false} SplitOneLine(s: string)
    requires '\n' !in s
    ensures SplitLines(s) == [s]
  {
    if s != [] {
      assert s[0] in s;
      assert forall c :: c in s[1..] ==> c in s;
      SplitOneLine(s[1..]);
      assert s == [s[0]] + s[1..];
    }
  }

  /** A first line without breaks comes out first. */
  lemma {:induction false} SplitFirstLine(a: string, b: string)
    requires '\n' !in a
    ensures SplitLines(a + "\n" + b) == [a] + SplitLines(b)
    decreases |a|
  {
    var s := a + "\n" + b;
    if a == [] {
      assert s == "\n" + b;
      assert s[1..] == b;
    } else {
      assert s[0] == a[0] && a[0] in a;
      assert s[1..] == a[1..] + "\n" + b;
      assert forall c :: c in a[1..] ==> c in a;
      SplitFirstLine(a[1..], b);
      var rest := SplitLines(s[1..]);
      assert rest == [a[1..]] + SplitLines(b);
      assert [s[0]] + rest[0] == a;
    }
  }

  function Trimmed(lines: seq<string>): (r: seq<string>)
    ensures |r| == |lines| && forall k :: 0 <= k < |lines| ==> r[k] == Trim(lines[k])
  {
    seq(|lines|, k requires 0 <= k < |lines| => Trim(lines[k]))
  }

  function NonBlank(): string -> bool
  {
    (line: string) => line != ""
  }

  /** A text without white space at either end. */
  predicate Stripped(s: string)
  {
    s != "" && !IsSpace(s[0]) && !IsSpace(s[|s| - 1])
  }

  lemma {:induction false} NonBlankTrimmedStripped(lines: seq<string>, l: string)
    requires l in Filter(NonBlank(), Trimmed(lines))
    ensures Stripped(l)
  {
    var t := Trimmed(lines);
    assert l in t && l != "";
    var k :| 0 <= k < |t| && t[k] == l;
  }

  /** The stripped lines that are not blank, in order. */
  function NonBlankLines(out: string): (r: seq<string>)
    ensures forall l :: l in r ==> Stripped(l)
  {
    var lines := Filter(NonBlank(), Trimmed(SplitLines(Trim(out))));
    forall l | l in lines
      ensures Stripped(l)
    {
      NonBlankTrimmedStripped(SplitLines(Trim(out)), l);
    }
    lines
  }

  /** `get_wmic_output`, given what the command wrote (`None` when running it raised):
      the second non-blank line, stripped, or `N/A`. */
  function WmicValue(stdout: Option<string>): (r: string)
    ensures stdout.None? ==> r == NotAvailable
    ensures stdout.Some? && |NonBlankLines(stdout.value)| < 2 ==> r == NotAvailable
    ensures stdout.Some? && |NonBlankLines(stdout.value)| >= 2 ==> r == NonBlankLines(stdout.value)[1]
    ensures Stripped(r)
  {
    match stdout
    case None => NotAvailable
    case Some(out) =>
      var lines := NonBlankLines(out);
      if |lines| > 1 then lines[1] else NotAvailable
  }

  /** The command's usual answer, a header line and a value line, gives the value. */
  lemma {:induction false} HeaderThenValue(header: string, value: string)
    requires Stripped(header) && Stripped(value)
    requires '\n' !in header && '\n' !in value
    ensures WmicValue(Some(header + "\n" + value)) == value
  {
    var out := header + "\n" + value;
    assert SplitLines(Trim(out)) == [header, value] by {
      TwoLines(header, value);
    }
    assert Trimmed([header, value]) == [header, value];
    assert Filter(NonBlank(), [header, value]) == [header, value] by {
      KeepsNonBlank(header, value);
    }
    assert NonBlankLines(out) == [header, value];
  }

  lemma {:induction false} TwoLines(header: string, value: string)
    requires Stripped(header) && Stripped(value)
    requires '\n' !in header && '\n' !in value
    ensures SplitLines(Trim(header + "\n" + value)) == [header, value]
  {
    var out := header + "\n" + value;
    StrippedJoin(header, value);
    SplitFirstLine(header, value);
    SplitOneLine(value);
    assert [header] + [value] == [header, value];
  }

  lemma {:induction false} StrippedJoin(header: string, value: string)
    requires Stripped(header) && Stripped(value)
    ensures Trim(header + "\n" + value) == header + "\n" + value
  {
    var out := header + "\n" + value;
    assert out[0] == header[0] && out[|out| - 1] == value[|value| - 1];
  }

  lemma {:induction false} KeepsNonBlank(a: string, b: string)
    requires a != "" && b != ""
    ensures Filter(NonBlank(), [a, b]) == [a, b]
  {
    assert [a, b][1..] == [b] && [b][1..] == [];
  }

  // ---------------------------------------------------------------------------
  // hardware_info.py: format_line
  // ---------------------------------------------------------------------------

  const ReportWidth := 70

  /** `'.' * n`: empty for a count of zero or less. */
  function Dots(n: int): (r: string)
    ensures |r| == if n > 0 then n else 0
    ensures forall k :: 0 <= k < |r| ==> r[k] == '.'
    decreases if n > 0 then n else 0
  {
    if n <= 0 then "" else "." + Dots(n - 1)
  }

  /** `format_line`: the label, a space, dots up to the width, a space and the value. */
  function FormatLine(name: string, value: string, width: int): (r: string)
    ensures |r| == (if |name| + |value| > width then |name| + |value| else width) + 2
    ensures name <= r && r[|r| - |value|..] == value
    ensures r[|name|] == ' ' && r[|r| - |value| - 1] == ' '
    ensures forall k :: |name| < k < |r| - |value| - 1 ==> r[k] == '.'
  {
    var dots := Dots(width - |name| - |value|);
    var r := name + " " + dots + " " + value;
    assert forall k :: |name| < k < |r| - |value| - 1 ==> r[k] == dots[k - |name| - 1];
    r
  }

  /** Report lines whose name and value fit the width end in the same column. */
  lemma {:induction false} ReportLinesAlign(l1: string, v1: string, l2: string, v2: string)
    requires |l1| + |v1| <= ReportWidth && |l2| + |v2| <= ReportWidth
    ensures |FormatLine(l1, v1, ReportWidth)| == |FormatLine(l2, v2, ReportWidth)| == ReportWidth + 2
  {
  }

  // ---------------------------------------------------------------------------
  // hardware_info.py: the MAC text
  // ---------------------------------------------------------------------------

  function Pow2(e: nat): (r: nat)
    ensures r >= 1
  {
    if e == 0 then 1 else 2 * Pow2(e - 1)
  }

  /** `(node >> e) & 0xff`. */
  function ShiftByte(node: nat, e: nat): Byte
  {
    (node / Pow2(e)) % 256
  }

  /** The six groups of the comprehension over `range(0, 2*6, step)`, reversed. */
  function MacGroups(node: nat, step: nat): (r: seq<Byte>)
    ensures |r| == 6 && forall i :: 0 <= i < 6 ==> r[i] == ShiftByte(node, step * (5 - i))
  {
    var shifted := seq(6, k requires 0 <= k < 6 => ShiftByte(node, step * k));
    seq(6, i requires 0 <= i < 6 => shifted[5 - i])
  }

  /** The MAC line as written: the shifts go up by two bits. */
  function AsWrittenMac(node: nat): (r: string)
  {
    ColonHex(MacGroups(node, 2))
  }

  /** The MAC line as intended: the shifts go up by whole bytes. */
  function Mac(node: nat): (r: string)
  {
    ColonHex(MacGroups(node, 8))
  }

  /** Six groups of two digits and five colons. */
  lemma {:induction false} MacLength(node: nat, step: nat)
    ensures |ColonHex(MacGroups(node, step))| == 17
  {
    ColonHexLength(MacGroups(node, step));
  }

  /** Big-endian value of bytes. */
  function ValueOf(b: seq<Byte>): nat
  {
    if b == [] then 0 else ValueOf(b[..|b| - 1]) * 256 + b[|b| - 1]
  }

  lemma {:induction false} Pow2Bytes()
    ensures Pow2(8) == 0x100 && Pow2(16) == 0x1_0000 && Pow2(24) == 0x100_0000
    ensures Pow2(32) == 0x1_0000_0000 && Pow2(40) == 0x100_0000_0000
  {
    assert Pow2(8) == 0x100;
    assert Pow2(16) == 0x1_0000 by { Pow2Add(8, 8); }
    assert Pow2(24) == 0x100_0000 by { Pow2Add(16, 8); }
    assert Pow2(32) == 0x1_0000_0000 by { Pow2Add(24, 8); }
    assert Pow2(40) == 0x100_0000_0000 by { Pow2Add(32, 8); }
  }

  lemma {:induction false} Pow2Add(a: nat, b: nat)
    ensures Pow2(a + b) == Pow2(a) * Pow2(b)
  {
    if a > 0 {
      Pow2Add(a - 1, b);
      assert Pow2(a + b) == 2 * Pow2(a - 1 + b);
    }
  }

  /** The whole-byte groups, with the shifts written out. */
  lemma {:induction false} WholeByteGroups(node: nat)
    ensures MacGroups(node, 8) == [(node / 0x100_0000_0000) % 256, (node / 0x1_0000_0000) % 256,
      (node / 0x100_0000) % 256, (node / 0x1_0000) % 256, (node / 0x100) % 256, node % 256]
  {
    Pow2Bytes();
    assert Pow2(0) == 1;
  }

  lemma {:induction false} ValueOfSix(b0: Byte, b1: Byte, b2: Byte, b3: Byte, b4: Byte, b5: Byte)
    ensures ValueOf([b0, b1, b2, b3, b4, b5]) == ((((b0 * 256 + b1) * 256 + b2) * 256 + b3) * 256 + b4) * 256 + b5
  {
    assert ValueOf([b0]) == b0 by { assert [b0][..0] == []; }
    assert ValueOf([b0, b1]) == b0 * 256 + b1 by { assert [b0, b1][..1] == [b0]; }
    var v2 := (b0 * 256 + b1) * 256 + b2;
    assert ValueOf([b0, b1, b2]) == v2 by { assert [b0, b1, b2][..2] == [b0, b1]; }
    var v3 := v2 * 256 + b3;
    assert ValueOf([b0, b1, b2, b3]) == v3 by { assert [b0, b1, b2, b3][..3] == [b0, b1, b2]; }
    var v4 := v3 * 256 + b4;
    assert ValueOf([b0, b1, b2, b3, b4]) == v4 by { assert [b0, b1, b2, b3, b4][..4] == [b0, b1, b2, b3]; }
    assert [b0, b1, b2, b3, b4, b5][..5] == [b0, b1, b2, b3, b4];
  }

  /** Shifting by a further byte divides by 256 once more. */
  lemma {:induction false} ByteDivisions(node: nat)
    requires node < 0x1_0000_0000_0000
    ensures node / 0x1_0000 == node / 0x100 / 256
    ensures node / 0x100_0000 == node / 0x1_0000 / 256
    ensures node / 0x1_0000_0000 == node / 0x100_0000 / 256
    ensures node / 0x100_0000_0000 == node / 0x1_0000_0000 / 256
    ensures node / 0x100_0000_0000 < 256
  {
    DivUnique(node / 0x100, 256, node / 0x1_0000);
    DivUnique(node / 0x1_0000, 256, node / 0x100_0000);
    DivUnique(node / 0x100_0000, 256, node / 0x1_0000_0000);
    DivUnique(node / 0x1_0000_0000, 256, node / 0x100_0000_0000);
  }

  /** With whole-byte shifts the six groups are the 48-bit address, most significant
      byte first. */
  lemma {:induction false} MacGroupsValue(node: nat)
    requires node < 0x1_0000_0000_0000
    ensures ValueOf(MacGroups(node, 8)) == node
  {
    WholeByteGroups(node);
    var q1 := node / 0x100;
    var q2 := node / 0x1_0000;
    var q3 := node / 0x100_0000;
    var q4 := node / 0x1_0000_0000;
    var q5 := node / 0x100_0000_0000;
    ByteDivisions(node);
    ValueOfSix(q5 % 256, q4 % 256, q3 % 256, q2 % 256, q1 % 256, node % 256);
    assert q5 % 256 == q5;
    assert q5 * 256 + q4 % 256 == q4;
    assert q4 * 256 + q3 % 256 == q3;
    assert q3 * 256 + q2 % 256 == q2;
    assert q2 * 256 + q1 % 256 == q1;
    assert q1 * 256 + node % 256 == node;
  }

  /** The intended MAC line reads back as the address. */
  lemma {:induction false} MacReadsBack(node: nat)
    requires node < 0x1_0000_0000_0000
    ensures ValueOf(ParseHex(RemoveChar(Mac(node), ':'))) == node
  {
    RemoveColons(MacGroups(node, 8));
    ParseHexOfHex(MacGroups(node, 8));
    MacGroupsValue(node);
  }

  /** Different addresses give different intended MAC lines. */
  lemma {:induction false} MacInjective(n1: nat, n2: nat)
    requires n1 < 0x1_0000_0000_0000 && n2 < 0x1_0000_0000_0000 && n1 != n2
    ensures Mac(n1) != Mac(n2)
  {
    MacReadsBack(n1);
    MacReadsBack(n2);
  }

  /** The two-bit groups, with the shifts written out. */
  lemma {:induction false} TwoBitGroups(node: nat)
    ensures MacGroups(node, 2) == [(node / 1024) % 256, (node / 256) % 256, (node / 64) % 256,
      (node / 16) % 256, (node / 4) % 256, node % 256]
  {
    assert Pow2(0) == 1 && Pow2(2) == 4 && Pow2(4) == 16 && Pow2(6) == 64 && Pow2(8) == 256 && Pow2(10) == 1024;
  }

  /** A quotient is determined by the bounds it satisfies. */
  lemma {:induction false} DivUnique(n: int, d: int, q: int)
    requires d > 0 && d * q <= n < d * q + d
    ensures n / d == q
  {
    var y := n / d;
    assert d * y <= n < d * y + d;
    assert q > y ==> d * q >= d * (y + 1) by {
      if q > y {
        MulMonotone(d, y + 1, q);
      }
    }
    assert q < y ==> d * y >= d * (q + 1) by {
      if q < y {
        MulMonotone(d, q + 1, y);
      }
    }
  }

  lemma {:induction false} MulMonotone(d: int, a: int, b: int)
    requires d > 0 && a <= b
    ensures d * a <= d * b
  {
    assert d * b - d * a == d * (b - a);
  }

  /** Adding whole multiples of 256 does not change the low byte. */
  lemma {:induction false} LowByteOfSum(m: int, b: int)
    ensures (256 * m + b) % 256 == b % 256
  {
    DivUnique(256 * m + b, 256, m + b / 256);
  }

  /** Bits from 18 up do not reach a group shifted by at most ten bits. */
  lemma {:induction false} LowBitsGroup(node: nat, p: nat)
    requires p in {1, 4, 16, 64, 256, 1024}
    ensures (node / p) % 256 == ((node % 0x4_0000) / p) % 256
  {
    var top, low := node / 0x4_0000, node % 0x4_0000;
    if p == 1 {
      LowByteOfSum(0x400 * top, low);
    } else if p == 4 {
      assert node / 4 == 256 * (0x100 * top) + low / 4 by {
        DivUnique(node, 4, 0x1_0000 * top + low / 4);
      }
      LowByteOfSum(0x100 * top, low / 4);
    } else if p == 16 {
      assert node / 16 == 256 * (0x40 * top) + low / 16 by {
        DivUnique(node, 16, 0x4000 * top + low / 16);
      }
      LowByteOfSum(0x40 * top, low / 16);
    } else if p == 64 {
      assert node / 64 == 256 * (0x10 * top) + low / 64 by {
        DivUnique(node, 64, 0x1000 * top + low / 64);
      }
      LowByteOfSum(0x10 * top, low / 64);
    } else if p == 256 {
      assert node / 256 == 256 * (4 * top) + low / 256 by {
        DivUnique(node, 256, 0x400 * top + low / 256);
      }
      LowByteOfSum(4 * top, low / 256);
    } else {
      assert node / 1024 == 256 * top + low / 1024 by {
        DivUnique(node, 1024, 0x100 * top + low / 1024);
      }
      LowByteOfSum(top, low / 1024);
    }
  }

  /** As written, the line depends only on the lowest 18 bits of the address. */
  lemma {:induction false} AsWrittenReadsLow18Bits(node: nat)
    ensures MacGroups(node, 2) == MacGroups(node % 0x4_0000, 2)
  {
    TwoBitGroups(node);
    TwoBitGroups(node % 0x4_0000);
    LowBitsGroup(node, 1024);
    LowBitsGroup(node, 256);
    LowBitsGroup(node, 64);
    LowBitsGroup(node, 16);
    LowBitsGroup(node, 4);
    LowBitsGroup(node, 1);
  }

  /** Two addresses that differ only in their top byte print the same line as written,
      while the intended lines differ. */
  lemma {:induction false} AsWrittenCollision()
    ensures AsWrittenMac(0) == AsWrittenMac(0x1000_0000_0000)
    ensures Mac(0) != Mac(0x1000_0000_0000)
  {
    AsWrittenReadsLow18Bits(0x1000_0000_0000);
    assert 0x1000_0000_0000 % 0x4_0000 == 0;
    MacInjective(0, 0x1000_0000_0000);
  }

  /** The address 00:00:00:00:01:00 prints as 00:01:04:10:40:00 as written. */
  lemma {:induction false} AsWrittenMisplacesByte()
    ensures MacGroups(0x100, 2) == [0x00, 0x01, 0x04, 0x10, 0x40, 0x00]
    ensures MacGroups(0x100, 8) == [0x00, 0x00, 0x00, 0x00, 0x01, 0x00]
  {
    TwoBitGroups(0x100);
    WholeByteGroups(0x100);
  }
}

=== FILE: ledger.dfy ===
/** The credit-card ledger: the running balance over a card's payments in date order,
    where a `devir` (carry-over) entry sets the balance to minus its amount, a repayment
    into the card (`kredi_karti` type) adds and card spending (`cari` type) subtracts. The same
    recursion appears in the new-payment form, the card detail view and the card-usage
    hook; all three are this one function. Negative balances mean debt. */
module Ledger {
  import opened Common
  import opened Domain
  import Sorting

  /** What a non-carry-over entry adds to the balance: its amount for a `kredi_karti`
      entry, minus its amount for a `cari` entry, nothing otherwise. */
  function Movement(p: Payment): (r: real)
    ensures p.paymentType == KrediKarti ==> r == p.amount
    ensures p.paymentType == Cari ==> r == -p.amount
    ensures p.paymentType != KrediKarti && p.paymentType != Cari ==> r == 0.0
  {
    (if p.paymentType == KrediKarti then p.amount else 0.0) - (if p.paymentType == Cari then p.amount else 0.0)
  }

  /** The balance after entry `i` of a date-ordered list of one card's entries. */
  function BalanceAt(ps: seq<Payment>, i: nat): real
    requires i < |ps|
  {
    if ps[i].paymentMethod == Devir then -ps[i].amount
    else if i == 0 then 0.0
    else BalanceAt(ps, i - 1) + Movement(ps[i])
  }

  predicate NoDevirIn(ps: seq<Payment>, lo: int, hi: int)
    requires 0 <= lo && hi < |ps|
  {
    forall k :: lo <= k <= hi ==> ps[k].paymentMethod != Devir
  }

  /** After the latest carry-over at `k`, the balance is minus its amount plus the
      movements of the later entries. */
  lemma {:induction false} BalanceAfterDevir(ps: seq<Payment>, k: nat, i: nat)
    requires k <= i < |ps|
    requires ps[k].paymentMethod == Devir
    requires NoDevirIn(ps, k + 1, i)
    ensures BalanceAt(ps, i) == -ps[k].amount + SumOf(Movement, ps[k + 1..i + 1])
    decreases i
  {
    if i > k {
      BalanceAfterDevir(ps, k, i - 1);
      assert ps[k + 1..i + 1] == ps[k + 1..i] + [ps[i]];
      SumOfAppend(Movement, ps[k + 1..i], [ps[i]]);
    }
  }

  /** Without any carry-over the first entry counts for nothing and every later entry
      adds its movement. */
  lemma {:induction false} BalanceWithoutDevir(ps: seq<Payment>, i: nat)
    requires i < |ps|
    requires NoDevirIn(ps, 0, i)
    ensures BalanceAt(ps, i) == SumOf(Movement, ps[1..i + 1])
    decreases i
  {
    if i > 0 {
      BalanceWithoutDevir(ps, i - 1);
      assert ps[1..i + 1] == ps[1..i] + [ps[i]];
      SumOfAppend(Movement, ps[1..i], [ps[i]]);
    }
  }

  /** The balance at `i` depends only on entries `0..i`. */
  lemma {:induction false} BalancePrefix(ps: seq<Payment>, qs: seq<Payment>, i: nat)
    requires i < |ps| && i < |qs|
    requires ps[..i + 1] == qs[..i + 1]
    ensures BalanceAt(ps, i) == BalanceAt(qs, i)
    decreases i
  {
    assert ps[i] == ps[..i + 1][i] == qs[..i + 1][i] == qs[i];
    if i > 0 {
      assert ps[..i] == ps[..i + 1][..i] == qs[..i + 1][..i] == qs[..i];
      BalancePrefix(ps, qs, i - 1);
    }
  }

  /** The balance after the last entry; 0 for a card without entries. */
  function CurrentBalance(ps: seq<Payment>): real
  {
    if ps == [] then 0.0 else BalanceAt(ps, |ps| - 1)
  }

  /** The comparator `new Date(a.payment_date) - new Date(b.payment_date)`, as "a may
      come before b". */
  predicate ByDate(a: Payment, b: Payment)
  {
    DateLe(a.paymentDate, b.paymentDate)
  }

  lemma {:induction false} ByDateTotalPreorder()
    ensures Sorting.TotalPreorder(ByDate)
  {
    forall a: Payment, b: Payment, c: Payment
      ensures ByDate(a, b) || ByDate(b, a)
      ensures ByDate(a, b) && ByDate(b, c) ==> ByDate(a, c)
    {
      DateLeTotalOrder(a.paymentDate, b.paymentDate, c.paymentDate);
    }
  }

  /** The filter predicate `p => p.credit_card_id === cardId`. */
  function OnCard(cardId: string): Payment -> bool
  {
    (p: Payment) => p.creditCardId == cardId
  }

  /** `payments.filter(p => p.credit_card_id === cardId)`. */
  function CardPayments(payments: seq<Payment>, cardId: string): (r: seq<Payment>)
    ensures forall p :: p in r <==> p in payments && p.creditCardId == cardId
  {
    Filter(OnCard(cardId), payments)
  }

  /** The card's entries sorted by ascending payment date (stable). */
  function SortedCardPayments(payments: seq<Payment>, cardId: string): seq<Payment>
  {
    Sorting.Sort(ByDate, CardPayments(payments, cardId))
  }

  /** `calculateCardUsage(cardId, payments)`: the balance after the card's last entry in
      date order, 0 when the card has no entries. */
  function CardUsage(cardId: string, payments: seq<Payment>): real
  {
    CurrentBalance(SortedCardPayments(payments, cardId))
  }

  /** The card's entries come out in date order and are exactly the card's entries. */
  lemma {:induction false} SortedCardPaymentsSpec(payments: seq<Payment>, cardId: string)
    ensures Sorting.SortedBy(ByDate, SortedCardPayments(payments, cardId))
    ensures multiset(SortedCardPayments(payments, cardId)) == multiset(CardPayments(payments, cardId))
    ensures forall p :: p in SortedCardPayments(payments, cardId) <==> p in payments && p.creditCardId == cardId
  {
    ByDateTotalPreorder();
    Sorting.SortSorted(ByDate, CardPayments(payments, cardId));
    var s := SortedCardPayments(payments, cardId);
    forall p ensures p in s <==> p in CardPayments(payments, cardId)
    {
      assert p in s <==> p in multiset(s);
    }
  }

  /** A card with no entries has usage 0. */
  lemma {:induction false} CardUsageNoPayments(cardId: string, payments: seq<Payment>)
    requires forall p :: p in payments ==> p.creditCardId != cardId
    ensures CardUsage(cardId, payments) == 0.0
  {
    FilterNone(OnCard(cardId), payments);
  }

  /** Entries of other cards do not change a card's usage. */
  lemma {:induction false} CardUsageOtherCards(cardId: string, payments: seq<Payment>, others: seq<Payment>)
    requires forall p :: p in others ==> p.creditCardId != cardId
    ensures CardUsage(cardId, payments + others) == CardUsage(cardId, payments)
    ensures CardUsage(cardId, others + payments) == CardUsage(cardId, payments)
  {
    FilterAppend(OnCard(cardId), payments, others);
    FilterAppend(OnCard(cardId), others, payments);
    FilterNone(OnCard(cardId), others);
    assert CardPayments(payments, cardId) + [] == CardPayments(payments, cardId);
    assert [] + CardPayments(payments, cardId) == CardPayments(payments, cardId);
  }

  /** When a carry-over entry is strictly later than every other entry of the card, the
      usage is minus its amount, whatever came before. */
  lemma {:induction false} CardUsageLatestDevir(cardId: string, payments: seq<Payment>, d: Payment)
    requires d in payments && d.creditCardId == cardId && d.paymentMethod == Devir
    requires forall p :: p in payments && p.creditCardId == cardId && p != d ==> DateLt(p.paymentDate, d.paymentDate)
    ensures CardUsage(cardId, payments) == -d.amount
  {
    SortedCardPaymentsSpec(payments, cardId);
    var s := SortedCardPayments(payments, cardId);
    LastOfSorted(s, d);
    assert CardUsage(cardId, payments) == BalanceAt(s, |s| - 1);
  }

  /** In a date-sorted list, an element strictly later than all others is the last one. */
  lemma {:induction false} LastOfSorted(s: seq<Payment>, d: Payment)
    requires Sorting.SortedBy(ByDate, s)
    requires d in s
    requires forall p :: p in s && p != d ==> DateLt(p.paymentDate, d.paymentDate)
    ensures s != [] && s[|s| - 1] == d
  {
    var j :| 0 <= j < |s| && s[j] == d;
    var last := s[|s| - 1];
    assert last in s;
    if j < |s| - 1 {
      assert ByDate(s[j], last);
      assert !DateLt(last.paymentDate, d.paymentDate);
    }
  }

  /** A card whose only entry is not a carry-over has usage 0. */
  lemma {:induction false} CardUsageSingleEntry(cardId: string, payments: seq<Payment>, q: Payment)
    requires CardPayments(payments, cardId) == [q] && q.paymentMethod != Devir
    ensures CardUsage(cardId, payments) == 0.0
  {
    assert [q][..0] == [];
  }

  /** The warning dialog of the new-payment form. */
  datatype LimitWarning = LimitWarning(
    cardName: string,
    limit: real,
    currentBalance: real,
    availableLimit: real,
    requestedAmount: real,
    exceededAmount: real,
    isLimitExceeded: bool,
    isCreditCardPayment: bool)

  datatype SubmitDecision = Warn(warning: LimitWarning) | Save

  /** The overpayment check: a `kredi_karti` entry (a repayment into the card) with a card
      that exists. */
  predicate OverpaymentApplies(paymentType: string, creditCardId: string, cards: seq<Card>)
  {
    paymentType == KrediKarti && creditCardId != "" && FindCard(cards, creditCardId).Some?
  }

  /** The limit check: a `cari` payment made with an existing card. */
  predicate LimitCheckApplies(paymentType: string, paymentMethod: string, creditCardId: string, cards: seq<Card>)
  {
    paymentType == Cari && paymentMethod == KrediKarti && creditCardId != "" && FindCard(cards, creditCardId).Some?
  }

  /** `handleSubmit`'s decision: warn and save nothing, or save. */
  function CheckSubmit(paymentType: string, paymentMethod: string, creditCardId: string, amount: real,
                       cards: seq<Card>, allPayments: seq<Payment>): (r: SubmitDecision)
    ensures OverpaymentApplies(paymentType, creditCardId, cards) ==>
      (r.Warn? <==> amount > -CardUsage(creditCardId, allPayments))
    ensures LimitCheckApplies(paymentType, paymentMethod, creditCardId, cards) ==>
      (r.Warn? <==> amount > FindCard(cards, creditCardId).value.limitAmount + CardUsage(creditCardId, allPayments))
    ensures (!OverpaymentApplies(paymentType, creditCardId, cards) &&
             !LimitCheckApplies(paymentType, paymentMethod, creditCardId, cards)) ==> r == Save
    ensures r.Warn? ==> r.warning.exceededAmount > 0.0 &&
                        r.warning.requestedAmount == amount &&
                        r.warning.isLimitExceeded == r.warning.isCreditCardPayment &&
                        (r.warning.isLimitExceeded <==> paymentType == Cari)
    ensures r.Warn? && paymentType == KrediKarti ==>
      r.warning.exceededAmount == amount + CardUsage(creditCardId, allPayments)
    ensures r.Warn? && paymentType == Cari ==>
      r.warning.exceededAmount == amount - r.warning.availableLimit &&
      r.warning.availableLimit == r.warning.limit + r.warning.currentBalance
  {
    if OverpaymentApplies(paymentType, creditCardId, cards) then
      var card := FindCard(cards, creditCardId).value;
      var balance := CardUsage(creditCardId, allPayments);
      var maxPayment := -balance;
      if amount > maxPayment then
        Warn(LimitWarning(card.name, card.limitAmount, balance, card.limitAmount + balance, amount,
                          amount - maxPayment, false, false))
      else Save
    else if LimitCheckApplies(paymentType, paymentMethod, creditCardId, cards) then
      var card := FindCard(cards, creditCardId).value;
      var balance := CardUsage(creditCardId, allPayments);
      var available := card.limitAmount + balance;
      if amount > available then
        Warn(LimitWarning(card.name, card.limitAmount, balance, available, amount,
                          amount - available, true, true))
      else Save
    else Save
  }
}

=== FILE: messages.dfy ===
/** The internal mail page: composing and sending a message to several users, the
    folders and the search over them, the unread counter, and selecting messages. */
module Messages {
  import opened Common
  import opened Text

  /** A document of the `users` collection, as far as the page uses it. */
  datatype User = User(uid: string, username: string, role: string)

  /** An entry of a message's `recipients` list. */
  datatype Recipient = Recipient(uid: string, username: string)

  /** The fields a message is written with. */
  datatype MessageData = MessageData(
    from: string,
    fromUsername: string,
    to: string,
    recipients: seq<Recipient>,
    subject: string,
    body: string,
    timestamp: string,
    read: bool,
    deleted: bool)

  /** A stored message and its document id. */
  datatype Message = Message(id: string, data: MessageData)

  /** The compose form. */
  datatype Draft = Draft(to: seq<string>, subject: string, body: string)

  /** `loadUsers`: the users one may write to, everyone but oneself and the super
      administrator. */
  function SelectableUsers(allUsers: seq<User>, me: string): (r: seq<User>)
    ensures forall u :: u in r <==> u in allUsers && u.uid != me && u.role != "superadmin"
    ensures IsSubsequence(r, allUsers)
  {
    Filter((u: User) => u.uid != me && u.role != "superadmin", allUsers)
  }

  /** `users.find(user => user.uid === uid)`. */
  function FindUser(users: seq<User>, uid: string): (r: Option<User>)
    ensures r.Some? ==> r.value in users && r.value.uid == uid
    ensures r.None? <==> forall u :: u in users ==> u.uid != uid
  {
    FindFirst((u: User) => u.uid == uid, users)
  }

  /** `u?.username || 'Bilinmeyen'`. */
  function RecipientName(users: seq<User>, uid: string): (name: string)
    ensures name != ""
    ensures (forall u :: u in users ==> u.uid != uid) ==> name == "Bilinmeyen"
  {
    match FindUser(users, uid)
    case Some(u) => if u.username != "" then u.username else "Bilinmeyen"
    case None => "Bilinmeyen"
  }

  /** `recipients`: every chosen uid with its user name. */
  function Recipients(users: seq<User>, to: seq<string>): (r: seq<Recipient>)
    ensures |r| == |to|
    ensures forall i :: 0 <= i < |to| ==> r[i] == Recipient(to[i], RecipientName(users, to[i]))
  {
    seq(|to|, i requires 0 <= i < |to| => Recipient(to[i], RecipientName(users, to[i])))
  }

  /** The guard of `handleSendMessage`. */
  predicate CanSend(draft: Draft)
  {
    |draft.to| != 0 && draft.subject != "" && draft.body != ""
  }

  /** `handleSendMessage`: nothing without recipients, subject or body; otherwise one
      unread message per recipient, all with the same recipient list and time. */
  function SendMessages(draft: Draft, users: seq<User>, me: User, timestamp: string): (r: Option<seq<MessageData>>)
    ensures r.None? <==> |draft.to| == 0 || draft.subject == "" || draft.body == ""
    ensures r.Some? ==> |r.value| == |draft.to|
    ensures r.Some? ==> forall i :: 0 <= i < |r.value| ==>
      r.value[i].to == draft.to[i] && r.value[i].from == me.uid && r.value[i].fromUsername == me.username &&
      r.value[i].recipients == Recipients(users, draft.to) && r.value[i].timestamp == timestamp &&
      r.value[i].subject == draft.subject && r.value[i].body == draft.body && !r.value[i].read && !r.value[i].deleted
  {
    if !CanSend(draft) then None
    else
      var recipients := Recipients(users, draft.to);
      Some(seq(|draft.to|, i requires 0 <= i < |draft.to| =>
        MessageData(me.uid, me.username, draft.to[i], recipients, draft.subject, draft.body, timestamp, false, false)))
  }

  /** A message addressed to `uid`. */
  function AddressedTo(uid: string): MessageData -> bool
  {
    (m: MessageData) => m.to == uid
  }

  /** With recipients chosen through the picker (never twice), every recipient gets
      exactly one message. */
  lemma {:induction false} OneMessagePerRecipient(draft: Draft, users: seq<User>, me: User, timestamp: string, uid: string)
    requires CanSend(draft) && NoDuplicates(draft.to) && uid in draft.to
    ensures |Filter(AddressedTo(uid), SendMessages(draft, users, me, timestamp).value)| == 1
  {
    AddressedOnce(SendMessages(draft, users, me, timestamp).value, draft.to, uid);
  }

  lemma {:induction false} AddressedOnce(sent: seq<MessageData>, to: seq<string>, uid: string)
    requires |sent| == |to| && NoDuplicates(to) && uid in to
    requires forall i :: 0 <= i < |sent| ==> sent[i].to == to[i]
    ensures |Filter(AddressedTo(uid), sent)| == 1
  {
    if to[0] == uid {
      forall m | m in sent[1..]
        ensures !AddressedTo(uid)(m)
      {
        var i :| 1 <= i < |sent| && sent[i] == m;
      }
      FilterNone(AddressedTo(uid), sent[1..]);
    } else {
      AddressedOnce(sent[1..], to[1..], uid);
    }
  }

  datatype Folder = Inbox | Sent | Trash

  /** The folder's own filter: the trash list is loaded separately and shown whole. */
  predicate InFolder(folder: Folder, me: string, m: Message)
  {
    match folder
    case Inbox => m.data.to == me
    case Sent => m.data.from == me
    case Trash => true
  }

  /** The search over subject, body and sender name, ignoring case. */
  predicate MatchesSearch(term: string, m: Message)
  {
    Contains(Lower(m.data.subject), Lower(term)) ||
    Contains(Lower(m.data.body), Lower(term)) ||
    (m.data.fromUsername != "" && Contains(Lower(m.data.fromUsername), Lower(term)))
  }

  /** `getFilteredMessages`. */
  function FilteredMessages(messages: seq<Message>, folder: Folder, me: string, term: string): (r: seq<Message>)
    ensures forall m :: m in r <==> (m in messages && InFolder(folder, me, m) && (term == "" || MatchesSearch(term, m)))
    ensures IsSubsequence(r, messages)
  {
    var inFolder := Filter((m: Message) => InFolder(folder, me, m), messages);
    if term == "" then inFolder
    else
      var r := Filter((m: Message) => MatchesSearch(term, m), inFolder);
      SubsequenceTransitive(r, inFolder, messages);
      r
  }

  /** A message just sent shows in its recipient's inbox, in the sender's sent folder,
      and is found by searching for its subject. */
  lemma {:induction false} SentMessageFound(draft: Draft, users: seq<User>, me: User, timestamp: string, i: nat, id: string,
                         messages: seq<Message>)
    requires CanSend(draft) && i < |draft.to|
    requires Message(id, SendMessages(draft, users, me, timestamp).value[i]) in messages
    ensures Message(id, SendMessages(draft, users, me, timestamp).value[i]) in
      FilteredMessages(messages, Inbox, draft.to[i], draft.subject)
    ensures Message(id, SendMessages(draft, users, me, timestamp).value[i]) in
      FilteredMessages(messages, Sent, me.uid, draft.subject)
  {
    var m := Message(id, SendMessages(draft, users, me, timestamp).value[i]);
    ContainsAt(Lower(m.data.subject), Lower(draft.subject), 0);
    assert MatchesSearch(draft.subject, m);
  }

  /** With no search term the folder is shown whole. */
  lemma {:induction false} NoSearchShowsFolder(messages: seq<Message>, me: string)
    ensures FilteredMessages(messages, Trash, me, "") == messages
  {
    FilterAll((m: Message) => InFolder(Trash, me, m), messages);
  }

  /** Not read and not in the trash. */
  function Unread(): Message -> bool
  {
    (m: Message) => !m.data.read && !m.data.deleted
  }

  /** `unreadCount`: the number of the inbox's messages that are neither read nor
      deleted. */
  function UnreadCount(messages: seq<Message>, me: string): (n: nat)
    ensures n == |Filter(Unread(), FilteredMessages(messages, Inbox, me, ""))|
    ensures n <= |FilteredMessages(messages, Inbox, me, "")|
  {
    var unread := (m: Message) => m.data.to == me && !m.data.read && !m.data.deleted;
    UnreadOfInbox(messages, me);
    |Filter(unread, messages)|
  }

  lemma {:induction false} UnreadOfInbox(messages: seq<Message>, me: string)
    ensures Filter((m: Message) => m.data.to == me && !m.data.read && !m.data.deleted, messages) ==
      Filter(Unread(), Filter((m: Message) => InFolder(Inbox, me, m), messages))
  {
    if messages != [] {
      UnreadOfInbox(messages[1..], me);
    }
  }

  /** `toggleSelectMessage`. */
  function ToggleSelect(selected: seq<string>, id: string): (r: seq<string>)
    ensures id in selected ==> id !in r && forall x :: x != id ==> multiset(r)[x] == multiset(selected)[x]
    ensures id !in selected ==> r == selected + [id]
  {
    if id in selected then Without(selected, id) else selected + [id]
  }

  /** Toggling keeps a selection free of repeats. */
  lemma {:induction false} ToggleKeepsNoDuplicates(selected: seq<string>, id: string)
    requires NoDuplicates(selected)
    ensures NoDuplicates(ToggleSelect(selected, id))
  {
    if id in selected {
      NoDuplicatesMultiplicity(selected);
      var r := ToggleSelect(selected, id);
      forall i, j | 0 <= i < j < |r|
        ensures r[i] != r[j]
      {
        PairMultiplicity(r, i, j);
        assert r[i] != id;
      }
    }
  }

  /** Toggling the same message twice gives the same selection back: exactly when it was
      not selected, and up to order when it was. */
  lemma {:induction false} ToggleTwice(selected: seq<string>, id: string)
    requires NoDuplicates(selected)
    ensures multiset(ToggleSelect(ToggleSelect(selected, id), id)) == multiset(selected)
    ensures id !in selected ==> ToggleSelect(ToggleSelect(selected, id), id) == selected
  {
    var once := ToggleSelect(selected, id);
    var twice := ToggleSelect(once, id);
    NoDuplicatesMultiplicity(selected);
    if id in selected {
      assert twice == once + [id];
      assert multiset(selected)[id] == 1;
    } else {
      assert id in once;
      assert forall x :: x in Without(once, id) <==> x in selected by {
        assert forall x :: x in multiset(Without(once, id)) <==> x in multiset(selected);
      }
      WithoutAppended(selected, id);
    }
  }

  lemma {:induction false} WithoutAppended(s: seq<string>, id: string)
    requires id !in s
    ensures Without(s + [id], id) == s
  {
    if s != [] {
      assert (s + [id])[1..] == s[1..] + [id];
      WithoutAppended(s[1..], id);
    }
  }

  function Ids(messages: seq<Message>): (r: seq<string>)
    ensures |r| == |messages|
    ensures forall i :: 0 <= i < |messages| ==> r[i] == messages[i].id
  {
    seq(|messages|, i requires 0 <= i < |messages| => messages[i].id)
  }

  /** `toggleSelectAll`: it compares the number of selected messages with the number
      listed, not the messages themselves. */
  function ToggleSelectAll(selected: seq<string>, filtered: seq<Message>): (r: seq<string>)
    ensures |selected| == |filtered| ==> r == []
    ensures |selected| != |filtered| ==> r == Ids(filtered)
  {
    if |selected| == |filtered| then [] else Ids(filtered)
  }

  /** Selecting all and toggling again clears the selection. */
  lemma {:induction false} SelectAllThenClear(selected: seq<string>, filtered: seq<Message>)
    requires |selected| != |filtered|
    ensures ToggleSelectAll(ToggleSelectAll(selected, filtered), filtered) == []
  {
  }

  /** A selection of other messages that happens to be as long as the list is cleared,
      not replaced by the listed messages. */
  lemma {:induction false} SameCountOtherMessagesCleared()
    ensures ToggleSelectAll(["a"], [Message("b", MessageData("", "", "", [], "", "", "", false, false))]) == []
  {
  }

  /** The recipient picker: a chosen uid is added once. */
  function AddRecipient(to: seq<string>, value: string): (r: seq<string>)
    ensures value != "" && value !in to ==> r == to + [value]
    ensures value == "" || value in to ==> r == to
    ensures NoDuplicates(to) ==> NoDuplicates(r)
  {
    if value != "" && value !in to then to + [value] else to
  }

  /** The picker offers the users not chosen yet. */
  function OfferedUsers(users: seq<User>, to: seq<string>): (r: seq<User>)
    ensures forall u :: u in r <==> u in users && u.uid !in to
  {
    Filter((u: User) => u.uid !in to, users)
  }

  /** Choosing an offered user with an id adds exactly that user. */
  lemma {:induction false} ChoosingOfferedAdds(users: seq<User>, to: seq<string>, u: User)
    requires u in OfferedUsers(users, to) && u.uid != ""
    ensures AddRecipient(to, u.uid) == to + [u.uid]
    ensures u !in OfferedUsers(users, AddRecipient(to, u.uid))
  {
  }

  /** Removing a chosen recipient (the × button) offers the user again. */
  lemma {:induction false} RemovingOffersAgain(users: seq<User>, to: seq<string>, u: User)
    requires u in users
    ensures u in OfferedUsers(users, Without(to, u.uid))
  {
  }
}

=== FILE: payment_edit.dfy ===
/** The records the payment forms write. A new payment is the form's fields with the
    chosen payment type; an edit deletes the entry and adds a new one built from the
    edit form, keeping the original payment type and, for a cheque with a due date, the
    original issue date. Document ids are handed in; `|| null` on an id is the identity
    here because an absent id is "". */
module PaymentEdit {
  import opened Common
  import opened Domain
  import opened Ledger

  /** The fields of the payment forms that end up in the stored record. */
  datatype PaymentForm = PaymentForm(
    paymentDate: Date,
    dueDate: Option<Date>,
    amount: real,
    paymentMethod: string,
    creditCardId: string,
    cariId: string,
    description: string)

  /** A stored record built from a form; the display names are joined in on reading and
      are empty in what is written. */
  function NewRecord(id: string, paymentType: string, form: PaymentForm, isAdminOnly: bool): (r: Payment)
    ensures r.id == id && r.paymentType == paymentType && r.isAdminOnly == isAdminOnly
    ensures r.paymentDate == form.paymentDate && r.dueDate == form.dueDate && r.amount == form.amount
    ensures r.paymentMethod == form.paymentMethod && r.creditCardId == form.creditCardId
    ensures r.cariId == form.cariId && r.description == form.description
  {
    Payment(id, form.paymentDate, form.dueDate, form.amount, paymentType, form.paymentMethod,
            form.creditCardId, form.cariId, "", "", form.description, isAdminOnly, "")
  }

  /** The edit form as it opens: the entry's own values. */
  function FormOf(p: Payment): (f: PaymentForm)
    ensures f.paymentDate == p.paymentDate && f.dueDate == p.dueDate && f.amount == p.amount
    ensures f.paymentMethod == p.paymentMethod && f.creditCardId == p.creditCardId
    ensures f.cariId == p.cariId && f.description == p.description
  {
    PaymentForm(p.paymentDate, p.dueDate, p.amount, p.paymentMethod, p.creditCardId, p.cariId, p.description)
  }

  /** A cheque with a due date keeps its issue date; only the due date is edited. */
  function EditedDate(original: Payment, form: PaymentForm): (d: Date)
    ensures form.paymentMethod == Cek && form.dueDate.Some? ==> d == original.paymentDate
    ensures !(form.paymentMethod == Cek && form.dueDate.Some?) ==> d == form.paymentDate
  {
    if form.paymentMethod == Cek && form.dueDate.Some? then original.paymentDate else form.paymentDate
  }

  /** The record the edit form writes, as written: the form holds no admin-only flag, so
      the new record has none and reads as visible to everyone. */
  function EditedRecordAsWritten(original: Payment, form: PaymentForm, newId: string): (r: Payment)
    ensures !r.isAdminOnly
    ensures r == EditedRecord(original, form, newId).(isAdminOnly := false)
  {
    NewRecord(newId, original.paymentType, form.(paymentDate := EditedDate(original, form)), false)
  }

  /** An admin-only entry loses its restriction when edited, even when nothing is changed. */
  lemma {:induction false} EditDropsAdminOnly(original: Payment, newId: string)
    requires original.isAdminOnly
    ensures !EditedRecordAsWritten(original, FormOf(original), newId).isAdminOnly
  {
  }

  /** The record the edit form writes, keeping the entry's admin-only flag. */
  function EditedRecord(original: Payment, form: PaymentForm, newId: string): (r: Payment)
    ensures r.id == newId && r.paymentType == original.paymentType && r.isAdminOnly == original.isAdminOnly
    ensures r.paymentDate == EditedDate(original, form)
    ensures r.amount == form.amount && r.paymentMethod == form.paymentMethod
    ensures r.dueDate == form.dueDate && r.creditCardId == form.creditCardId && r.cariId == form.cariId
  {
    NewRecord(newId, original.paymentType, form.(paymentDate := EditedDate(original, form)), original.isAdminOnly)
  }

  /** Saving the edit form untouched gives the entry back under its new id, apart from
      the names joined in on reading. */
  lemma {:induction false} UntouchedEditKeepsEntry(original: Payment, newId: string)
    ensures EditedRecord(original, FormOf(original), newId) ==
      original.(id := newId, cariName := "", bankAccountName := "", reminderId := "")
  {
  }

  /** An edit that changes the date of a cheque with a due date does not move it. */
  lemma {:induction false} ChequeKeepsIssueDate(original: Payment, form: PaymentForm, newId: string)
    requires form.paymentMethod == Cek && form.dueDate.Some?
    ensures EditedRecord(original, form, newId).paymentDate == original.paymentDate
    ensures EditedRecord(original, form, newId).dueDate == form.dueDate
  {
  }

  /** The filter of `deletePayment(payment.id)`. */
  function NotId(id: string): Payment -> bool
  {
    (p: Payment) => p.id != id
  }

  /** The collection after the edit: the old entry deleted, the new record added. */
  function ApplyEdit(store: seq<Payment>, original: Payment, record: Payment): (r: seq<Payment>)
    ensures forall p :: p in r <==> (p in store && p.id != original.id) || p == record
    ensures record.id != original.id ==> forall p :: p in r ==> p.id != original.id
    ensures |r| <= |store| + 1
  {
    Filter(NotId(original.id), store) + [record]
  }

  /** An edit whose old and new entries both belong to other cards leaves a card's usage
      unchanged. */
  lemma {:induction false} EditElsewhereKeepsUsage(store: seq<Payment>, original: Payment, record: Payment, cardId: string)
    requires forall p :: p in store && p.id == original.id ==> p.creditCardId != cardId
    requires record.creditCardId != cardId
    ensures CardUsage(cardId, ApplyEdit(store, original, record)) == CardUsage(cardId, store)
  {
    var kept := Filter(NotId(original.id), store);
    FilterAppend(OnCard(cardId), kept, [record]);
    FilterNone(OnCard(cardId), [record]);
    FilterAfterCoarserFilter(OnCard(cardId), NotId(original.id), store);
    assert CardPayments(kept, cardId) + [] == CardPayments(kept, cardId);
  }
}

=== FILE: register.dfy ===
/** The registration form's checks: the two passwords must match, then the password
    must have at least six characters; only then is the account requested, and the
    request's answer decides between the success screen and its error. */
module Register {

  const MismatchError := "Şifreler eşleşmiyor"
  const LengthError := "Şifre en az 6 karakter olmalıdır"

  /** What `handleRegister` does before it waits for anything. */
  datatype Step = ShowError(message: string) | CallRegister(email: string, username: string, password: string)

  /** The checks, in the order the form runs them. */
  function Validate(email: string, username: string, password: string, confirmPassword: string): (r: Step)
    ensures r.CallRegister? <==> password == confirmPassword && |password| >= 6
    ensures password != confirmPassword ==> r == ShowError(MismatchError)
    ensures password == confirmPassword && |password| < 6 ==> r == ShowError(LengthError)
    ensures r.CallRegister? ==> r == CallRegister(email, username, password)
  {
    if password != confirmPassword then ShowError(MismatchError)
    else if |password| < 6 then ShowError(LengthError)
    else CallRegister(email, username, password)
  }

  /** Mismatched passwords are reported as such even when they are also too short. */
  lemma {:induction false} MismatchReportedFirst(email: string, username: string, password: string, confirmPassword: string)
    requires password != confirmPassword && |password| < 6
    ensures Validate(email, username, password, confirmPassword) == ShowError(MismatchError)
    ensures Validate(email, username, password, confirmPassword) != ShowError(LengthError)
  {
  }

  /** The answer of `registerUser`. */
  datatype RegisterResult = RegisterResult(success: bool, error: string)

  /** The form after the answer: the success screen, or the answer's error. */
  datatype FormState = FormState(success: bool, error: string)

  function AfterRegister(result: RegisterResult): (s: FormState)
    ensures s.success <==> result.success
    ensures !result.success ==> s.error == result.error
    ensures result.success ==> s.error == ""
  {
    if result.success then FormState(true, "") else FormState(false, result.error)
  }

  /** The whole handler; `answer` is what `registerUser` would answer, and is not
      consulted when a check fails. */
  function HandleRegister(email: string, username: string, password: string, confirmPassword: string,
                          answer: RegisterResult): (s: FormState)
    ensures s.success ==> password == confirmPassword && |password| >= 6 && answer.success
    ensures password == confirmPassword && |password| >= 6 ==> s == AfterRegister(answer)
    ensures !(password == confirmPassword && |password| >= 6) ==> !s.success && s.error in {MismatchError, LengthError}
  {
    match Validate(email, username, password, confirmPassword)
    case ShowError(message) => FormState(false, message)
    case CallRegister(_, _, _) => AfterRegister(answer)
  }
}

=== FILE: reminder_match.dfy ===
/** The reminder bookkeeping both payment forms run after saving a payment
    (`updateReminders`, the same code in the new-payment and the edit-payment form,
    except that the new-payment form also logs each update): every reminder the payment
    settles gets its counter moved and may be closed. The
    Firestore reads become the parameters `reminders`, `cards` and `allPayments` (which
    already holds the saved payment); the writes become the returned list. */
module ReminderMatch {
  import opened Common
  import opened Domain

  /** The day window of a reminder: from `dayStart` to `dayEnd`, wrapping over the end of
      the month when `dayStart > dayEnd` (25 to 5 means the 25th onwards or up to the 5th). */
  predicate InDayWindow(day: int, dayStart: int, dayEnd: int)
  {
    if dayStart > dayEnd then day >= dayStart || day <= dayEnd
    else day >= dayStart && day <= dayEnd
  }

  /** A wrapped window is exactly the days outside the plain window of the days it skips. */
  lemma {:induction false} WrappedWindowIsComplement(day: int, dayStart: int, dayEnd: int)
    requires dayStart > dayEnd + 1
    ensures InDayWindow(day, dayStart, dayEnd) <==> !InDayWindow(day, dayEnd + 1, dayStart - 1)
  {
  }

  /** A plain window holds exactly the days between its bounds, both bounds included. */
  lemma {:induction false} PlainWindowBounds(day: int, dayStart: int, dayEnd: int)
    requires dayStart <= dayEnd
    ensures InDayWindow(day, dayStart, dayEnd) <==> dayStart <= day <= dayEnd
    ensures InDayWindow(dayStart, dayStart, dayEnd) && InDayWindow(dayEnd, dayStart, dayEnd)
  {
  }

  /** `getMonth()` and `getFullYear()` agree. */
  predicate SameMonth(a: Date, b: Date)
  {
    a.year == b.year && a.month == b.month
  }

  /** The three ways a payment can settle a reminder: card reminder by a card repayment,
      supplier (`cari`) reminder by a supplier payment, card reminder by a supplier
      payment made with the card. */
  datatype Route = CardRepayment | SupplierPayment | SupplierPaidByCard

  /** Which earlier entries the window probe of each route looks at. */
  predicate Counts(route: Route, r: Reminder, payment: Payment, p: Payment)
  {
    match route
    case CardRepayment => p.paymentType == KrediKarti && p.creditCardId == payment.creditCardId
    case SupplierPayment =>
      p.paymentType == Cari && p.cariId == payment.cariId &&
      (r.paymentType == "" || p.paymentMethod == r.paymentType)
    case SupplierPaidByCard => p.paymentMethod == KrediKarti && p.creditCardId == payment.creditCardId
  }

  /** `reminder.dayStart && reminder.dayEnd`: both bounds set. */
  predicate HasWindow(r: Reminder)
  {
    r.dayStart != 0 && r.dayEnd != 0
  }

  /** The `allPayments.some(...)` probe: an entry of this route in the payment's month whose
      day lies in the window; a reminder without a window is always satisfied. */
  predicate WindowSatisfied(route: Route, r: Reminder, payment: Payment, allPayments: seq<Payment>)
  {
    HasWindow(r) ==>
      exists p :: p in allPayments && Counts(route, r, payment, p) &&
        SameMonth(p.paymentDate, payment.paymentDate) &&
        InDayWindow(p.paymentDate.day, r.dayStart, r.dayEnd)
  }

  /** The reminder's card and the payment's card both exist and have the same code. */
  predicate SameCardCode(cards: seq<Card>, r: Reminder, payment: Payment)
  {
    var rc := FindCard(cards, r.creditCardId);
    var pc := FindCard(cards, payment.creditCardId);
    rc.Some? && pc.Some? && rc.value.code == pc.value.code
  }

  /** The route a payment and a reminder fall under, before the window is looked at. A
      stored `cari_id` is null when empty, and null equals no reminder's `cariId`, hence
      `payment.cariId != ""`. */
  predicate RouteApplies(route: Route, r: Reminder, payment: Payment, cards: seq<Card>)
  {
    match route
    case CardRepayment =>
      r.kind == CreditCardReminder && payment.paymentType == KrediKarti && SameCardCode(cards, r, payment)
    case SupplierPayment =>
      r.kind == CariReminder && payment.paymentType == Cari && payment.cariId != "" &&
      payment.cariId == r.cariId && (r.paymentType == "" || r.paymentType == payment.paymentMethod)
    case SupplierPaidByCard =>
      r.kind == CreditCardReminder && payment.paymentType == Cari && payment.paymentMethod == KrediKarti &&
      SameCardCode(cards, r, payment)
  }

  /** `shouldUpdate`: one of the three routes applies and its window is satisfied. */
  predicate ShouldUpdate(r: Reminder, payment: Payment, cards: seq<Card>, allPayments: seq<Payment>)
  {
    (RouteApplies(CardRepayment, r, payment, cards) && WindowSatisfied(CardRepayment, r, payment, allPayments)) ||
    (RouteApplies(SupplierPayment, r, payment, cards) && WindowSatisfied(SupplierPayment, r, payment, allPayments)) ||
    (RouteApplies(SupplierPaidByCard, r, payment, cards) && WindowSatisfied(SupplierPaidByCard, r, payment, allPayments))
  }

  /** At most one route applies to a reminder and a payment. */
  lemma {:induction false} RoutesExclusive(r: Reminder, payment: Payment, cards: seq<Card>, a: Route, b: Route)
    requires RouteApplies(a, r, payment, cards) && RouteApplies(b, r, payment, cards)
    ensures a == b
  {
  }

  /** When the saved payment is among the fetched entries and its own day lies in the
      window (or there is no window), the window never stops an applicable route: the
      payment counts for itself. */
  lemma {:induction false} SavedPaymentSettles(route: Route, r: Reminder, payment: Payment, cards: seq<Card>, allPayments: seq<Payment>)
    requires RouteApplies(route, r, payment, cards)
    requires payment in allPayments
    requires HasWindow(r) ==> InDayWindow(payment.paymentDate.day, r.dayStart, r.dayEnd)
    ensures ShouldUpdate(r, payment, cards, allPayments)
  {
    assert Counts(route, r, payment, payment);
  }

  /** A reminder updates only through a route that applies. */
  lemma {:induction false} ShouldUpdateNeedsRoute(r: Reminder, payment: Payment, cards: seq<Card>, allPayments: seq<Payment>)
    requires ShouldUpdate(r, payment, cards, allPayments)
    ensures exists route :: RouteApplies(route, r, payment, cards)
  {
    if RouteApplies(CardRepayment, r, payment, cards) {
    } else if RouteApplies(SupplierPayment, r, payment, cards) {
    } else {
      assert RouteApplies(SupplierPaidByCard, r, payment, cards);
    }
  }

  /** The `updates` object: an optional new `remainingCount` and an optional `isActive`. */
  datatype Updates = Updates(remainingCount: Option<int>, isActive: Option<bool>)
  {
    predicate IsEmpty()
    {
      remainingCount.None? && isActive.None?
    }
  }

  /** The counter step and the closing rule for a reminder the payment settles. A monthly
      reminder counts payments up and never closes; a one-off reminder counts down to 0
      and closes when it reaches 0 (and, with auto-close, also when it already was 0). */
  function UpdatesFor(r: Reminder): (u: Updates)
    ensures r.repeatMonthly ==> u.remainingCount == Some(r.remainingCount + 1) && u.isActive.None?
    ensures !r.repeatMonthly && r.remainingCount > 0 ==> u.remainingCount == Some(r.remainingCount - 1)
    ensures !r.repeatMonthly && r.remainingCount <= 0 ==> u.remainingCount.None?
    ensures u.isActive.Some? ==> u.isActive == Some(false)
    ensures u.isActive == Some(false) <==>
      !r.repeatMonthly && (r.remainingCount == 1 || (r.autoCloseOnPayment && r.remainingCount == 0))
    ensures r.remainingCount >= 0 && u.remainingCount.Some? ==> u.remainingCount.value >= 0
    ensures u.IsEmpty() <==>
      !r.repeatMonthly && r.remainingCount <= 0 && !(r.autoCloseOnPayment && r.remainingCount == 0)
  {
    var current := r.remainingCount;
    var count :=
      if r.repeatMonthly then Some(current + 1)
      else if current > 0 then Some(current - 1)
      else None;
    var close :=
      if r.autoCloseOnPayment then
        (if count.Some? then count.value else current) == 0 && !r.repeatMonthly
      else count == Some(0) && !r.repeatMonthly;
    Updates(count, if close then Some(false) else None)
  }

  /** One `firestore.updateReminder(reminder.id, updates)` call. */
  datatype Write = Write(reminderId: string, updates: Updates)

  /** The writes for the reminders settled by the payment, in reminder order; a reminder
      whose updates are empty is not written. */
  function PlannedWrites(reminders: seq<Reminder>, payment: Payment, cards: seq<Card>, allPayments: seq<Payment>): (ws: seq<Write>)
    ensures |ws| <= |reminders|
    ensures forall w :: w in ws ==>
      exists r :: r in reminders && ShouldUpdate(r, payment, cards, allPayments) &&
        !UpdatesFor(r).IsEmpty() && w == Write(r.id, UpdatesFor(r))
    ensures forall r :: r in reminders && ShouldUpdate(r, payment, cards, allPayments) && !UpdatesFor(r).IsEmpty() ==>
      Write(r.id, UpdatesFor(r)) in ws
  {
    if reminders == [] then []
    else
      var rest := reminders[..|reminders| - 1];
      var r := reminders[|reminders| - 1];
      assert reminders == rest + [r];
      var earlier := PlannedWrites(rest, payment, cards, allPayments);
      if ShouldUpdate(r, payment, cards, allPayments) && !UpdatesFor(r).IsEmpty() then
        earlier + [Write(r.id, UpdatesFor(r))]
      else earlier
  }

  /** `updateReminders`: one pass over the reminders, collecting the writes. */
  method UpdateReminders(reminders: seq<Reminder>, payment: Payment, cards: seq<Card>, allPayments: seq<Payment>)
    returns (writes: seq<Write>)
    ensures writes == PlannedWrites(reminders, payment, cards, allPayments)
  {
    writes := [];
    var i := 0;
    while i < |reminders|
      invariant 0 <= i <= |reminders|
      invariant writes == PlannedWrites(reminders[..i], payment, cards, allPayments)
    {
      var reminder := reminders[i];
      assert reminders[..i + 1][..i] == reminders[..i];
      var updates := UpdatesFor(reminder);
      if ShouldUpdate(reminder, payment, cards, allPayments) && !updates.IsEmpty() {
        writes := writes + [Write(reminder.id, updates)];
      }
      i := i + 1;
    }
    assert reminders[..i] == reminders;
  }

  /** The reminders a payment settles and that have something to write. */
  function Settled(payment: Payment, cards: seq<Card>, allPayments: seq<Payment>): Reminder -> bool
  {
    (r: Reminder) => ShouldUpdate(r, payment, cards, allPayments) && !UpdatesFor(r).IsEmpty()
  }

  /** The write recorded for a settled reminder. */
  function WriteOf(r: Reminder): Write
  {
    Write(r.id, UpdatesFor(r))
  }

  /** Appending a settled reminder and its write keeps writes and reminders in step. */
  lemma WritesInStepSnoc(ws: seq<Write>, settled: seq<Reminder>, r: Reminder)
    requires |ws| == |settled| && forall i :: 0 <= i < |ws| ==> ws[i] == WriteOf(settled[i])
    ensures var ws', settled' := ws + [WriteOf(r)], settled + [r];
      |ws'| == |settled'| && forall i :: 0 <= i < |ws'| ==> ws'[i] == WriteOf(settled'[i])
  {
  }

  /** One write per settled reminder, in the reminders' order, and no other write: the
      i-th write is the update of the i-th settled reminder. */
  lemma {:induction false} OneWritePerSettledReminder(reminders: seq<Reminder>, payment: Payment, cards: seq<Card>, allPayments: seq<Payment>)
    ensures |PlannedWrites(reminders, payment, cards, allPayments)| == |Filter(Settled(payment, cards, allPayments), reminders)|
    ensures forall i :: 0 <= i < |PlannedWrites(reminders, payment, cards, allPayments)| ==>
      PlannedWrites(reminders, payment, cards, allPayments)[i] == WriteOf(Filter(Settled(payment, cards, allPayments), reminders)[i])
  {
    if reminders != [] {
      var p := Settled(payment, cards, allPayments);
      var rest := reminders[..|reminders| - 1];
      var r := reminders[|reminders| - 1];
      assert reminders == rest + [r];
      OneWritePerSettledReminder(rest, payment, cards, allPayments);
      var earlier := PlannedWrites(rest, payment, cards, allPayments);
      var settledBefore := Filter(p, rest);
      FilterAppend(p, rest, [r]);
      if p(r) {
        assert Filter(p, [r]) == [r];
        assert PlannedWrites(reminders, payment, cards, allPayments) == earlier + [WriteOf(r)];
        WritesInStepSnoc(earlier, settledBefore, r);
      } else {
        assert Filter(p, [r]) == [];
        assert PlannedWrites(reminders, payment, cards, allPayments) == earlier;
      }
    }
  }

  /** No counter written for a reminder that started at zero or above goes below zero. */
  lemma {:induction false} WrittenCountsNonNegative(reminders: seq<Reminder>, payment: Payment, cards: seq<Card>, allPayments: seq<Payment>)
    requires forall r :: r in reminders ==> r.remainingCount >= 0
    ensures forall w :: w in PlannedWrites(reminders, payment, cards, allPayments) && w.updates.remainingCount.Some? ==>
      w.updates.remainingCount.value >= 0
  {
  }

  /** A payment that settles no reminder writes nothing. */
  lemma {:induction false} NothingSettledNothingWritten(reminders: seq<Reminder>, payment: Payment, cards: seq<Card>, allPayments: seq<Payment>)
    requires forall r :: r in reminders ==> !ShouldUpdate(r, payment, cards, allPayments)
    ensures PlannedWrites(reminders, payment, cards, allPayments) == []
  {
    if reminders != [] {
      NothingSettledNothingWritten(reminders[..|reminders| - 1], payment, cards, allPayments);
    }
  }
}

=== FILE: reminders.dfy ===
/** The reminders pages: the save rules of the reminder form, the counter a reminder is
    given when it is created or edited, the split into active and history reminders, the
    upcoming-payments strip, the two sections of the reminder board, the expiring-card
    check and the history search. A reminder form is a `Reminder` value whose id is ""
    and whose `paymentCount` is the typed count (0 when the field is empty). */
module Reminders {
  import opened Common
  import opened Domain
  import opened Text

  // ---------------------------------------------------------------------------
  // The form

  /** The form's guards, and the `disabled` flag of its save button: a general reminder
      needs a non-blank title, a card reminder a card, a supplier reminder a supplier. */
  predicate Incomplete(form: Reminder)
  {
    (form.kind == GeneralReminder && Trim(form.title) == "") ||
    (form.kind == CreditCardReminder && form.creditCardId == "") ||
    (form.kind == CariReminder && form.cariId == "")
  }

  /** `ReminderForm.handleSubmit`: the guards one by one, then `onSave(formData)`. */
  function SubmitForm(form: Reminder): (r: Option<Reminder>)
    ensures r.None? <==> Incomplete(form)
    ensures r.Some? ==> r.value == form
  {
    if form.kind == GeneralReminder && Trim(form.title) == "" then None
    else if form.kind == CreditCardReminder && form.creditCardId == "" then None
    else if form.kind == CariReminder && form.cariId == "" then None
    else Some(form)
  }

  /** A title of spaces only is blank. */
  lemma {:induction false} SpacesOnlyTitleRejected(form: Reminder)
    requires form.kind == GeneralReminder
    requires forall i :: 0 <= i < |form.title| ==> IsSpace(form.title[i])
    ensures SubmitForm(form).None?
  {
    assert TrimEnd(form.title) == "";
  }

  // ---------------------------------------------------------------------------
  // Counters

  /** Card and supplier reminders carry a counter; general ones do not. */
  predicate Counted(kind: string)
  {
    kind == CreditCardReminder || kind == CariReminder
  }

  /** The counter of a new reminder: 0 for a monthly one (it counts payments up), the
      number of payments for a one-off one (it counts down). */
  function InitialCount(repeatMonthly: bool, paymentCount: int): (c: int)
    ensures repeatMonthly ==> c == 0
    ensures !repeatMonthly ==> c == paymentCount
    ensures paymentCount >= 0 ==> c >= 0
  {
    if repeatMonthly then 0 else paymentCount
  }

  /** The counter after an edit: a monthly reminder keeps its count; a one-off reminder
      keeps the payments already made and counts down what is left of the new total,
      never below zero. */
  function EditedCount(previous: Reminder, repeatMonthly: bool, paymentCount: int): (c: int)
    ensures repeatMonthly ==> c == previous.remainingCount
    ensures !repeatMonthly ==> c >= 0
  {
    if repeatMonthly then previous.remainingCount
    else
      var completed := previous.paymentCount - previous.remainingCount;
      if paymentCount - completed > 0 then paymentCount - completed else 0
  }

  /** The payments already made survive an edit of a one-off reminder whose new total
      still covers them: made before == made after. */
  lemma {:induction false} EditKeepsCompletedPayments(previous: Reminder, paymentCount: int)
    requires paymentCount >= previous.paymentCount - previous.remainingCount
    ensures paymentCount - EditedCount(previous, false, paymentCount) ==
            previous.paymentCount - previous.remainingCount
  {
  }

  /** Lowering the total below the payments already made leaves nothing to pay. */
  lemma {:induction false} EditBelowCompletedCloses(previous: Reminder, paymentCount: int)
    requires paymentCount <= previous.paymentCount - previous.remainingCount
    ensures EditedCount(previous, false, paymentCount) == 0
  {
  }

  /** Editing a one-off reminder without changing its total keeps its counter when the
      counter was not negative. */
  lemma {:induction false} UnchangedEditKeepsCount(previous: Reminder)
    requires previous.remainingCount >= 0
    ensures EditedCount(previous, false, previous.paymentCount) == previous.remainingCount
  {
  }

  /** A Firestore write of a reminder. */
  datatype ReminderWrite = UpdateReminder(id: string, data: Reminder) | AddReminder(data: Reminder)

  /** `Hatirlatmalar.handleSaveReminder`: the counter is set in the branches of the form's
      kind and of whether an existing reminder is being edited; the result is written
      over the edited reminder or added. */
  method SaveReminder(form: Reminder, editing: Option<Reminder>) returns (write: ReminderWrite)
    ensures editing.Some? <==> write.UpdateReminder?
    ensures editing.Some? ==> write.id == editing.value.id
    ensures write.data == form.(remainingCount := write.data.remainingCount)
    ensures !Counted(form.kind) ==> write.data == form
    ensures Counted(form.kind) && editing.None? ==>
      write.data.remainingCount == InitialCount(form.repeatMonthly, form.paymentCount)
    ensures Counted(form.kind) && editing.Some? ==>
      write.data.remainingCount == EditedCount(editing.value, form.repeatMonthly, form.paymentCount)
  {
    var data := form;
    if form.kind == CreditCardReminder || form.kind == CariReminder {
      if editing.Some? {
        if data.repeatMonthly {
          data := data.(remainingCount := editing.value.remainingCount);
        } else {
          var completed := editing.value.paymentCount - editing.value.remainingCount;
          var left := data.paymentCount - completed;
          data := data.(remainingCount := if left > 0 then left else 0);
        }
      } else {
        data := data.(remainingCount := if data.repeatMonthly then 0 else data.paymentCount);
      }
    }
    if editing.Some? {
      write := UpdateReminder(editing.value.id, data);
    } else {
      write := AddReminder(data);
    }
  }

  /** A saved one-off counted reminder never has a negative counter when its total is not
      negative, whether it is new or edited. */
  lemma {:induction false} SavedCountNonNegative(form: Reminder, editing: Option<Reminder>, write: ReminderWrite)
    requires Counted(form.kind) && !form.repeatMonthly && form.paymentCount >= 0
    requires write.data.remainingCount ==
      (if editing.Some? then EditedCount(editing.value, false, form.paymentCount)
       else InitialCount(false, form.paymentCount))
    ensures write.data.remainingCount >= 0
  {
  }

  /** The form state of the reminder panel of the side bar (`Hatirlatma`). */
  function EmptyDraft(): (d: Reminder)
    ensures d.kind == GeneralReminder && d.title == "" && d.creditCardId == "" && d.cariId == ""
    ensures !d.repeatMonthly && !d.autoCloseOnPayment && d.paymentCount == 0
  {
    Reminder("", GeneralReminder, "", "", "", "", 0, 0, false, false, 0, 0, None)
  }

  /** The reset draft cannot be submitted until a title is typed. */
  lemma {:induction false} EmptyDraftIncomplete()
    ensures Incomplete(EmptyDraft())
  {
    assert Trim("") == "";
  }

  /** The draft as `handleAddReminder` writes it: a counted reminder gets its initial
      counter, a general one is written as typed. */
  function Initialised(draft: Reminder): (d: Reminder)
    ensures d == draft.(remainingCount := d.remainingCount)
    ensures Counted(draft.kind) ==> d.remainingCount == InitialCount(draft.repeatMonthly, draft.paymentCount)
    ensures !Counted(draft.kind) ==> d == draft
  {
    if Counted(draft.kind) then draft.(remainingCount := InitialCount(draft.repeatMonthly, draft.paymentCount))
    else draft
  }

  /** `handleAddReminder`'s counter: a card or supplier reminder starts at 0 when it
      repeats monthly and at its total otherwise; a general one is left as typed. */
  method InitialiseDraft(draft: Reminder) returns (data: Reminder)
    ensures data == Initialised(draft)
  {
    data := draft;
    if draft.kind == CreditCardReminder || draft.kind == CariReminder {
      if data.repeatMonthly {
        data := data.(remainingCount := 0);
      } else {
        data := data.(remainingCount := data.paymentCount);
      }
    }
  }

  /** The side bar's reminder panel: the draft being typed, the reminder being edited,
      whether the form is open and the kind tab the form shows. */
  class ReminderPanel {
    var draft: Reminder
    var editing: Option<Reminder>
    var formOpen: bool
    var kindTab: string

    constructor ()
      ensures draft == EmptyDraft() && editing.None? && !formOpen && kindTab == GeneralReminder
    {
      draft := EmptyDraft();
      editing := None;
      formOpen := false;
      kindTab := GeneralReminder;
    }

    /** `handleAddReminder`: nothing happens for an incomplete draft; otherwise the draft,
        with a counted reminder's counter initialised, is written over the edited
        reminder or added, and the panel returns to an empty, closed form. Unlike the
        reminders page, an edit here restarts the counter. */
    method SubmitDraft() returns (write: Option<ReminderWrite>)
      modifies this
      ensures write.None? <==> Incomplete(old(draft))
      ensures write.None? ==> unchanged(this)
      ensures write.Some? ==> draft == EmptyDraft() && editing.None? && !formOpen && kindTab == GeneralReminder
      ensures write.Some? && old(editing).Some? ==> write.value == UpdateReminder(old(editing).value.id, Initialised(old(draft)))
      ensures write.Some? && old(editing).None? ==> write.value == AddReminder(Initialised(old(draft)))
    {
      if Incomplete(draft) {
        return None;
      }
      var data := InitialiseDraft(draft);
      if editing.Some? {
        write := Some(UpdateReminder(editing.value.id, data));
      } else {
        write := Some(AddReminder(data));
      }
      draft := EmptyDraft();
      kindTab := GeneralReminder;
      editing := None;
      formOpen := false;
    }
  }

  // ---------------------------------------------------------------------------
  // Lists

  /** `isActive !== false`: a reminder without the field counts as active. */
  predicate IsActive(r: Reminder)
  {
    r.isActive != Some(false)
  }

  function ActiveReminders(reminders: seq<Reminder>): (r: seq<Reminder>)
    ensures forall x :: x in r <==> x in reminders && IsActive(x)
    ensures IsSubsequence(r, reminders)
  {
    Filter((x: Reminder) => IsActive(x), reminders)
  }

  function HistoryReminders(reminders: seq<Reminder>): (r: seq<Reminder>)
    ensures forall x :: x in r <==> x in reminders && x.isActive == Some(false)
    ensures IsSubsequence(r, reminders)
  {
    Filter((x: Reminder) => !IsActive(x), reminders)
  }

  /** Active and history reminders split the list: no reminder is in both, and together
      they hold each reminder exactly as often as the list does. */
  lemma {:induction false} ActiveHistoryPartition(reminders: seq<Reminder>)
    ensures forall x :: !(x in ActiveReminders(reminders) && x in HistoryReminders(reminders))
    ensures multiset(ActiveReminders(reminders)) + multiset(HistoryReminders(reminders)) == multiset(reminders)
    ensures |ActiveReminders(reminders)| + |HistoryReminders(reminders)| == |reminders|
  {
    var a := ActiveReminders(reminders);
    var h := HistoryReminders(reminders);
    assert forall x :: (multiset(a) + multiset(h))[x] == multiset(reminders)[x];
    assert multiset(a) + multiset(h) == multiset(reminders);
    assert |multiset(a) + multiset(h)| == |multiset(reminders)|;
  }

  /** `!p.is_admin_only`. */
  predicate VisibleToUser(isAdmin: bool, p: Payment)
  {
    isAdmin || !p.isAdminOnly
  }

  /** A payment the upcoming strip may show: not a carry-over, and visible to the user. */
  function Upcoming(isAdmin: bool): Payment -> bool
  {
    (p: Payment) => p.paymentMethod != Devir && VisibleToUser(isAdmin, p)
  }

  /** The upcoming-payments strip: the payments of the coming week visible to the user,
      carry-overs dropped, the first five in the order read. The side-bar panel shows
      the admin view to everyone. */
  function UpcomingPayments(payments: seq<Payment>, isAdmin: bool): (r: seq<Payment>)
    ensures r == Take(Filter(Upcoming(isAdmin), payments), 5)
    ensures var n := |Filter(Upcoming(isAdmin), payments)|; |r| == if n < 5 then n else 5
    ensures forall p :: p in r ==> p in payments && p.paymentMethod != Devir && VisibleToUser(isAdmin, p)
    ensures IsSubsequence(r, payments)
  {
    var visibleTo := (p: Payment) => VisibleToUser(isAdmin, p);
    var notDevir := (p: Payment) => p.paymentMethod != Devir;
    var visible := Filter(visibleTo, payments);
    var shown := Filter(notDevir, visible);
    var r := Take(shown, 5);
    FilterFilter(visibleTo, notDevir, Upcoming(isAdmin), payments);
    assert forall p :: p in r ==> p in shown;
    SubsequencePrefix(r, shown);
    SubsequenceTransitive(r, shown, visible);
    SubsequenceTransitive(r, visible, payments);
    r
  }

  /** Five or fewer eligible payments are all shown. */
  lemma {:induction false} FewUpcomingAllShown(payments: seq<Payment>, isAdmin: bool, p: Payment)
    requires |Filter(Upcoming(isAdmin), payments)| <= 5
    requires p in payments && p.paymentMethod != Devir && VisibleToUser(isAdmin, p)
    ensures p in UpcomingPayments(payments, isAdmin)
  {
    assert Upcoming(isAdmin)(p);
  }

  /** Without admin-only payments, admins and others see the same strip. */
  lemma {:induction false} NoAdminOnlySameStrip(payments: seq<Payment>)
    requires forall p :: p in payments ==> !p.isAdminOnly
    ensures UpcomingPayments(payments, false) == UpcomingPayments(payments, true)
  {
    FilterAll((p: Payment) => VisibleToUser(false, p), payments);
    FilterAll((p: Payment) => VisibleToUser(true, p), payments);
  }

  /** The board's monthly section: repeating reminders whose counter is below their
      total (an absent total counts as 1). */
  predicate InCyclicSection(r: Reminder)
  {
    r.repeatMonthly && r.remainingCount < (if r.paymentCount == 0 then 1 else r.paymentCount)
  }

  /** The board's one-off section: the non-repeating reminders. */
  predicate InOneOffSection(r: Reminder)
  {
    !r.repeatMonthly
  }

  function Sections(active: seq<Reminder>): (r: (seq<Reminder>, seq<Reminder>))
    ensures forall x :: x in r.0 <==> x in active && InOneOffSection(x)
    ensures forall x :: x in r.1 <==> x in active && InCyclicSection(x)
    ensures forall x :: !(x in r.0 && x in r.1)
  {
    (Filter((x: Reminder) => InOneOffSection(x), active), Filter((x: Reminder) => InCyclicSection(x), active))
  }

  /** A monthly reminder that has counted all its payments is shown in neither section. */
  lemma {:induction false} FinishedMonthlyHidden(active: seq<Reminder>, x: Reminder)
    requires x.repeatMonthly && x.remainingCount >= x.paymentCount && x.paymentCount > 0
    ensures x !in Sections(active).0 && x !in Sections(active).1
  {
  }

  // ---------------------------------------------------------------------------
  // Expiring cards

  /** `parseInt(s)` on text that starts with a digit: the value of the leading digits;
      `None` is NaN. */
  function ParseLeadingInt(s: string): (r: Option<nat>)
    ensures r.None? <==> s == "" || !IsDigit(s[0])
  {
    if s == "" || !IsDigit(s[0]) then None else Some(LeadingValue(s, 0))
  }

  function LeadingValue(s: string, acc: nat): nat
    decreases |s|
  {
    if s == "" || !IsDigit(s[0]) then acc
    else LeadingValue(s[1..], acc * 10 + (s[0] as int - '0' as int))
  }

  /** The text before the first '/' and the text after it (up to any further '/'). */
  function SplitSlash(s: string): (r: (string, string))
    ensures '/' !in r.0 && '/' !in r.1
    ensures '/' !in s ==> r == (s, "")
  {
    var i := IndexOf(s, '/');
    if i < 0 then (s, "")
    else
      var rest := s[i + 1..];
      var j := IndexOf(rest, '/');
      (s[..i], if j < 0 then rest else rest[..j])
  }

  /** `new Date(y, monthIndex, day)` for a day of the month between 1 and 31: the month
      index rolls over into other years and a day past the month's end into the next
      month. */
  function MakeDate(y: int, monthIndex: int, day: int): (d: Date)
    requires 1 <= day <= 31
    ensures ValidDate(d)
    ensures day <= 28 ==> d == Date(y + monthIndex / 12, monthIndex % 12 + 1, day)
  {
    var year := y + monthIndex / 12;
    var month := monthIndex % 12 + 1;
    var n := DaysInMonth(year, month);
    if day <= n then Date(year, month, day)
    else if month == 12 then Date(year + 1, 1, day - n)
    else Date(year, month + 1, day - n)
  }

  /** The first day of the month of an "MM/YY" expiry, or `None` when it does not parse
      (an Invalid Date, which no comparison accepts). */
  function ExpiryStart(expiry: string): (r: Option<Date>)
    ensures r.Some? ==> ValidDate(r.value) && r.value.day == 1
  {
    var parts := SplitSlash(expiry);
    var month := ParseLeadingInt(parts.0);
    var year := ParseLeadingInt(parts.1);
    if month.None? || year.None? then None
    else
      Some(MakeDate(2000 + year.value, month.value - 1, 1))
  }

  /** `parseInt(setting) || 3`: a setting of 0 or none means three months. */
  function ExpiryWindowMonths(setting: Option<int>): (n: int)
    ensures n != 0
    ensures setting.None? || setting == Some(0) ==> n == 3
  {
    if setting.None? || setting.value == 0 then 3 else setting.value
  }

  /** The moment the check runs: today's date and the milliseconds since midnight. */
  datatype Now = Now(today: Date, msIntoDay: nat)

  /** `expiryDate >= today`: midnight of `d` is not before the current moment. */
  predicate NotBeforeNow(d: Date, now: Now)
  {
    DateLt(now.today, d) || (d == now.today && now.msIntoDay == 0)
  }

  /** A card is expiring when its expiry text is set and the first day of its expiry month
      lies after now and no later than the same day `months` months ahead. */
  predicate IsExpiring(card: Card, now: Now, months: int)
    requires 1 <= now.today.day <= 31
  {
    var start := ExpiryStart(card.expiryDate);
    card.expiryDate != "" && start.Some? &&
    DateLe(start.value, MakeDate(now.today.year, now.today.month - 1 + months, now.today.day)) &&
    NotBeforeNow(start.value, now)
  }

  function ExpiringCards(cards: seq<Card>, now: Now, setting: Option<int>): (r: seq<Card>)
    requires 1 <= now.today.day <= 31
    ensures forall c :: c in r <==> c in cards && IsExpiring(c, now, ExpiryWindowMonths(setting))
    ensures IsSubsequence(r, cards)
  {
    Filter((c: Card) => IsExpiring(c, now, ExpiryWindowMonths(setting)), cards)
  }

  /** An expiry in the current month is never expiring after its first day has begun:
      the check looks ahead only. */
  lemma {:induction false} CurrentMonthNotExpiring(card: Card, now: Now, months: int)
    requires ValidDate(now.today) && now.today.day > 1
    requires ExpiryStart(card.expiryDate) == Some(Date(now.today.year, now.today.month, 1))
    ensures !IsExpiring(card, now, months)
  {
  }

  /** Two digits, a slash and two digits read as the first day of that month of 20YY. */
  lemma {:induction false} ExpiryOfMonthYear(expiry: string)
    requires |expiry| == 5 && expiry[2] == '/'
    requires IsDigit(expiry[0]) && IsDigit(expiry[1]) && IsDigit(expiry[3]) && IsDigit(expiry[4])
    requires 1 <= TwoDigits(expiry[0], expiry[1]) <= 12
    ensures ExpiryStart(expiry) == Some(Date(2000 + TwoDigits(expiry[3], expiry[4]), TwoDigits(expiry[0], expiry[1]), 1))
  {
    assert IndexOf(expiry, '/') == 2;
    var rest := expiry[3..];
    assert '/' !in rest;
    assert SplitSlash(expiry) == (expiry[..2], rest);
    TwoDigitValue(expiry[..2]);
    TwoDigitValue(rest);
  }

  function TwoDigits(a: char, b: char): int
  {
    10 * (a as int - '0' as int) + (b as int - '0' as int)
  }

  lemma {:induction false} TwoDigitValue(s: string)
    requires |s| == 2 && IsDigit(s[0]) && IsDigit(s[1])
    ensures ParseLeadingInt(s) == Some(TwoDigits(s[0], s[1]))
  {
    var d0 := s[0] as int - '0' as int;
    var d1 := s[1] as int - '0' as int;
    assert s[1..][1..] == "";
    assert LeadingValue(s[1..][1..], d0 * 10 + d1) == d0 * 10 + d1;
    assert LeadingValue(s[1..], d0) == d0 * 10 + d1;
    assert LeadingValue(s, 0) == LeadingValue(s[1..], d0);
  }

  // ---------------------------------------------------------------------------
  // History

  /** The history search: an empty term keeps everything; otherwise the lowercased term
      in the title, the linked card's code or name, or the linked supplier's name. */
  predicate HistoryMatches(r: Reminder, term: string, cards: seq<Card>, cariList: seq<CariAccount>)
  {
    var card := FindCard(cards, r.creditCardId);
    var cari := FindCari(cariList, r.cariId);
    var t := Lower(term);
    term == "" || Contains(Lower(r.title), t) ||
    (card.Some? && (Contains(Lower(card.value.code), t) || Contains(Lower(card.value.name), t))) ||
    (cari.Some? && Contains(Lower(cari.value.name), t))
  }

  /** `filteredReminders` (the history dialog and the side bar's history list alike). */
  function FilteredHistory(history: seq<Reminder>, term: string, cards: seq<Card>, cariList: seq<CariAccount>): (r: seq<Reminder>)
    ensures forall x :: x in r <==> x in history && HistoryMatches(x, term, cards, cariList)
    ensures IsSubsequence(r, history)
    ensures term == "" ==> r == history
  {
    var keep := (x: Reminder) => HistoryMatches(x, term, cards, cariList);
    if term == "" then FilterAll(keep, history); Filter(keep, history)
    else Filter(keep, history)
  }

  /** A reminder whose title contains the term is found, whatever it links to. */
  lemma {:induction false} TitleHitFound(history: seq<Reminder>, x: Reminder, term: string, cards: seq<Card>, cariList: seq<CariAccount>)
    requires x in history && Contains(Lower(x.title), Lower(term))
    ensures x in FilteredHistory(history, term, cards, cariList)
  {
  }

  /** `handleSelectHistory`: the payments recorded against the selected reminder. */
  function PaymentsOfReminder(allPayments: seq<Payment>, reminder: Reminder): (r: seq<Payment>)
    ensures forall p :: p in r <==> p in allPayments && p.reminderId == reminder.id
    ensures IsSubsequence(r, allPayments)
  {
    Filter((p: Payment) => p.reminderId == reminder.id, allPayments)
  }
}

=== FILE: session.dfy ===
/** The application shell's session and device gate. At start the saved login is
    restored only when the user asked to stay logged in and logged in at most seven days
    ago; every check afterwards logs an older login out. The device gate compares the
    hardware id with the one stored on first use: another id locks the application and
    empties the local storage. */
module Session {
  import opened Common

  const MillisPerDay := 86_400_000

  /** The saved `user` entry, as far as the shell reads it. `loginTime` is in
      milliseconds; a missing or zero time counts as "now", as `loginTime || Date.now()`
      does. */
  datatype SavedUser = SavedUser(uid: string, username: string, keepLoggedIn: bool, loginTime: Option<int>)

  function EffectiveLoginTime(u: SavedUser, now: int): int
  {
    match u.loginTime
    case Some(t) => if t == 0 then now else t
    case None => now
  }

  /** `daysPassed > 7` with `daysPassed = (now - loginTime) / (1000 * 60 * 60 * 24)`. */
  predicate Expired(u: SavedUser, now: int)
  {
    (now - EffectiveLoginTime(u, now)) as real / MillisPerDay as real > 7.0
  }

  /** More than seven days means more than 604 800 000 milliseconds. */
  lemma {:induction false} ExpiredAfterSevenDays(u: SavedUser, now: int)
    ensures Expired(u, now) <==> now - EffectiveLoginTime(u, now) > 7 * MillisPerDay
  {
    var d := (now - EffectiveLoginTime(u, now)) as real;
    assert d / MillisPerDay as real > 7.0 <==> d > 7.0 * MillisPerDay as real;
  }

  /** A login without a time never expires on its own check. */
  lemma {:induction false} MissingTimeNeverExpires(u: SavedUser, now: int)
    requires u.loginTime == None || u.loginTime == Some(0)
    ensures !Expired(u, now)
  {
  }

  /** The `useState` initialiser: the saved user, unless it did not ask to stay logged in
      or is expired. */
  function Restore(saved: Option<SavedUser>, now: int): (r: Option<SavedUser>)
    ensures r.Some? <==> saved.Some? && saved.value.keepLoggedIn && !Expired(saved.value, now)
    ensures r.Some? ==> r == saved
  {
    match saved
    case None => None
    case Some(u) =>
      if !u.keepLoggedIn then None
      else if Expired(u, now) then None
      else Some(u)
  }

  /** What the device check finds. */
  datatype Verdict = MissingId | Mismatch | FirstUse | Match

  /** `verifyDevice`'s branches: no id, a stored id that differs, no stored id, or the
      same id. An empty string counts as missing, as JavaScript's `!` makes it. */
  function Check(hwid: Option<string>, stored: Option<string>): (v: Verdict)
    ensures v == MissingId <==> hwid.None? || hwid.value == ""
    ensures v == Mismatch <==> hwid.Some? && hwid.value != "" && stored.Some? && stored.value != "" && stored.value != hwid.value
    ensures v == Match <==> hwid.Some? && hwid.value != "" && stored == hwid
  {
    if hwid.None? || hwid.value == "" then MissingId
    else if stored.Some? && stored.value != "" && stored.value != hwid.value then Mismatch
    else if stored.None? || stored.value == "" then FirstUse
    else Match
  }

  /** The stored id after the check. */
  function StoredAfter(hwid: Option<string>, stored: Option<string>): (r: Option<string>)
    ensures Check(hwid, stored) == FirstUse ==> r == hwid
    ensures Check(hwid, stored) in {MissingId, Match} ==> r == stored
    ensures Check(hwid, stored) == Mismatch ==> r == None
  {
    match Check(hwid, stored)
    case MissingId => stored
    case Mismatch => None
    case FirstUse => hwid
    case Match => stored
  }

  /** Once a device has passed, the next start with the same id passes again. */
  lemma {:induction false} SameDevicePassesAgain(hwid: Option<string>, stored: Option<string>)
    requires Check(hwid, stored) in {FirstUse, Match}
    ensures Check(hwid, StoredAfter(hwid, stored)) == Match
  {
  }

  /** Once a device has passed, any other id is locked out. */
  lemma {:induction false} OtherDeviceLocked(hwid: Option<string>, stored: Option<string>, other: string)
    requires Check(hwid, stored) in {FirstUse, Match}
    requires other != "" && Some(other) != hwid
    ensures Check(Some(other), StoredAfter(hwid, stored)) == Mismatch
  {
  }

  /** The shell's state: three parts of the local storage and three React states. */
  class Shell {
    /** Local storage `user`. */
    var savedUser: Option<SavedUser>
    /** Local storage `device_hwid`. */
    var deviceHwid: Option<string>
    /** Every other local storage entry. */
    var otherEntries: map<string, string>
    var user: Option<SavedUser>
    var deviceLocked: bool
    var checking: bool

    /** The first render: the storage as found, and the restored login. */
    constructor(saved: Option<SavedUser>, storedHwid: Option<string>, others: map<string, string>, now: int)
      ensures user == Restore(saved, now)
      ensures savedUser == (if Restore(saved, now).None? then None else saved)
      ensures deviceHwid == storedHwid && otherEntries == others
      ensures !deviceLocked && checking
    {
      var restored := None;
      var kept := saved;
      if saved.Some? {
        var u := saved.value;
        if !u.keepLoggedIn {
          kept := None;
        } else {
          var loginTime := if u.loginTime.None? || u.loginTime == Some(0) then now else u.loginTime.value;
          var daysPassed := (now - loginTime) as real / MillisPerDay as real;
          if daysPassed > 7.0 {
            kept := None;
          } else {
            restored := saved;
          }
        }
      }
      savedUser := kept;
      deviceHwid := storedHwid;
      otherEntries := others;
      user := restored;
      deviceLocked := false;
      checking := true;
    }

    /** `verifyDevice`, given what `getHardwareId` answered (`None` when it failed). */
    method VerifyDevice(hwid: Option<string>)
      modifies this
      ensures !checking
      ensures user == old(user)
      ensures deviceLocked <==> old(deviceLocked) || Check(hwid, old(deviceHwid)) in {MissingId, Mismatch}
      ensures deviceHwid == StoredAfter(hwid, old(deviceHwid))
      ensures Check(hwid, old(deviceHwid)) == Mismatch ==> savedUser.None? && otherEntries == map[]
      ensures Check(hwid, old(deviceHwid)) != Mismatch ==> savedUser == old(savedUser) && otherEntries == old(otherEntries)
    {
      if hwid.None? || hwid.value == "" {
        deviceLocked := true;
        checking := false;
        return;
      }
      var stored := deviceHwid;
      if stored.Some? && stored.value != "" && stored.value != hwid.value {
        deviceLocked := true;
        savedUser := None;
        deviceHwid := None;
        otherEntries := map[];
      } else if stored.None? || stored.value == "" {
        deviceHwid := hwid;
      }
      checking := false;
    }

    /** `checkSessionExpiry`: logs out a saved login older than seven days. Returns
        whether `logoutUser` was called. */
    method CheckSessionExpiry(now: int) returns (loggedOut: bool)
      modifies this
      ensures loggedOut <==> old(savedUser).Some? && Expired(old(savedUser).value, now)
      ensures loggedOut ==> savedUser.None? && user.None?
      ensures !loggedOut ==> savedUser == old(savedUser) && user == old(user)
      ensures deviceHwid == old(deviceHwid) && otherEntries == old(otherEntries)
      ensures deviceLocked == old(deviceLocked) && checking == old(checking)
    {
      loggedOut := false;
      if savedUser.Some? {
        var u := savedUser.value;
        var loginTime := if u.loginTime.None? || u.loginTime == Some(0) then now else u.loginTime.value;
        var daysPassed := (now - loginTime) as real / MillisPerDay as real;
        if daysPassed > 7.0 {
          loggedOut := true;
          user := None;
          savedUser := None;
        }
      }
    }
  }

  /** A login restored at start is not logged out by the check that runs right away. */
  lemma {:induction false} RestoredLoginSurvivesFirstCheck(saved: Option<SavedUser>, now: int)
    requires Restore(saved, now).Some?
    ensures !Expired(Restore(saved, now).value, now)
  {
  }

  /** Starting, then the two mount effects at the same moment: the session check runs at
      once, while the device check finishes only after the hardware id has been read. */
  method Launch(saved: Option<SavedUser>, storedHwid: Option<string>, others: map<string, string>,
                hwid: Option<string>, now: int) returns (shell: Shell, loggedOut: bool)
    ensures fresh(shell)
    ensures !loggedOut
    ensures shell.deviceLocked <==> Check(hwid, storedHwid) in {MissingId, Mismatch}
    ensures Check(hwid, storedHwid) != Mismatch ==> shell.user == Restore(saved, now)
    ensures !shell.checking
  {
    shell := new Shell(saved, storedHwid, others, now);
    loggedOut := shell.CheckSessionExpiry(now);
    shell.VerifyDevice(hwid);
  }
}

=== FILE: sorting.dfy ===
/** The array sort the application relies on (`Array.prototype.sort` with a comparator,
    stable since ECMAScript 2019), modelled as a stable insertion sort under the
    "comes no later than" relation `le(a, b) <==> cmp(a, b) <= 0`. */
module Sorting {
  import opened Common

  /** `le` is total and transitive: what a consistent comparator induces. */
  ghost predicate TotalPreorder<T(!new)>(le: (T, T) -> bool)
  {
    (forall a, b :: le(a, b) || le(b, a)) &&
    (forall a, b, c :: le(a, b) && le(b, c) ==> le(a, c))
  }

  predicate SortedBy<T>(le: (T, T) -> bool, s: seq<T>)
  {
    forall i, j :: 0 <= i < j < |s| ==> le(s[i], s[j])
  }

  /** Inserts `x` after every element that may come before it, so equal elements keep
      their order. */
  function Insert<T>(le: (T, T) -> bool, x: T, s: seq<T>): (r: seq<T>)
    ensures multiset(r) == multiset(s) + multiset{x}
    ensures |r| == |s| + 1
  {
    if s == [] then [x]
    else if le(s[0], x) then
      assert s == [s[0]] + s[1..];
      [s[0]] + Insert(le, x, s[1..])
    else [x] + s
  }

  /** `xs.sort(cmp)`. */
  function Sort<T>(le: (T, T) -> bool, s: seq<T>): (r: seq<T>)
    ensures multiset(r) == multiset(s)
    ensures |r| == |s|
  {
    if s == [] then []
    else
      assert s == s[..|s| - 1] + [s[|s| - 1]];
      Insert(le, s[|s| - 1], Sort(le, s[..|s| - 1]))
  }

  lemma {:induction false} InsertSorted<T(!new)>(le: (T, T) -> bool, x: T, s: seq<T>)
    requires TotalPreorder(le)
    requires SortedBy(le, s)
    ensures SortedBy(le, Insert(le, x, s))
  {
    if s != [] {
      var r := Insert(le, x, s);
      if le(s[0], x) {
        var t := Insert(le, x, s[1..]);
        assert r == [s[0]] + t;
        assert SortedBy(le, t) by {
          InsertSorted(le, x, s[1..]);
        }
        forall j | 0 <= j < |t|
          ensures le(s[0], t[j])
        {
          InsertMember(le, x, s[1..], t[j]);
          if t[j] != x {
            var k :| 0 <= k < |s| - 1 && s[1..][k] == t[j];
            assert s[k + 1] == t[j];
          }
        }
        forall i, j | 0 <= i < j < |r|
          ensures le(r[i], r[j])
        {
          assert r[j] == t[j - 1];
          if i > 0 {
            assert r[i] == t[i - 1];
          }
        }
      } else {
        assert r == [x] + s;
        forall j | 0 <= j < |s|
          ensures le(x, s[j])
        {
          assert le(x, s[0]);
        }
        forall i, j | 0 <= i < j < |r|
          ensures le(r[i], r[j])
        {
          assert r[j] == s[j - 1];
          if i > 0 {
            assert r[i] == s[i - 1];
          }
        }
      }
    }
  }

  /** An element of the result is `x` or an element of the list. */
  lemma {:induction false} InsertMember<T>(le: (T, T) -> bool, x: T, s: seq<T>, y: T)
    requires y in Insert(le, x, s)
    ensures y in s || y == x
  {
    assert y in multiset(Insert(le, x, s));
  }

  /** The sorted result is ordered by `le`. */
  lemma {:induction false} SortSorted<T(!new)>(le: (T, T) -> bool, s: seq<T>)
    requires TotalPreorder(le)
    ensures SortedBy(le, Sort(le, s))
  {
    if s != [] {
      SortSorted(le, s[..|s| - 1]);
      InsertSorted(le, s[|s| - 1], Sort(le, s[..|s| - 1]));
    }
  }

  /** The elements `le` ranks level with `x`: those that may come both before and
      after it. */
  function Equivalent<T>(le: (T, T) -> bool, x: T): T -> bool
  {
    (y: T) => le(x, y) && le(y, x)
  }

  /** Inserting into a sorted list puts `z` after every element level with it. */
  lemma {:induction false} InsertStable<T(!new)>(le: (T, T) -> bool, x: T, z: T, s: seq<T>)
    requires TotalPreorder(le)
    requires SortedBy(le, s)
    ensures Filter(Equivalent(le, x), Insert(le, z, s)) ==
            Filter(Equivalent(le, x), s) + Filter(Equivalent(le, x), [z])
  {
    var e := Equivalent(le, x);
    if s == [] {
      assert Insert(le, z, s) == [z];
    } else if le(s[0], z) {
      var rest := s[1..];
      var t := Insert(le, z, rest);
      assert Insert(le, z, s) == [s[0]] + t;
      assert SortedBy(le, rest) by {
        forall i, j | 0 <= i < j < |rest|
          ensures le(rest[i], rest[j])
        {
          assert rest[i] == s[i + 1] && rest[j] == s[j + 1];
        }
      }
      InsertStable(le, x, z, rest);
      FilterCons(e, s[0], t, rest, [z]);
      assert [s[0]] + rest == s;
    } else {
      assert Insert(le, z, s) == [z] + s;
      if e(z) {
        NoneLevelAfter(le, x, z, s);
      }
      FilterFront(e, z, s);
    }
  }

  /** Filtering a list with a head added, when the tails filter alike. */
  lemma {:induction false} FilterCons<T(!new)>(e: T -> bool, h: T, t: seq<T>, rest: seq<T>, tail: seq<T>)
    requires Filter(e, t) == Filter(e, rest) + Filter(e, tail)
    ensures Filter(e, [h] + t) == Filter(e, [h] + rest) + Filter(e, tail)
  {
    FilterAppend(e, [h], t);
    FilterAppend(e, [h], rest);
    AppendAssociative(Filter(e, [h]), Filter(e, rest), Filter(e, tail));
  }

  /** Filtering a list with a head added, when the head is kept only if nothing after
      it is. */
  lemma {:induction false} FilterFront<T(!new)>(e: T -> bool, z: T, s: seq<T>)
    requires e(z) ==> Filter(e, s) == []
    ensures Filter(e, [z] + s) == Filter(e, s) + Filter(e, [z])
  {
    FilterAppend(e, [z], s);
    assert Filter(e, [z]) == if e(z) then [z] else [];
    if e(z) {
      assert Filter(e, s) + [z] == [z] + Filter(e, s);
    }
  }

  lemma {:induction false} AppendAssociative<T>(a: seq<T>, b: seq<T>, c: seq<T>)
    ensures a + (b + c) == (a + b) + c
  {
  }

  /** When `z` is level with `x` and a sorted list starts above `z`, nothing in the
      list is level with `x`. */
  lemma {:induction false} NoneLevelAfter<T(!new)>(le: (T, T) -> bool, x: T, z: T, s: seq<T>)
    requires TotalPreorder(le)
    requires SortedBy(le, s)
    requires s != [] && !le(s[0], z) && le(x, z)
    ensures Filter(Equivalent(le, x), s) == []
  {
    forall y | y in s
      ensures !Equivalent(le, x)(y)
    {
      var k :| 0 <= k < |s| && s[k] == y;
      assert k == 0 || le(s[0], s[k]);
    }
    FilterNone(Equivalent(le, x), s);
  }

  /** The sort is stable: the elements level with any `x` keep their input order. */
  lemma {:induction false} SortStable<T(!new)>(le: (T, T) -> bool, x: T, s: seq<T>)
    requires TotalPreorder(le)
    ensures Filter(Equivalent(le, x), Sort(le, s)) == Filter(Equivalent(le, x), s)
  {
    if s != [] {
      var init := s[..|s| - 1];
      var last := s[|s| - 1];
      var sorted := Sort(le, init);
      assert Sort(le, s) == Insert(le, last, sorted);
      SortStable(le, x, init);
      SortSorted(le, init);
      InsertStable(le, x, last, sorted);
      FilterSnoc(Equivalent(le, x), s, sorted, Sort(le, s));
    }
  }

  /** Filtering a non-empty list, when its front filters as `sorted` does and `r` filters
      as `sorted` followed by the last element. */
  lemma {:induction false} FilterSnoc<T(!new)>(e: T -> bool, s: seq<T>, sorted: seq<T>, r: seq<T>)
    requires s != []
    requires Filter(e, sorted) == Filter(e, s[..|s| - 1])
    requires Filter(e, r) == Filter(e, sorted) + Filter(e, [s[|s| - 1]])
    ensures Filter(e, r) == Filter(e, s)
  {
    assert s == s[..|s| - 1] + [s[|s| - 1]];
    FilterAppend(e, s[..|s| - 1], [s[|s| - 1]]);
  }

  /** Two relations that agree on the elements of a list sort it alike. */
  lemma {:induction false} InsertAgrees<T(!new)>(le: (T, T) -> bool, le2: (T, T) -> bool, x: T, s: seq<T>)
    requires forall a :: a in s ==> le(a, x) == le2(a, x)
    ensures Insert(le, x, s) == Insert(le2, x, s)
  {
    if s != [] {
      InsertAgrees(le, le2, x, s[1..]);
    }
  }

  lemma {:induction false} SortAgrees<T(!new)>(le: (T, T) -> bool, le2: (T, T) -> bool, s: seq<T>)
    requires forall a, b :: a in s && b in s ==> le(a, b) == le2(a, b)
    ensures Sort(le, s) == Sort(le2, s)
  {
    if s != [] {
      var init := s[..|s| - 1];
      var x := s[|s| - 1];
      assert forall a :: a in init ==> a in s;
      SortAgrees(le, le2, init);
      var sorted := Sort(le, init);
      assert forall a :: a in sorted ==> a in multiset(init);
      InsertAgrees(le, le2, x, sorted);
    }
  }
}

=== FILE: statistics.dfy ===
/** The monthly statistics page: the month's total, count and average, the totals per
    payment type and per payment method, the five suppliers (`cari`) paid most, the
    cheque figures, and the totals of the last six months. The page's accumulator
    objects are modelled as lists of groups in the order their keys first appear, which
    is the order `Object.values` and `Object.entries` give for such keys. */
module Statistics {
  import opened Common
  import opened Domain
  import opened Sorting

  /** `payments.reduce((sum, p) => sum + p.amount, 0)`. */
  function Total(payments: seq<Payment>): real
  {
    SumOf(Amount, payments)
  }

  /** `count > 0 ? total / count : 0`. */
  function Average(payments: seq<Payment>): (avg: real)
    ensures payments != [] ==> avg * |payments| as real == Total(payments)
    ensures payments == [] ==> avg == 0.0
  {
    if |payments| > 0 then Total(payments) / |payments| as real else 0.0
  }

  /** The average lies between the smallest and the largest amount. */
  lemma {:induction false} AverageWithinBounds(payments: seq<Payment>, lo: real, hi: real)
    requires payments != []
    requires forall i :: 0 <= i < |payments| ==> lo <= payments[i].amount <= hi
    ensures lo <= Average(payments) <= hi
  {
    SumOfBounds(Amount, payments, lo, hi);
    var n := |payments| as real;
    var avg := Average(payments);
    assert avg * n == Total(payments);
    assert n * lo <= avg * n <= n * hi;
  }

  /** One entry of an accumulator object: a key, the sum of the amounts filed under it
      and how many payments those were. */
  datatype Group = Group(key: string, total: real, count: nat)

  function GroupTotal(g: Group): real
  {
    g.total
  }

  function GroupCount(g: Group): real
  {
    g.count as real
  }

  /** The payments a key collects. */
  function KeyIs(key: Payment -> string, k: string): Payment -> bool
  {
    (p: Payment) => key(p) == k
  }

  predicate KeysDistinct(groups: seq<Group>)
  {
    forall i, j :: 0 <= i < j < |groups| ==> groups[i].key != groups[j].key
  }

  /** `acc[k]`: where the entry of a key is, if it has one. */
  function IndexOfKey(groups: seq<Group>, k: string): (r: Option<nat>)
    ensures r.Some? ==> r.value < |groups| && groups[r.value].key == k
    ensures r.Some? ==> forall j :: 0 <= j < r.value ==> groups[j].key != k
    ensures r.None? <==> forall j :: 0 <= j < |groups| ==> groups[j].key != k
  {
    if groups == [] then None
    else if groups[0].key == k then Some(0)
    else match IndexOfKey(groups[1..], k)
      case Some(i) => Some(i + 1)
      case None =>
        assert forall j :: 1 <= j < |groups| ==> groups[j] == groups[1..][j - 1];
        None
  }

  /** `acc[k] = (acc[k] || 0) + amount`, with a count beside the sum. */
  function AddTo(groups: seq<Group>, k: string, amount: real): seq<Group>
  {
    match IndexOfKey(groups, k)
    case Some(i) => groups[i := Group(k, groups[i].total + amount, groups[i].count + 1)]
    case None => groups + [Group(k, amount, 1)]
  }

  /** The accumulator after the `reduce` over the payments, filing each under `key`. */
  function GroupsOf(key: Payment -> string, payments: seq<Payment>): seq<Group>
  {
    if payments == [] then []
    else
      var last := payments[|payments| - 1];
      AddTo(GroupsOf(key, payments[..|payments| - 1]), key(last), last.amount)
  }

  /** The `reduce` loop itself. */
  method Tally(key: Payment -> string, payments: seq<Payment>) returns (groups: seq<Group>)
    ensures groups == GroupsOf(key, payments)
  {
    groups := [];
    var i := 0;
    while i < |payments|
      invariant 0 <= i <= |payments|
      invariant groups == GroupsOf(key, payments[..i])
    {
      var p := payments[i];
      assert payments[..i + 1][..i] == payments[..i];
      var k := key(p);
      var found := IndexOfKey(groups, k);
      if found.Some? {
        var j := found.value;
        groups := groups[j := Group(k, groups[j].total + p.amount, groups[j].count + 1)];
      } else {
        groups := groups + [Group(k, p.amount, 1)];
      }
      i := i + 1;
    }
    assert payments[..i] == payments;
  }

  /** Each key has one entry. */
  lemma {:induction false} GroupsDistinct(key: Payment -> string, payments: seq<Payment>)
    ensures KeysDistinct(GroupsOf(key, payments))
  {
    if payments != [] {
      GroupsDistinct(key, payments[..|payments| - 1]);
    }
  }

  lemma {:induction false} FilterSnoc(key: Payment -> string, k: string, init: seq<Payment>, last: Payment)
    ensures Filter(KeyIs(key, k), init + [last]) ==
            Filter(KeyIs(key, k), init) + (if key(last) == k then [last] else [])
  {
    FilterAppend(KeyIs(key, k), init, [last]);
  }

  /** Adding to the accumulator keeps the keys of the entries it has and may put a new
      one last. */
  lemma {:induction false} AddToKeys(groups: seq<Group>, added: string, amount: real)
    ensures |groups| <= |AddTo(groups, added, amount)| <= |groups| + 1
    ensures forall j :: 0 <= j < |groups| ==> AddTo(groups, added, amount)[j].key == groups[j].key
    ensures |AddTo(groups, added, amount)| == |groups| + 1 <==> IndexOfKey(groups, added).None?
    ensures |AddTo(groups, added, amount)| == |groups| + 1 ==> AddTo(groups, added, amount)[|groups|].key == added
  {
  }

  /** Where a key is found after adding to the accumulator: where it was, or last when
      it is the new key. */
  lemma {:induction false} AddToIndex(groups: seq<Group>, added: string, amount: real, k: string)
    ensures IndexOfKey(AddTo(groups, added, amount), k) ==
      if IndexOfKey(groups, k).Some? then IndexOfKey(groups, k)
      else if k == added then Some(|groups|)
      else None
  {
    var after := AddTo(groups, added, amount);
    AddToKeys(groups, added, amount);
    FirstIndexUnique(after, k, if IndexOfKey(groups, k).Some? then IndexOfKey(groups, k).value else |groups|);
  }

  /** An index holding the key, with no earlier one holding it, is where the key is found. */
  lemma {:induction false} FirstIndexUnique(groups: seq<Group>, k: string, i: nat)
    ensures i < |groups| && groups[i].key == k && (forall j :: 0 <= j < i ==> groups[j].key != k) ==>
      IndexOfKey(groups, k) == Some(i)
    ensures (forall j :: 0 <= j < |groups| ==> groups[j].key != k) ==> IndexOfKey(groups, k).None?
  {
  }

  /** The entry of `k`, if any, holds the sum and the number of the payments filed under
      `k`; without an entry there are none. */
  predicate EntryFits(key: Payment -> string, groups: seq<Group>, k: string, payments: seq<Payment>)
  {
    match IndexOfKey(groups, k)
    case None => Filter(KeyIs(key, k), payments) == []
    case Some(i) =>
      groups[i].total == SumOf(Amount, Filter(KeyIs(key, k), payments)) &&
      groups[i].count == |Filter(KeyIs(key, k), payments)|
  }

  /** The entry of the key added to. */
  lemma {:induction false} AddedEntry(before: seq<Group>, k: string, amount: real)
    ensures IndexOfKey(before, k).Some? ==>
      var i := IndexOfKey(before, k).value;
      IndexOfKey(AddTo(before, k, amount), k) == Some(i) &&
      AddTo(before, k, amount)[i] == Group(k, before[i].total + amount, before[i].count + 1)
    ensures IndexOfKey(before, k).None? ==>
      IndexOfKey(AddTo(before, k, amount), k) == Some(|before|) &&
      AddTo(before, k, amount)[|before|] == Group(k, amount, 1)
  {
    AddToIndex(before, k, amount, k);
  }

  lemma {:induction false} EntryFitsStep(key: Payment -> string, before: seq<Group>, init: seq<Payment>, last: Payment, k: string)
    requires EntryFits(key, before, k, init)
    ensures EntryFits(key, AddTo(before, key(last), last.amount), k, init + [last])
  {
    var after := AddTo(before, key(last), last.amount);
    var old_ := Filter(KeyIs(key, k), init);
    AddToIndex(before, key(last), last.amount, k);
    FilterSnoc(key, k, init, last);
    if key(last) == k {
      var now := Filter(KeyIs(key, k), init + [last]);
      assert now == old_ + [last];
      SumOfAppend(Amount, old_, [last]);
      assert SumOf(Amount, now) == SumOf(Amount, old_) + last.amount;
      assert |now| == |old_| + 1;
      AddedEntry(before, k, last.amount);
    } else {
      assert Filter(KeyIs(key, k), init + [last]) == old_;
      match IndexOfKey(before, k)
      case Some(i) =>
        assert after[i] == before[i];
      case None =>
    }
  }

  /** The entry of a key holds the sum and the number of the payments filed under it;
      a key without an entry has no payments. */
  lemma {:induction false} GroupOfKey(key: Payment -> string, payments: seq<Payment>, k: string)
    ensures EntryFits(key, GroupsOf(key, payments), k, payments)
  {
    if payments != [] {
      var init := payments[..|payments| - 1];
      var last := payments[|payments| - 1];
      assert payments == init + [last];
      GroupOfKey(key, init, k);
      EntryFitsStep(key, GroupsOf(key, init), init, last, k);
    }
  }

  /** Every entry holds the sum and the number of the payments filed under its key. */
  lemma {:induction false} GroupsAreSums(key: Payment -> string, payments: seq<Payment>, i: nat)
    requires i < |GroupsOf(key, payments)|
    ensures GroupsOf(key, payments)[i].total ==
      SumOf(Amount, Filter(KeyIs(key, GroupsOf(key, payments)[i].key), payments))
    ensures GroupsOf(key, payments)[i].count == |Filter(KeyIs(key, GroupsOf(key, payments)[i].key), payments)|
  {
    var groups := GroupsOf(key, payments);
    GroupsDistinct(key, payments);
    GroupOfKey(key, payments, groups[i].key);
    FirstIndexUnique(groups, groups[i].key, i);
  }

  /** A key has an entry exactly when some payment is filed under it. */
  lemma {:induction false} GroupPresentIff(key: Payment -> string, payments: seq<Payment>, k: string)
    ensures IndexOfKey(GroupsOf(key, payments), k).Some? <==> exists p :: p in payments && key(p) == k
  {
    GroupOfKey(key, payments, k);
    if IndexOfKey(GroupsOf(key, payments), k).Some? {
      var i := IndexOfKey(GroupsOf(key, payments), k).value;
      GroupsCountPositive(key, payments, i);
      var p := Filter(KeyIs(key, k), payments)[0];
      assert p in payments && key(p) == k;
    }
  }

  lemma {:induction false} GroupsCountPositive(key: Payment -> string, payments: seq<Payment>, i: nat)
    requires i < |GroupsOf(key, payments)|
    ensures GroupsOf(key, payments)[i].count >= 1
  {
    var init := payments[..|payments| - 1];
    if i < |GroupsOf(key, init)| {
      GroupsCountPositive(key, init, i);
    }
  }

  /** The entries add up to the month: their totals to the total, their counts to the
      number of payments. */
  lemma {:induction false} GroupsAddUp(key: Payment -> string, payments: seq<Payment>)
    ensures SumOf(GroupTotal, GroupsOf(key, payments)) == Total(payments)
    ensures SumOf(GroupCount, GroupsOf(key, payments)) == |payments| as real
  {
    if payments != [] {
      var init := payments[..|payments| - 1];
      var last := payments[|payments| - 1];
      assert payments == init + [last];
      var before := GroupsOf(key, init);
      GroupsAddUp(key, init);
      SumOfAppend(Amount, init, [last]);
      match IndexOfKey(before, key(last))
      case Some(i) =>
        var g := Group(key(last), before[i].total + last.amount, before[i].count + 1);
        SumOfUpdate(GroupTotal, before, i, g);
        SumOfUpdate(GroupCount, before, i, g);
      case None =>
        SumOfAppend(GroupTotal, before, [Group(key(last), last.amount, 1)]);
        SumOfAppend(GroupCount, before, [Group(key(last), last.amount, 1)]);
    }
  }

  /** `byType` files a payment under its type. */
  function TypeKey(): Payment -> string
  {
    (p: Payment) => p.paymentType
  }

  /** `byMethod` files a payment under its method, or `Diğer` when it has none. */
  function MethodKey(): Payment -> string
  {
    (p: Payment) => if p.paymentMethod == "" then "Diğer" else p.paymentMethod
  }

  /** `cariPayments`: supplier payments that name the supplier. */
  function NamedCari(): Payment -> bool
  {
    (p: Payment) => p.paymentType == Cari && p.cariName != ""
  }

  function CariKey(): Payment -> string
  {
    (p: Payment) => p.cariName
  }

  /** `(a, b) => b.total - a.total`: larger totals first. */
  function ByTotalDescending(): (Group, Group) -> bool
  {
    (a: Group, b: Group) => b.total - a.total <= 0.0
  }

  lemma {:induction false} ByTotalDescendingTotalPreorder()
    ensures TotalPreorder(ByTotalDescending())
  {
  }

  /** `topCari`: the supplier groups sorted by total, largest first, at most five. */
  function TopCari(payments: seq<Payment>): (r: seq<Group>)
    ensures |r| <= 5
    ensures var groups := GroupsOf(CariKey(), Filter(NamedCari(), payments));
      |r| == if |groups| < 5 then |groups| else 5
  {
    Take(Sort(ByTotalDescending(), GroupsOf(CariKey(), Filter(NamedCari(), payments))), 5)
  }

  /** The first `n` of a sorted list are sorted, and come no later than the rest. */
  lemma {:induction false} TakeOfSorted(s: seq<Group>, n: nat)
    requires SortedBy(ByTotalDescending(), s)
    ensures SortedBy(ByTotalDescending(), Take(s, n))
    ensures forall g, h :: g in s && g !in Take(s, n) && h in Take(s, n) ==> g.total <= h.total
  {
    var r := Take(s, n);
    forall g, h | g in s && g !in r && h in r
      ensures g.total <= h.total
    {
      var j :| 0 <= j < |s| && s[j] == g;
      var i :| 0 <= i < |r| && r[i] == h;
      assert forall t :: 0 <= t < |r| ==> r[t] == s[t];
      assert j >= |r|;
      assert ByTotalDescending()(s[i], s[j]);
    }
  }

  /** The top list is the first five (or all, when fewer) of the supplier groups sorted
      by total, largest first: it is ordered, it is a sub-collection of the groups, and no
      group left out has a larger total than one shown. */
  lemma {:induction false} TopCariFromGroups(payments: seq<Payment>)
    ensures var groups := GroupsOf(CariKey(), Filter(NamedCari(), payments));
      |TopCari(payments)| == (if |groups| < 5 then |groups| else 5) &&
      TopCari(payments) <= Sort(ByTotalDescending(), groups) &&
      multiset(TopCari(payments)) <= multiset(groups)
    ensures SortedBy(ByTotalDescending(), TopCari(payments))
    ensures forall g :: g in TopCari(payments) ==> g in GroupsOf(CariKey(), Filter(NamedCari(), payments))
    ensures forall g, h ::
      (g in GroupsOf(CariKey(), Filter(NamedCari(), payments)) && g !in TopCari(payments) && h in TopCari(payments)) ==>
      g.total <= h.total
  {
    var groups := GroupsOf(CariKey(), Filter(NamedCari(), payments));
    var sorted := Sort(ByTotalDescending(), groups);
    ByTotalDescendingTotalPreorder();
    SortSorted(ByTotalDescending(), groups);
    TakeOfSorted(sorted, 5);
    var top := TopCari(payments);
    assert sorted == top + sorted[|top|..];
    assert multiset(sorted) == multiset(top) + multiset(sorted[|top|..]);
    forall g | g in TopCari(payments)
      ensures g in groups
    {
      assert g in multiset(sorted);
    }
    forall g | g in groups
      ensures g in sorted
    {
      assert g in multiset(sorted);
    }
  }

  /** All supplier groups are shown when there are at most five. */
  lemma {:induction false} FewSuppliersAllShown(payments: seq<Payment>)
    requires |GroupsOf(CariKey(), Filter(NamedCari(), payments))| <= 5
    ensures multiset(TopCari(payments)) == multiset(GroupsOf(CariKey(), Filter(NamedCari(), payments)))
  {
  }

  /** A supplier in the top list carries the sum and the number of its payments. */
  lemma {:induction false} TopCariTotals(payments: seq<Payment>, g: Group)
    requires g in TopCari(payments)
    ensures g.total == SumOf(Amount, Filter(KeyIs(CariKey(), g.key), Filter(NamedCari(), payments)))
    ensures g.count == |Filter(KeyIs(CariKey(), g.key), Filter(NamedCari(), payments))|
    ensures g.key != ""
  {
    var groups := GroupsOf(CariKey(), Filter(NamedCari(), payments));
    TopCariFromGroups(payments);
    var i :| 0 <= i < |groups| && groups[i] == g;
    GroupsAreSums(CariKey(), Filter(NamedCari(), payments), i);
    GroupsCountPositive(CariKey(), Filter(NamedCari(), payments), i);
    var p := Filter(KeyIs(CariKey(), g.key), Filter(NamedCari(), payments))[0];
    assert p in Filter(NamedCari(), payments);
  }

  /** `checks`: the payments made by cheque. */
  function ByCheque(): Payment -> bool
  {
    (p: Payment) => p.paymentMethod == Cek
  }

  datatype CheckStats = CheckStats(total: real, count: nat)

  /** `checkStats`. */
  function ChequeStats(payments: seq<Payment>): (r: CheckStats)
    ensures r.count <= |payments|
    ensures r.count == 0 <==> forall p :: p in payments ==> p.paymentMethod != Cek
  {
    var checks := Filter(ByCheque(), payments);
    CheckStats(SumOf(Amount, checks), |checks|)
  }

  /** The cheque figures are the `cek` entry of the per-method totals. */
  lemma {:induction false} ChequeStatsAreMethodEntry(payments: seq<Payment>)
    ensures IndexOfKey(GroupsOf(MethodKey(), payments), Cek).Some? <==> ChequeStats(payments).count > 0
    ensures IndexOfKey(GroupsOf(MethodKey(), payments), Cek).Some? ==>
      var g := GroupsOf(MethodKey(), payments)[IndexOfKey(GroupsOf(MethodKey(), payments), Cek).value];
      g.total == ChequeStats(payments).total && g.count == ChequeStats(payments).count
  {
    FilterExtensional(KeyIs(MethodKey(), Cek), ByCheque(), payments);
    GroupOfKey(MethodKey(), payments, Cek);
    GroupPresentIff(MethodKey(), payments, Cek);
  }

  /** The six monthly totals, oldest first: `fetched[i]` are the payments of the month
      `i` months before the current one. */
  method MonthlyComparison(fetched: seq<seq<Payment>>) returns (totals: seq<real>)
    requires |fetched| == 6
    ensures |totals| == 6
    ensures forall k :: 0 <= k < 6 ==> totals[k] == Total(fetched[5 - k])
  {
    totals := [];
    var i := 5;
    while i >= 0
      invariant -1 <= i <= 5
      invariant |totals| == 5 - i
      invariant forall k :: 0 <= k < |totals| ==> totals[k] == Total(fetched[5 - k])
    {
      totals := totals + [Total(fetched[i])];
      i := i - 1;
    }
  }

  /** `getTypeLabel`. */
  function TypeLabel(t: string): (r: string)
    ensures t !in {KrediKarti, Cari} ==> r == t
    ensures t == KrediKarti ==> r == "Kredi Kartı"
    ensures t == Cari ==> r == "Cari"
  {
    if t == KrediKarti then "Kredi Kartı" else if t == Cari then "Cari" else t
  }

  /** `getMethodLabel`: transfers (`havale`) and unknown methods keep their key. */
  function MethodLabel(m: string): (r: string)
    ensures m !in {Nakit, Dbs, KrediKarti, Cek} ==> r == m
    ensures m in {Nakit, Dbs, KrediKarti, Cek} ==> r in {"Nakit", "DBS", "Kredi Kartı", "Çek"}
    ensures m == Nakit ==> r == "Nakit"
    ensures m == Dbs ==> r == "DBS"
    ensures m == KrediKarti ==> r == "Kredi Kartı"
    ensures m == Cek ==> r == "Çek"
  {
    if m == Nakit then "Nakit"
    else if m == Dbs then "DBS"
    else if m == KrediKarti then "Kredi Kartı"
    else if m == Cek then "Çek"
    else m
  }

  /** A label is never a key with another label: labelling twice labels once. */
  lemma {:induction false} LabelsIdempotent(t: string)
    ensures TypeLabel(TypeLabel(t)) == TypeLabel(t)
    ensures MethodLabel(MethodLabel(t)) == MethodLabel(t)
  {
  }

  /** Known keys get different labels. */
  lemma {:induction false} MethodLabelsDistinct(a: string, b: string)
    requires a in {Nakit, Dbs, KrediKarti, Cek} && b in {Nakit, Dbs, KrediKarti, Cek} && a != b
    ensures MethodLabel(a) != MethodLabel(b)
  {
  }

  /** What `loadStatistics` sets. */
  datatype Stats = Stats(
    totalPayments: real,
    paymentCount: nat,
    avgPayment: real,
    byType: seq<Group>,
    byMethod: seq<Group>,
    topCari: seq<Group>,
    checkStats: CheckStats,
    monthlyComparison: seq<real>)

  /** `loadStatistics`, given the month's payments and the six months' payments. */
  method LoadStatistics(payments: seq<Payment>, fetched: seq<seq<Payment>>) returns (s: Stats)
    requires |fetched| == 6
    ensures s.totalPayments == Total(payments) && s.paymentCount == |payments|
    ensures s.avgPayment == Average(payments)
    ensures s.byType == GroupsOf(TypeKey(), payments)
    ensures s.byMethod == GroupsOf(MethodKey(), payments)
    ensures s.topCari == TopCari(payments)
    ensures s.checkStats == ChequeStats(payments)
    ensures |s.monthlyComparison| == 6
    ensures forall k :: 0 <= k < 6 ==> s.monthlyComparison[k] == Total(fetched[5 - k])
  {
    var byType := Tally(TypeKey(), payments);
    var byMethod := Tally(MethodKey(), payments);
    var cariGroups := Tally(CariKey(), Filter(NamedCari(), payments));
    var topCari := Take(Sort(ByTotalDescending(), cariGroups), 5);
    var monthly := MonthlyComparison(fetched);
    s := Stats(Total(payments), |payments|, Average(payments), byType, byMethod,
               topCari, ChequeStats(payments), monthly);
  }
}

=== FILE: text.dfy ===
/** String operations the application performs through JavaScript, Python and Rust
    string methods: digit stripping (`replace(/\D/g, '')`), ASCII case mapping,
    `includes`, `startsWith`, `trim`/`strip`, fixed-size chunking (`match(/.{1,4}/g)`)
    and `join`. */
module Text {

  predicate IsDigit(c: char)
  {
    '0' <= c <= '9'
  }

  predicate AllDigits(s: string)
  {
    forall i :: 0 <= i < |s| ==> IsDigit(s[i])
  }

  /** `s.replace(/\D/g, '')`: the digits of `s`, in order. */
  function Digits(s: string): (r: string)
    ensures |r| <= |s|
    ensures AllDigits(r)
    ensures AllDigits(s) ==> r == s
  {
    if s == [] then ""
    else (if IsDigit(s[0]) then [s[0]] else "") + Digits(s[1..])
  }

  lemma {:induction false} DigitsAppend(a: string, b: string)
    ensures Digits(a + b) == Digits(a) + Digits(b)
  {
    if a == [] {
      assert a + b == b;
    } else {
      assert (a + b)[0] == a[0] && (a + b)[1..] == a[1..] + b;
      DigitsAppend(a[1..], b);
    }
  }

  /** `s.replace(/c/g, '')` for a single character. */
  function RemoveChar(s: string, c: char): (r: string)
    ensures c !in r
    ensures |r| <= |s|
    ensures c !in s ==> r == s
  {
    if s == [] then ""
    else (if s[0] == c then "" else [s[0]]) + RemoveChar(s[1..], c)
  }

  lemma {:induction false} RemoveCharAppend(a: string, b: string, c: char)
    ensures RemoveChar(a + b, c) == RemoveChar(a, c) + RemoveChar(b, c)
  {
    if a == [] {
      assert a + b == b;
    } else {
      assert (a + b)[0] == a[0] && (a + b)[1..] == a[1..] + b;
      RemoveCharAppend(a[1..], b, c);
    }
  }

  /** `s.indexOf(c)`: the first position of `c`, if any. */
  function IndexOf(s: string, c: char): (r: int)
    ensures -1 <= r < |s|
    ensures r == -1 <==> c !in s
    ensures r >= 0 ==> s[r] == c && c !in s[..r]
  {
    if s == [] then -1
    else if s[0] == c then 0
    else
      var k := IndexOf(s[1..], c);
      assert s[1..][..if k < 0 then 0 else k] == s[1..if k < 0 then 1 else k + 1];
      if k < 0 then -1 else k + 1
  }

  /** `s.replace(c, d)` with a string pattern: only the first occurrence changes. */
  function ReplaceFirst(s: string, c: char, d: char): (r: string)
    ensures |r| == |s|
    ensures c !in s ==> r == s
    ensures c in s ==> r == s[..IndexOf(s, c)] + [d] + s[IndexOf(s, c) + 1..]
  {
    var i := IndexOf(s, c);
    if i < 0 then s else s[..i] + [d] + s[i + 1..]
  }

  function CountChar(s: string, c: char): nat
  {
    if s == [] then 0 else (if s[0] == c then 1 else 0) + CountChar(s[1..], c)
  }

  function AsciiLower(c: char): char
  {
    if 'A' <= c <= 'Z' then (c as int + 32) as char else c
  }

  function AsciiUpper(c: char): char
  {
    if 'a' <= c <= 'z' then (c as int - 32) as char else c
  }

  /** `s.toLowerCase()`, restricted to the ASCII letters. */
  function Lower(s: string): (r: string)
    ensures |r| == |s|
    ensures forall i :: 0 <= i < |s| ==> r[i] == AsciiLower(s[i])
  {
    if s == [] then "" else [AsciiLower(s[0])] + Lower(s[1..])
  }

  /** `s.to_uppercase()`, restricted to the ASCII letters. */
  function Upper(s: string): (r: string)
    ensures |r| == |s|
    ensures forall i :: 0 <= i < |s| ==> r[i] == AsciiUpper(s[i])
  {
    if s == [] then "" else [AsciiUpper(s[0])] + Upper(s[1..])
  }

  lemma {:induction false} LowerIdempotent(s: string)
    ensures Lower(Lower(s)) == Lower(s)
  {
  }

  /** `s.includes(t)`. */
  predicate Contains(s: string, t: string)
    decreases |s|
  {
    t <= s || (s != [] && Contains(s[1..], t))
  }

  /** `t` occurs in `s` at position `i`. */
  lemma {:induction false} ContainsAt(s: string, t: string, i: nat)
    requires i + |t| <= |s|
    ensures Contains(s, t) <== s[i..i + |t|] == t
    decreases i
  {
    if s[i..i + |t|] == t && i > 0 {
      assert s[1..][i - 1..i - 1 + |t|] == s[i..i + |t|];
      ContainsAt(s[1..], t, i - 1);
    }
  }

  /** `s.startsWith(p)`. */
  predicate StartsWith(s: string, p: string)
  {
    p <= s
  }

  /** White space removed by JavaScript's `trim` and Python's `strip` (ASCII part). */
  predicate IsSpace(c: char)
  {
    c == ' ' || c == '\t' || c == '\n' || c == '\r' || c == '\U{B}' || c == '\U{C}'
  }

  function TrimStart(s: string): (r: string)
    ensures |r| <= |s| && r == s[|s| - |r|..]
    ensures r == "" || !IsSpace(r[0])
    ensures forall i :: 0 <= i < |s| - |r| ==> IsSpace(s[i])
  {
    if s == [] then ""
    else if IsSpace(s[0]) then TrimStart(s[1..])
    else s
  }

  function TrimEnd(s: string): (r: string)
    ensures |r| <= |s| && r == s[..|r|]
    ensures r == "" || !IsSpace(r[|r| - 1])
    ensures forall i :: |r| <= i < |s| ==> IsSpace(s[i])
  {
    if s == [] then ""
    else if IsSpace(s[|s| - 1]) then TrimEnd(s[..|s| - 1])
    else s
  }

  /** `s.trim()` / `s.strip()`: `s` without its leading and trailing white space. */
  function Trim(s: string): (r: string)
    ensures r == "" || (!IsSpace(r[0]) && !IsSpace(r[|r| - 1]))
    ensures Contains(s, r)
    ensures s == "" || (!IsSpace(s[0]) && !IsSpace(s[|s| - 1])) ==> r == s
  {
    var e := TrimEnd(s);
    var t := TrimStart(e);
    assert t == s[|e| - |t|..|e|];
    ContainsAt(s, t, |e| - |t|);
    t
  }

  /** `s.match(/.{1,n}/g) || []` on a string without line breaks: consecutive pieces
      of `n` characters, the last one possibly shorter. */
  function Chunks(s: string, n: nat): (r: seq<string>)
    requires n > 0
    ensures forall k :: 0 <= k < |r| ==> 0 < |r[k]| <= n
    ensures forall k :: 0 <= k < |r| - 1 ==> |r[k]| == n
    ensures s == [] <==> r == []
    decreases |s|
  {
    if s == [] then []
    else if |s| <= n then [s]
    else [s[..n]] + Chunks(s[n..], n)
  }

  /** `parts.join(sep)`. */
  function Join(parts: seq<string>, sep: string): (r: string)
  {
    if parts == [] then ""
    else if |parts| == 1 then parts[0]
    else parts[0] + sep + Join(parts[1..], sep)
  }

  /** Concatenating the chunks gives the string back. */
  lemma {:induction false} ChunksConcat(s: string, n: nat)
    requires n > 0
    ensures Join(Chunks(s, n), "") == s
    decreases |s|
  {
    if s != [] && |s| > n {
      ChunksConcat(s[n..], n);
      assert s == s[..n] + s[n..];
    }
  }

  /** Joining digit-only parts with a separator of non-digits: the digits come back. */
  lemma {:induction false} DigitsOfJoin(parts: seq<string>, sep: string)
    requires forall k :: 0 <= k < |parts| ==> AllDigits(parts[k])
    requires Digits(sep) == ""
    ensures Digits(Join(parts, sep)) == Join(parts, "")
  {
    if |parts| > 1 {
      DigitsOfJoin(parts[1..], sep);
      DigitsAppend(parts[0] + sep, Join(parts[1..], sep));
      DigitsAppend(parts[0], sep);
    }
  }

  lemma {:induction false} JoinLength(parts: seq<string>, sep: string)
    requires parts != []
    ensures |Join(parts, sep)| == |Join(parts, "")| + (|parts| - 1) * |sep|
  {
    if |parts| > 1 {
      JoinLength(parts[1..], sep);
    }
  }

  lemma {:induction false} ChunksAllDigits(s: string, n: nat)
    requires n > 0
    requires AllDigits(s)
    ensures forall k :: 0 <= k < |Chunks(s, n)| ==> AllDigits(Chunks(s, n)[k])
    decreases |s|
  {
    if s != [] && |s| > n {
      ChunksAllDigits(s[n..], n);
    }
  }

  /** A string of `n` characters falls into `(n + 3) / 4` pieces of at most four. */
  lemma {:induction false} ChunkCount4(s: string)
    ensures |Chunks(s, 4)| == (|s| + 3) / 4
    decreases |s|
  {
    if |s| > 4 {
      ChunkCount4(s[4..]);
    }
  }

  /** `r` is `s` in groups of four joined by `c`: `c` at every fifth position, and the
      characters of `s`, in order, at all the others. */
  predicate GroupedByFour(r: string, s: string, c: char)
  {
    forall k :: 0 <= k < |r| ==>
      if k % 5 == 4 then r[k] == c else k - k / 5 < |s| && r[k] == s[k - k / 5]
  }

  /** Where the separators of `Join(Chunks(s, 4), [c])` fall. */
  lemma {:induction false} GroupedLayout(s: string, c: char)
    ensures GroupedByFour(Join(Chunks(s, 4), [c]), s, c)
  {
    var r := Join(Chunks(s, 4), [c]);
    forall k | 0 <= k < |r|
      ensures if k % 5 == 4 then r[k] == c else k - k / 5 < |s| && r[k] == s[k - k / 5]
    {
      GroupedCharAt(s, c, k);
    }
  }

  /** One position of `Join(Chunks(s, 4), [c])`. */
  lemma {:induction false} GroupedCharAt(s: string, c: char, k: nat)
    requires k < |Join(Chunks(s, 4), [c])|
    ensures var r := Join(Chunks(s, 4), [c]);
      if k % 5 == 4 then r[k] == c else k - k / 5 < |s| && r[k] == s[k - k / 5]
    decreases |s|
  {
    var r := Join(Chunks(s, 4), [c]);
    if |s| > 4 {
      var tail := Chunks(s[4..], 4);
      var t := Join(tail, [c]);
      assert Chunks(s, 4) == [s[..4]] + tail;
      assert ([s[..4]] + tail)[1..] == tail;
      assert r == s[..4] + [c] + t;
      if k >= 5 {
        assert r[k] == t[k - 5];
        GroupedCharAt(s[4..], c, k - 5);
        ShiftByFive(k);
      } else if k < 4 {
        SmallPosition(k);
        assert r[k] == s[k];
      }
    } else {
      assert r == s;
      SmallPosition(k);
    }
  }

  lemma {:induction false} ShiftByFive(k: int)
    requires k >= 5
    ensures (k - 5) % 5 == k % 5 && (k - 5) / 5 == k / 5 - 1
  {
  }

  lemma {:induction false} SmallPosition(k: nat)
    requires k < 4
    ensures k % 5 == k && k / 5 == 0
  {
  }

  /** JavaScript's `a < b` on strings: code unit by code unit, a proper prefix first. */
  predicate StrLt(a: string, b: string)
    decreases |a|
  {
    if a == [] then b != []
    else if b == [] then false
    else if a[0] != b[0] then a[0] < b[0]
    else StrLt(a[1..], b[1..])
  }

  lemma {:induction false} StrLtIrreflexive(a: string)
    ensures !StrLt(a, a)
    decreases |a|
  {
    if a != [] {
      StrLtIrreflexive(a[1..]);
    }
  }

  lemma {:induction false} StrLtTransitive(a: string, b: string, c: string)
    requires StrLt(a, b) && StrLt(b, c)
    ensures StrLt(a, c)
    decreases |a|
  {
    if a != [] && b != [] && c != [] && a[0] == b[0] && b[0] == c[0] {
      StrLtTransitive(a[1..], b[1..], c[1..]);
    }
  }

  lemma {:induction false} StrLtTotal(a: string, b: string)
    requires a != b
    ensures StrLt(a, b) || StrLt(b, a)
    decreases |a|
  {
    if a != [] && b != [] && a[0] == b[0] {
      assert a == [a[0]] + a[1..] && b == [b[0]] + b[1..];
      StrLtTotal(a[1..], b[1..]);
    }
  }

  /** `!(b < a)`: the order `a` comes no later than `b` in an ascending string sort. */
  predicate StrLe(a: string, b: string)
  {
    !StrLt(b, a)
  }

  /** `StrLe` is total and transitive. */
  lemma {:induction false} StrLeTotalPreorder(a: string, b: string, c: string)
    ensures StrLe(a, b) || StrLe(b, a)
    ensures StrLe(a, b) && StrLe(b, c) ==> StrLe(a, c)
  {
    if StrLt(b, a) && StrLt(a, b) {
      StrLtTransitive(a, b, a);
      StrLtIrreflexive(a);
    }
    if StrLe(a, b) && StrLe(b, c) && StrLt(c, a) {
      if a == b {
      } else if b == c {
      } else {
        StrLtTotal(a, b);
        StrLtTotal(b, c);
        StrLtTransitive(a, b, c);
        StrLtTransitive(c, a, c);
        StrLtIrreflexive(c);
      }
    }
  }
}
